=== FILE: README.md ===
# Metal Hub marketplace core, modelled in Dafny

Metal Hub is a marketplace where sellers list metal stock and buyers find it.
Buyers make offers and chat with sellers, and sellers pay for membership
plans. This project models the services behind it and the browser-side
helpers of the search and listing pages:

- **Backend services** (NestJS):
  - authentication, with registration, password login, WhatsApp one-time codes and the free trial;
  - the cache service, with its one-time codes, login-attempt counters, trial flags and token blacklist;
  - the request rate limiter;
  - memberships and their limits;
  - listings, with creation quota, search, edit and delete;
  - offers, chats and payments;
  - the admin moderation service.
- **Request validation**: the class-validator rules of the listing and authentication request bodies.
- **Frontend helpers** (Next.js):
  - the search-engine metadata of the listing pages;
  - the search page's URL-parameter state (chips, country toggles, paging);
  - the browse page's client-side filter and sort;
  - the four-step listing wizard.

The database is one `Schema.Db` object with one map per table, keyed by
a numeric id. Its `Valid()` predicate states the constraints the services
rely on:

- every row is stored under its own id;
- every profile, membership and payment belongs to a stored user;
- e-mail addresses and phone numbers are unique;
- a user has at most one ACTIVE membership;
- a listing and buyer pair has at most one chat;
- gateway order ids are unique.

Each service operation is a method on that object. Its frame lists the tables
it writes. Its `ensures` ties the new tables to a pure function of the old
ones, and the lemmas beside that function state what the service promises.

Redis is a `KeyValue.Store` object: a map from key to value with an optional
expiry in milliseconds. `URLSearchParams` is a `UrlParams.Params` object over
a list of pairs. The listing wizard is a `CreateWizard.Wizard` object whose
fields are the page's state.

Time is one integer clock in milliseconds, passed in as `now`. Several inputs
are parameters:

- the random one-time code;
- the gateway's order id;
- the password digest;
- the environment settings.

## Model

| member | source | states |
|---|---|---|
| Auth.UserByEmail | backend/src/auth/auth.service.ts:33-36 | finds a user exactly when a stored row has that e-mail, and the row it returns has it |
| Auth.UserByPhone | backend/src/auth/auth.service.ts:43-46 | finds a user exactly when a stored row has that phone, and the row it returns has it |
| Auth.RegisterError | backend/src/auth/auth.service.ts:33-50 | a refused registration is a conflict (or an internal uniqueness failure), never anything else |
| Auth.RegisterErrorOrder | backend/src/auth/auth.service.ts:33-50 | a taken e-mail is reported before a taken phone; a form passes exactly when neither contact it carries is on record |
| Auth.NewUser | backend/src/auth/auth.service.ts:52-67 | the inserted user is ACTIVE, carries the form's contacts and role, has a password hash exactly when a password was given, and counts a contact verified exactly when it is absent |
| Auth.NewUserKeepsContacts | backend/src/auth/auth.service.ts:33-67 | a form that passes the checks adds a user without breaking e-mail or phone uniqueness |
| Auth.TrialEnd | backend/src/auth/auth.service.ts:77-98 | the free membership has an end date exactly on a trial, and then it lies 7 days after now |
| Auth.InsertAccount | backend/src/auth/auth.service.ts:52-75 | the user and its profile are stored under fresh ids and the database stays valid |
| Auth.InsertFreeMembership | backend/src/auth/auth.service.ts:82-97 | one FREE membership is added for a user that had none, and the database stays valid |
| Auth.StartMembership | backend/src/auth/auth.service.ts:77-108 | the FREE membership (a 7-day trial for an eligible device, which then marks the device), and one successful login record |
| Auth.CreateAccount | backend/src/auth/auth.service.ts:52-108 | the writes of an accepted registration in order: user, profile, FREE membership with trial end, trial flag, login record; nothing else changes |
| Auth.Register | backend/src/auth/auth.service.ts:32-111 | a refused form writes nothing and returns the error; an accepted one makes exactly the writes of `CreateAccount` and returns the new user's summary |
| Auth.LoginGate | backend/src/auth/auth.service.ts:114-132 | unknown e-mail or no password gives invalid credentials, a non-ACTIVE account gives blocked, too many attempts gives 429; success returns exactly the user looked up |
| Auth.LockedOut | backend/src/auth/auth.service.ts:126-132 | once the attempts reach the maximum, every login from that IP is refused before the password is compared |
| Auth.Login | backend/src/auth/auth.service.ts:113-163 | refusals at the gate write nothing; a wrong password bumps the IP counter and logs a failed login; a right one clears the counter and logs a successful login |
| Auth.SixDigitCode | backend/src/auth/auth.service.ts:176 | every code drawn in [100000, 999999] is written with exactly six digits |
| Auth.SendWhatsAppOtp | backend/src/auth/auth.service.ts:165-203 | an unknown phone is refused with nothing stored; on success the phone's code reads back as six digits |
| Auth.OtpGate | backend/src/auth/auth.service.ts:206-223 | a missing or different code is refused first, then an unknown phone, then a non-ACTIVE account; success returns the user with that phone |
| Auth.VerifyOtp | backend/src/auth/auth.service.ts:205-245 | on success the phone is verified, the code is gone at every time, so presenting any code for that phone again is refused as invalid, a login is recorded, and the answer carries the row read before the update |
| Auth.ValidateUser | backend/src/auth/auth.service.ts:247-258 | a user is returned exactly when it exists and is ACTIVE, and it is the stored row |
| Cache.NamespacesDisjoint | backend/src/redis/redis.service.ts:36-94 | no OTP key is a login-attempt, trial or blacklist key, and so on pairwise |
| Cache.KeysInjective | backend/src/redis/redis.service.ts:36-94 | in each namespace different names give different keys |
| Cache.Counter | backend/src/redis/redis.service.ts:54 | an absent counter reads as 0 for INCR |
| Cache.CountHit | backend/src/redis/redis.service.ts:52-59 | INCR then PEXPIRE on the first hit: the count goes up by one and keeps its expiry, the first hit arms the window, a non-integer value is an error that changes nothing, and no other key changes |
| Cache.SetOtp | backend/src/redis/redis.service.ts:36-39 | the code is stored under the phone's key and reads back until `minutes` minutes have passed; a non-positive time is refused |
| Cache.DeleteOtp | backend/src/redis/redis.service.ts:46-49 | afterwards no code is stored for the phone at any time |
| Cache.IncrementLoginAttempts | backend/src/redis/redis.service.ts:52-59 | returns the previous count plus one; the window is armed only on the first attempt and later attempts keep the expiry; the count reads back through `getLoginAttempts` |
| Cache.GetLoginAttempts | backend/src/redis/redis.service.ts:61-65 | an absent or empty counter reads as 0 |
| Cache.ResetLoginAttempts | backend/src/redis/redis.service.ts:67-70 | afterwards the count reads 0 at every time |
| Cache.SetTrialUsed | backend/src/redis/redis.service.ts:73-76 | the device's flag is stored with no expiry and is seen at every time |
| Cache.TrialFlagsIndependent | backend/src/redis/redis.service.ts:73-82 | setting one device's flag leaves every other device's answer as it was |
| Cache.BlacklistToken | backend/src/redis/redis.service.ts:85-94 | the token is blacklisted until `seconds` have passed; a non-positive time is refused |
| Cache.Put | backend/src/redis/redis.service.ts:101-107 | a truthy TTL stores with that expiry, an absent or zero one stores persistently, and the value reads back at once |
| KeyValue.Store.Get | backend/src/redis/redis.service.ts:97-99 | a value is returned exactly when the key is stored and not expired, and it is the stored value |
| KeyValue.Store.Set | backend/src/redis/redis.service.ts:105 | the value is stored without expiry and reads back at every time |
| KeyValue.Store.SetEx | backend/src/redis/redis.service.ts:38 | succeeds exactly for a positive time; the value reads back before the expiry and is gone from it on |
| KeyValue.Store.Del | backend/src/redis/redis.service.ts:109-111 | the key is removed and reads as absent at every time |
| KeyValue.Store.Incr | backend/src/redis/redis.service.ts:54 | absent becomes "1" with no expiry; an integer goes up by one and keeps its expiry; anything else is an error and changes nothing; the result reads back |
| KeyValue.Store.PExpire | backend/src/redis/redis.service.ts:56 | a live key gets an expiry `ms` from now, or is deleted for a non-positive `ms`; a missing key is left alone |
| RateLimit.ClientIp | backend/src/security/rate-limit.middleware.ts:10 | the request IP, else the socket address, else "unknown" |
| RateLimit.RateKeyOwnNamespace | backend/src/security/rate-limit.middleware.ts:11 | the limiter's key never collides with a cache-service key |
| RateLimit.Decide | backend/src/security/rate-limit.middleware.ts:20-27 | 429 exactly when the count passes the maximum; otherwise the limit and `max(0, max - count)` as remaining |
| RateLimit.DecideBoundary | backend/src/security/rate-limit.middleware.ts:20-27 | the request reaching the maximum passes with 0 remaining, the next is rejected, and an allowed request's remaining is `max - count` and never negative |
| RateLimit.Use | backend/src/security/rate-limit.middleware.ts:9-30 | a stored non-integer is an error that writes nothing; otherwise one increment and the verdict of `Decide` on the new count, also on the first hit of a window with a numeric window setting, which arms the expiry at now plus the window (or deletes the key for a non-positive window); a non-numeric window on the first hit is an error; no other key is touched |
| Memberships.NewestActive | backend/src/membership/membership.service.ts:10-16 | the newest ACTIVE membership of the user, if it has any |
| Memberships.CurrentMembership | backend/src/membership/membership.service.ts:9-45 | the returned row is an ACTIVE membership of the user that has not lapsed, stored under its own id in the healed table, which gains at most one row |
| Memberships.NewestIsStored | backend/src/membership/membership.service.ts:10-16 | the row found is stored under its own id and belongs to the user |
| Memberships.NoneActiveCreatesFree | backend/src/membership/membership.service.ts:18-26 | with no ACTIVE membership a FREE one without end date is created and returned |
| Memberships.LapsedExpires | backend/src/membership/membership.service.ts:28-42 | a lapsed newest ACTIVE membership becomes EXPIRED and a new FREE one is created and returned |
| Memberships.UnlapsedReturnedAsIs | backend/src/membership/membership.service.ts:44 | an unlapsed membership is returned unchanged and nothing is written |
| Memberships.CurrentMembershipOthersUnchanged | backend/src/membership/membership.service.ts:9-45 | only rows of the user are added or changed |
| Memberships.CurrentMembershipKeepsOneActive | backend/src/membership/membership.service.ts:9-45 | the healing keeps at most one ACTIVE membership per user |
| Memberships.CurrentMembershipIdempotent | backend/src/membership/membership.service.ts:9-45 | a second call at the same time returns the same row and writes nothing |
| Memberships.UpgradeEffect | backend/src/membership/membership.service.ts:47-66 | every ACTIVE row of the user is CANCELLED, other rows are unchanged, and the new row is the user's only ACTIVE one, with the plan and end date given |
| Memberships.UpgradeKeepsOneActive | backend/src/membership/membership.service.ts:47-66 | an upgrade keeps at most one ACTIVE membership per user |
| Memberships.LimitsFor | backend/src/membership/membership.service.ts:71-92 | every plan may negotiate, a plan may feature exactly when it has a featured-listing count, and only FREE has a finite listing cap |
| Memberships.LimitsMonotone | backend/src/membership/membership.service.ts:71-92 | a higher plan allows strictly more images and never fewer listings |
| Memberships.HealedRowsOk | backend/src/membership/membership.service.ts:9-45 | the healed table still meets the membership constraints |
| Memberships.GetCurrentMembership | backend/src/membership/membership.service.ts:9-45 | the table becomes the healed one and the returned row is `CurrentMembership`'s |
| Memberships.UpgradeMembership | backend/src/membership/membership.service.ts:47-66 | the table becomes the upgraded one and the new row is returned |
| Memberships.CheckMembershipLimits | backend/src/membership/membership.service.ts:68-95 | the tables and id counter become the healed ones, and the limits are those of the healed current membership's plan |
| Listings.ImageRows | backend/src/listings/listings.service.ts:66-74 | one image row per URL, in order, each pointing at the listing |
| Listings.NewListingDefaults | backend/src/listings/listings.service.ts:42-63 | a created listing is PENDING, owned by the caller, and takes the documented defaults |
| Listings.RejectedDoesNotCount | backend/src/listings/listings.service.ts:17-39 | a REJECTED listing never changes the quota count |
| Listings.NewListingCounts | backend/src/listings/listings.service.ts:17-63 | a new PENDING listing raises its seller's quota count by one |
| Listings.FreeSellerStaysWithinQuota | backend/src/listings/listings.service.ts:17-39 | a seller on no plan or the FREE plan never gets past three counted listings through `create` |
| Listings.PaidPlanNeverLimited | backend/src/listings/listings.service.ts:17-39 | a paid newest ACTIVE membership is never limited, even when it has lapsed |
| Listings.QuotaMatchesLimits | backend/src/listings/listings.service.ts:17-39 | the quota of three agrees with the FREE row of the limits table |
| Listings.Create | backend/src/listings/listings.service.ts:15-77 | over quota writes nothing and is refused; otherwise the PENDING listing and one image row per URL are stored and returned |
| Listings.Insert | backend/src/listings/listings.service.ts:42-74 | the listing and then its images are stored under fresh ids |
| Listings.WhereHeadHolds | backend/src/listings/listings.service.ts:84-116 | the status, role, `in`, `hasSome` and equality entries, each set only when its filter is supplied, hold exactly for an APPROVED listing that satisfies those filters |
| Listings.WhereTailHolds | backend/src/listings/listings.service.ts:118-150 | the `createdAt` cut-off, the metal type, the one `price` range with whichever bounds are given, and the location entry hold exactly when the listing satisfies those filters |
| Listings.SearchOrHolds | backend/src/listings/listings.service.ts:124-129 | the `OR` of the two case-insensitive `contains` entries holds exactly when the title or the description contains the search text |
| Listings.WhereHoldsIffMatches | backend/src/listings/listings.service.ts:84-150 | the ORM's entry-by-entry evaluation of the built `where` object holds for a listing exactly when it matches the query |
| Listings.WhereSelectsMatches | backend/src/listings/listings.service.ts:84-150 | the `where` object selects exactly the listings that satisfy every supplied filter |
| Listings.PageOf | backend/src/listings/listings.service.ts:80 | the page is the one requested (negative ones included) when it is given and nonzero, and 1 otherwise |
| Listings.LimitOf | backend/src/listings/listings.service.ts:81 | the limit is never 0: the one requested (negative ones included) when it is given and nonzero, and 20 otherwise |
| Listings.FindAll | backend/src/listings/listings.service.ts:79-206 | returns the page, or the negative-skip error, of `Search` for the query and writes nothing |
| Listings.SearchPageSound | backend/src/listings/listings.service.ts:79-206 | the search fails with the database's negative-skip error exactly when the page is below 1 with a positive limit or above 1 with a negative one; otherwise each listing on the page is stored, APPROVED and matches, the page is in the requested order with at most as many rows as the absolute value of the limit, the total counts every match and the page count is `Math.ceil(total / limit)` |
| Listings.SearchFindsEveryMatch | backend/src/listings/listings.service.ts:79-206 | with a positive limit, every matching listing appears on some page between 1 and the page count |
| Listings.OrderTable | backend/src/listings/listings.service.ts:152-159 | `price-low` is ascending price, `price-high` descending, anything else newest first |
| Listings.ZeroPriceIsNoBound | backend/src/listings/listings.service.ts:135-143 | a price bound of 0 is falsy and excludes nothing |
| Listings.FindOne | backend/src/listings/listings.service.ts:208-238 | the stored listing, or NotFound |
| Listings.Authorize | backend/src/listings/listings.service.ts:240-250 | NotFound for a missing listing, then Forbidden for a listing of another seller |
| Listings.Edited | backend/src/listings/listings.service.ts:253-267 | the edit applied, and an APPROVED listing goes back to PENDING |
| Listings.EditTouchesOnlySuppliedFields | backend/src/listings/listings.service.ts:253-267 | exactly the supplied fields change; every other column stays |
| Listings.EditLeavesCountryStale | backend/src/listings/listings.service.ts:253-267 | moving a listing to another country leaves the searched `country` column at the old value |
| Listings.Update | backend/src/listings/listings.service.ts:240-270 | the errors of `Authorize` write nothing; otherwise the edited listing is stored and returned |
| Listings.Delete | backend/src/listings/listings.service.ts:272-290 | the errors of `Authorize` write nothing; otherwise exactly that listing is removed |
| Listings.MyListings | backend/src/listings/listings.service.ts:292-308 | exactly the caller's stored listings, whatever their status, each once (the length is their number), newest first |
| Offers.CheckOfferTarget | backend/src/offers/offers.service.ts:21-36 | listing missing, not APPROVED, own listing, not negotiable: refused in that order |
| Offers.CreateOffer | backend/src/offers/offers.service.ts:14-59 | a refusal writes nothing; otherwise exactly one PENDING offer from the caller is added |
| Offers.OfferAfterAcceptance | backend/src/offers/offers.service.ts:14-59 | a listing with an ACCEPTED offer still takes new offers |
| Offers.ListingOffers | backend/src/offers/offers.service.ts:61-84 | only the seller sees the listing's offers: every stored offer on it, each once (the length is their number), newest first |
| Offers.MyOffers | backend/src/offers/offers.service.ts:86-101 | exactly the caller's stored offers, each once (the length is their number), newest first |
| Offers.CheckOfferOwner | backend/src/offers/offers.service.ts:109-115 | NotFound for a missing offer, Forbidden unless the caller owns its listing |
| Offers.CheckAccept | backend/src/offers/offers.service.ts:109-119 | the owner checks, then the offer must be PENDING |
| Offers.RejectPendingSiblings | backend/src/offers/offers.service.ts:128-135 | the PENDING offers on the listing other than the target become REJECTED and nothing else changes |
| Offers.AcceptEffect | backend/src/offers/offers.service.ts:122-135 | the target is ACCEPTED, the other PENDING offers on its listing are REJECTED, every other offer is unchanged, and none on the listing stays PENDING |
| Offers.AcceptKeepsTerminal | backend/src/offers/offers.service.ts:122-135 | accepting never changes an ACCEPTED or REJECTED offer |
| Offers.AcceptOffer | backend/src/offers/offers.service.ts:103-138 | refusals write nothing; otherwise the offer table becomes `AfterAccept` and the updated offer is returned |
| Offers.RejectOffer | backend/src/offers/offers.service.ts:140-160 | after the owner checks, the offer becomes REJECTED whatever its status, and no other offer changes |
| Offers.RejectOverturnsAcceptance | backend/src/offers/offers.service.ts:140-160 | an ACCEPTED offer can still be rejected |
| Offers.TwoAcceptedOffers | backend/src/offers/offers.service.ts:14-138 | accepting a later offer on a listing leaves two ACCEPTED offers on it |
| Chats.CheckAccess | backend/src/chat/chat.service.ts:91-97 | NotFound for a missing chat, Forbidden unless the caller is its buyer or seller |
| Chats.ChatMessages | backend/src/chat/chat.service.ts:84-86 | every stored message of the chat, once per row, and no other, oldest first |
| Chats.GetChat | backend/src/chat/chat.service.ts:69-100 | after the access checks, the chat with as many of its stored messages as it has, up to 50, and only messages of that chat |
| Chats.GetChatMessages | backend/src/chat/chat.service.ts:84-87 | the messages returned number min(50, the chat's messages), ascending, and every message left out is at least as new as each one returned |
| Chats.UserChats | backend/src/chat/chat.service.ts:102-126 | exactly the stored chats where the caller is buyer or seller, each once (the length is their number), most recently active first |
| Chats.FindChat | backend/src/chat/chat.service.ts:30-37 | finds a chat exactly when one exists for the listing and buyer pair |
| Chats.NewChatKeepsUnique | backend/src/chat/chat.service.ts:44-59 | a new chat for a pair with none keeps one chat per pair |
| Chats.TouchKeepsUnique | backend/src/chat/chat.service.ts:151-155 | moving `lastMessageAt` keeps one chat per pair |
| Chats.SendMessage | backend/src/chat/chat.service.ts:128-158 | after the access checks, exactly one message from the caller is added and only that chat's `lastMessageAt` moves |
| Chats.CheckChatTarget | backend/src/chat/chat.service.ts:21-27 | a missing listing, then a chat with oneself, is refused |
| Chats.OpenChat | backend/src/chat/chat.service.ts:44-66 | a fresh chat between caller and seller, with one first message from the caller when one is given |
| Chats.InsertChat | backend/src/chat/chat.service.ts:44-59 | the chat is stored under a fresh id and the database stays valid |
| Chats.FindChatUnique | backend/src/chat/chat.service.ts:30-41 | the lookup finds the one chat of the pair |
| Chats.CreateChat | backend/src/chat/chat.service.ts:14-67 | an existing chat of the pair is returned untouched and the initial message dropped; otherwise one chat is opened |
| Chats.SecondCreateFindsFirst | backend/src/chat/chat.service.ts:14-67 | after the open branch stores a chat for a pair that had none, the pair has exactly that one chat, the guard still passes and the lookup of a second call finds that chat, so by `CreateChat`'s contract the second call writes nothing |
| Payments.PlanPrice | backend/src/payment/payment.service.ts:23-27 | a plan's price in paise is zero exactly for FREE and is always a whole number of rupees |
| Payments.RupeesExact | backend/src/payment/payment.service.ts:52-61 | dividing the price by 100 loses nothing; SILVER costs 999 rupees and GOLD 2499 |
| Payments.FindPayment | backend/src/payment/payment.service.ts:98-100 | finds a payment exactly when one has that order id |
| Payments.FindPaymentUnique | backend/src/payment/payment.service.ts:98-104 | the lookup finds the one payment of the order |
| Payments.UpdateKeepsOrders | backend/src/payment/payment.service.ts:106-113 | changing a payment's status keeps order ids unique |
| Payments.CreateOrder | backend/src/payment/payment.service.ts:22-69 | the FREE plan is refused with nothing written; otherwise one CREATED payment of the price in rupees for the gateway's order |
| Payments.Capture | backend/src/payment/payment.service.ts:93-137 | the payment becomes SUCCESS with the gateway id, and the user's ACTIVE memberships give way to one ACTIVE paid membership ending 30 days from now |
| Payments.Fail | backend/src/payment/payment.service.ts:139-151 | a known order's payment becomes FAILED; an unknown one changes nothing |
| Payments.HandleWebhook | backend/src/payment/payment.service.ts:84-154 | the event is logged first and stays logged even when the capture fails; then the event type picks the branch |
| Payments.CaptureLeavesOneActive | backend/src/payment/payment.service.ts:93-137 | after a capture the payer has exactly one ACTIVE membership, the new one, also after a redelivered capture |
| Admin.CheckAction | backend/src/admin/admin.service.ts:21-25 | non-admins are refused first, then a missing target |
| Admin.Guard | backend/src/admin/guards/admin.guard.ts:8-22 | no user, then a non-admin user, is refused |
| Admin.SetUserStatus | backend/src/admin/admin.service.ts:74-114 | after the checks, the target takes the status and exactly one log entry is added |
| Admin.BanUser | backend/src/admin/admin.service.ts:74-93 | the target becomes BANNED and one BAN_USER entry is logged |
| Admin.SuspendUser | backend/src/admin/admin.service.ts:95-114 | the target becomes SUSPENDED and one SUSPEND_USER entry is logged |
| Admin.BannedAdminStaysAdmin | backend/src/admin/admin.service.ts:14-19 | an admin who has been banned is still an admin |
| Admin.Moderated | backend/src/admin/admin.service.ts:147-214 | approve and reject set the status whatever it was; feature marks the listing featured for the given days and keeps the status |
| Admin.ModeratedIdempotent | backend/src/admin/admin.service.ts:147-214 | repeating a listing action changes the row no further |
| Admin.FeatureDays | backend/src/admin/admin.controller.ts:65 | the given days, or 7 when absent or 0 |
| Admin.ModerateListing | backend/src/admin/admin.service.ts:147-214 | after the checks, exactly that listing changes and exactly one log entry is added |
| Admin.ApproveListing | backend/src/admin/admin.service.ts:147-166 | a non-admin is refused with Forbidden before a missing listing with NotFound, writing nothing; otherwise the listing becomes APPROVED and one entry is logged |
| Admin.RejectListing | backend/src/admin/admin.service.ts:168-187 | a non-admin is refused with Forbidden before a missing listing with NotFound, writing nothing; otherwise the listing becomes REJECTED, and the reason goes to the log only |
| Admin.FeatureListing | backend/src/admin/admin.service.ts:189-214 | a non-admin is refused with Forbidden before a missing listing with NotFound, writing nothing; otherwise the listing is featured until the given days from now, and one entry is logged |
| Admin.PendingListingsSound | backend/src/admin/admin.service.ts:117-145 | with the controller's defaults (page 1 and limit 20 for an absent or zero value), the call fails with the negative-skip error exactly when the page is below 1 with a positive limit or above 1 with a negative one; otherwise the page holds stored PENDING listings only, newest first and no more of them than the absolute value of the limit, the total counts every PENDING listing and the page count is `Math.ceil(total / limit)` |
| Admin.AllUsersSound | backend/src/admin/admin.service.ts:39-72 | with the same defaults, the call fails with the negative-skip error exactly when the skip is negative; otherwise the page holds stored users only, newest first and no more of them than the absolute value of the limit, the total is the number of users and the page count is `Math.ceil(total / limit)` |
| Admin.Stats | backend/src/admin/admin.service.ts:217-243 | the user and listing counts, the number of stored PENDING listings and ACTIVE memberships, and min(10, payments) stored payments, newest first, with no payment left out newer than one shown |
| Admin.StatsOfValid | backend/src/admin/admin.service.ts:226-236 | in a valid database the counts are those of the whole tables and exactly min(10, payments) are shown, none older than a payment left out |
| ListingDtos.CreateBodyValid | backend/src/listings/dto/create-listing.dto.ts:13-56 | a create body passes exactly when title and description are non-empty, the metal type is in the enum and price and quantity are not negative |
| ListingDtos.UpdateBodyValid | backend/src/listings/dto/create-listing.dto.ts:58-99 | an update body passes exactly when a given metal type is in the enum and a given price or quantity is not negative |
| ListingDtos.CreateValidIsUpdateValid | backend/src/listings/dto/create-listing.dto.ts:13-99 | every valid create body is a valid update body |
| ListingDtos.QueryRulesAreLoose | backend/src/listings/dto/create-listing.dto.ts:101-129 | an empty body fails a create but passes an update and a query; a query takes any string as `sortBy` |
| ListingDtos.AllPropsListed | backend/src/listings/dto/create-listing.dto.ts:13-129 | every property of the three DTOs is listed, and no two properties share a JSON key |
| AuthDtos.LoginBodyValid | backend/src/auth/dto/login.dto.ts:4-11 | a login passes exactly when the e-mail is well formed and the password has six characters or more |
| AuthDtos.RegisterBodyValid | backend/src/auth/dto/login.dto.ts:13-33 | a registration passes exactly when a given e-mail is well formed and a given password has six or more characters; one with neither e-mail nor phone passes |
| AuthDtos.RoleNamesComplete | backend/src/auth/dto/login.dto.ts:27-28 | the role rule passes exactly when the role is the string of one of the three roles, and no two roles share a string |
| AuthDtos.OtpBodiesValid | backend/src/auth/dto/login.dto.ts:35-50 | every OTP request and check built from strings passes; one without a phone, or without a code, fails |
| AuthDtos.AllPropsListed | backend/src/auth/dto/login.dto.ts:4-50 | every property is listed, and no two properties share a JSON key |
| Seo.GetFirst | lib/seo.ts:7-10 | "" for nothing, the string itself, or the first array item ("" for an empty array) |
| Seo.QueryPairs | lib/seo.ts:19-30 | every pair of the canonical query has a name of the record and a non-empty value |
| Seo.QueryEmptyIffBlank | lib/seo.ts:19-33 | the query is empty exactly when every entry is undefined, empty or an array of empty strings |
| Seo.AddEntry | lib/seo.ts:22-29 | appends exactly the entry's pairs: each non-empty array item, or the non-empty string |
| Seo.CollectParams | lib/seo.ts:20-30 | the parameter list built by the loop is `QueryPairs` of the record |
| Seo.BuildQueryString | lib/seo.ts:19-33 | "" exactly when every entry is blank, otherwise "?" and the serialised pairs |
| Seo.Title | lib/seo.ts:49-61 | every title ends with " \| Metal Hub" and starts with its head |
| Seo.TitleExact | lib/seo.ts:53-61 | the title is the head, then "in" and the countries joined with ", " exactly when there are countries, then "for" and the search exactly when it is non-empty, then " \| Metal Hub" |
| Seo.TitlePrecedence | lib/seo.ts:52-56 | no filters gives the label alone; a metal hides capability and industry; a capability hides industry |
| Seo.ListingsTitle | lib/seo.ts:42-61 | the title is built from the first value of each parameter, with the countries parsed from CSV |
| Seo.DescriptionNamesMode | lib/seo.ts:49-62 | the description names the page kind in lower case, so different kinds get different descriptions |
| Text.ParseCsv | lib/seo.ts:12-17 | every piece is non-empty, trimmed and comma-free |
| Text.CsvRoundTrip | components/search/ListingsSearchClient.tsx:83-93 | parsing the CSV join of trimmed, non-empty, comma-free strings gives them back |
| Text.ParseCsvIsStable | components/search/ListingsSearchClient.tsx:83-93 | writing a parsed list back and parsing it again gives the same list |
| Text.ToLower | app/listings/page.tsx:120 | the lower-case copy has the same length and lowers each letter |
| Decimal.ParseIntRoundTrip | backend/src/redis/redis.service.ts:54 | the decimal text of an integer reads back as that integer |
| Decimal.JsParseInt | backend/src/redis/redis.service.ts:64 | NaN exactly when no digit follows the leading spaces and sign |
| Decimal.JsParseIntRoundTrip | backend/src/redis/redis.service.ts:61-65 | `parseInt` of an integer's decimal text is that integer |
| Decimal.Setting | backend/src/security/rate-limit.middleware.ts:12-13 | an unset or empty variable gives the default |
| Decimal.JsNumber | app/listings/page.tsx:114-119 | a blank string is 0 |
| Decimal.JsNumberRoundTrip | app/listings/page.tsx:114-119 | `Number` of an integer's decimal text is that integer |
| Seqs.SortByKey | backend/src/listings/listings.service.ts:152-166 | the result is a permutation of the input, sorted by the key in the given direction |
| Seqs.Paginate | backend/src/listings/listings.service.ts:160-205 | a negative `(page - 1) * limit` skip is refused; otherwise a positive limit gives the slice from the skip of length at most `limit`, a negative one the `-limit` rows that end `skip` rows before the end, and the totals are the count and `Math.ceil(total / limit)` |
| Seqs.NegativeSkipCases | backend/src/listings/listings.service.ts:80-82 | the skip is negative exactly for a page below 1 with a positive limit, or above 1 with a negative limit |
| Seqs.JsCeilDiv | backend/src/listings/listings.service.ts:203 | the least integer at or above `total / limit`, for either sign of the limit |
| Seqs.EveryRowOnSomePage | backend/src/listings/listings.service.ts:160-205 | with a positive limit, every row lies on a page between 1 and the page count, and that page is returned without error |
| Seqs.Query | backend/src/listings/listings.service.ts:160-170 | exactly the stored rows that match, sorted, counted once each |
| Seqs.PageOfQuery | backend/src/listings/listings.service.ts:160-205 | for either sign of the limit, a page a query returns holds matching stored rows in order, with the full count and `Math.ceil(total / limit)` pages |
| Seqs.EveryMatchOnSomePage | backend/src/listings/listings.service.ts:160-205 | with a positive limit, every matching stored row is on some page of the query between 1 and the page count |
| UrlParams.Get | components/search/ListingsSearchClient.tsx:119-130 | null exactly when no pair has the name |
| UrlParams.Deleted | components/search/ListingsSearchClient.tsx:152-160 | the name is gone and every other name stays |
| UrlParams.GetDeleted | components/search/ListingsSearchClient.tsx:152-160 | after a delete the name reads null and every other name reads as before |
| UrlParams.GetSetIn | components/search/ListingsSearchClient.tsx:154-156 | after a set the name reads the value, held by exactly one pair, and every other name reads as before |
| UrlParams.Serialize | lib/seo.ts:31 | the serialisation is empty exactly when there are no pairs |
| UrlParams.Params.Append | lib/seo.ts:25 | the pair is added at the end |
| UrlParams.Params.Set | lib/seo.ts:28 | the list becomes `SetIn` of the old one |
| UrlParams.Params.Delete | components/search/ListingsSearchClient.tsx:153 | the list becomes `Deleted` of the old one |
| SearchClient.OrEmpty | components/search/ListingsSearchClient.tsx:119-128 | the parameter's value, or "" when it is absent |
| SearchClient.ParseCsv | components/search/ListingsSearchClient.tsx:83-89 | no list for null or "", else the trimmed non-empty pieces |
| SearchClient.CsvRoundTrip | components/search/ListingsSearchClient.tsx:83-93 | `parseCsv(toCsv(xs))` is `xs` for every list of CSV-safe strings, the empty list included |
| SearchClient.BuildTitle | components/search/ListingsSearchClient.tsx:95-106 | the title starts with the base words of the page kind |
| SearchClient.BuildTitleParts | components/search/ListingsSearchClient.tsx:95-106 | the quoted search phrase comes before the countries, each after one space |
| SearchClient.FiltersOf | components/search/ListingsSearchClient.tsx:119-128 | each filter is its parameter's value or "", and the countries are parsed from CSV |
| SearchClient.AbsentFilterIsEmpty | components/search/ListingsSearchClient.tsx:119-128 | a filter whose parameter is absent shows nothing |
| SearchClient.ActiveChipsAreSetFilters | components/search/ListingsSearchClient.tsx:134-147 | the chips are exactly the filters that have a value, in the fixed order from search to metal |
| SearchClient.SetParam | components/search/ListingsSearchClient.tsx:149-163 | the URL is the path, "?" and the parameters after `SetParamPairs` |
| SearchClient.SetParamReads | components/search/ListingsSearchClient.tsx:149-163 | the key reads the value (nothing for an empty value), the page is dropped unless it is the key, and other parameters read as before |
| SearchClient.ClearChipRemovesIt | components/search/ListingsSearchClient.tsx:165-167 | clearing a chip's parameter leaves no chip for that filter |
| SearchClient.Distinct | components/search/ListingsSearchClient.tsx:170 | the distinct elements, each where it first occurs |
| SearchClient.ToSet | components/search/ListingsSearchClient.tsx:170 | adding the elements one at a time gives `Distinct` of the list |
| SearchClient.ToggleMembers | components/search/ListingsSearchClient.tsx:169-176 | the value is present after a toggle exactly when it was absent before, and every other element stays |
| SearchClient.ToggleFlips | components/search/ListingsSearchClient.tsx:169-176 | toggling keeps the set free of duplicates, and toggling twice gives the set back |
| SearchClient.ToggleCountry | components/search/ListingsSearchClient.tsx:169-176 | the parameter is written back as the CSV of the toggled set, or cleared when no country is left |
| SearchClient.CountriesReadBack | components/search/ListingsSearchClient.tsx:169-176 | a written list of CSV-safe countries, or a cleared parameter, reads back as the same list |
| SearchClient.ToggleCountryReadsBack | components/search/ListingsSearchClient.tsx:169-176 | after a toggle with a CSV-safe name the page reads back exactly the toggled set |
| SearchClient.FirstPageByDefault | components/search/ListingsSearchClient.tsx:130 | a missing `page` parameter is page 1 |
| SearchClient.PagingLaws | components/search/ListingsSearchClient.tsx:501-512 | Previous is disabled exactly at page 1 and before, and never goes below 1; Previous after Next returns; Next is disabled exactly from the last page on |
| SearchClient.NextReadsBack | components/search/ListingsSearchClient.tsx:510-512 | the page Next writes is the page read back |
| ListingsPage.MatchesRules | app/listings/page.tsx:110-124 | a listing passes exactly when its metal is chosen (or "All"), its price lies within both given bounds inclusive, and its location contains the text ignoring case |
| ListingsPage.FilteredIsSubsequence | app/listings/page.tsx:110-124 | the filtered list keeps order, and holds exactly the listings that pass |
| ListingsPage.InitialFiltersShowAll | app/listings/page.tsx:102-124 | the starting filters show every listing |
| ListingsPage.SortedOrder | app/listings/page.tsx:126-136 | the sort is a permutation: ascending price for `price-low`, descending price for `price-high`, newest first otherwise |
| ListingsPage.ShownListings | app/listings/page.tsx:110-136 | the page shows exactly the listings that pass, and no more than there are |
| CreateWizard.EditIsolated | app/dashboard/seller/create/page.tsx:127-264 | an edit sets exactly the edited field and leaves every other field alone |
| CreateWizard.EditSameValue | app/dashboard/seller/create/page.tsx:127-264 | re-entering a field's value changes nothing |
| CreateWizard.Without | app/dashboard/seller/create/page.tsx:289 | exactly the slot at the index is removed, with the others in order |
| CreateWizard.Wizard.constructor | app/dashboard/seller/create/page.tsx:28-41 | step 1, the initial form with unit "MT", and no images |
| CreateWizard.Wizard.StepTitle | app/dashboard/seller/create/page.tsx:112 | the shown title is one of the four step titles |
| CreateWizard.Wizard.HandleNext | app/dashboard/seller/create/page.tsx:43-47 | one step forward unless on the last step; form and images unchanged |
| CreateWizard.Wizard.HandlePrevious | app/dashboard/seller/create/page.tsx:49-53 | one step back unless on the first step; form and images unchanged |
| CreateWizard.Wizard.Edit | app/dashboard/seller/create/page.tsx:127-264 | the form takes the new field value; the step and images are unchanged |
| CreateWizard.Wizard.AddImage | app/dashboard/seller/create/page.tsx:296-300 | one empty slot is added at the end, at most five in all |
| CreateWizard.Wizard.RemoveImage | app/dashboard/seller/create/page.tsx:289 | exactly that slot is removed |
| CreateWizard.StepsRoundTrip | app/dashboard/seller/create/page.tsx:43-53 | the step stays in 1..4; Previous undoes a Next that moved, and the reverse; three Nexts reach the last step, where Next stops |

## Left out

- Password hashing (bcrypt), JWT signing in `generateTokens`, and Google and Apple sign-in are not modelled. The digest is a parameter, and the session summary stands for the token pair.
- The WhatsApp message is not modelled, because sending it is I/O. The `Math.random` draw of the code is not modelled; the code is a parameter in [100000, 999999].
- The Razorpay SDK call in `createOrder` is not modelled. The gateway's order id is a parameter.
- `verifyWebhook`, the HMAC-SHA256 check of the webhook signature, is not modelled, because cryptography is out of scope.
- The Redis connection, the Prisma client and every `include`/`select` of related rows are not modelled. Among them are the seller, the profile, the `_count` and the first image of a listing; the listing (with its first image), the buyer and the seller of a chat, and the last message of each chat; the listing of an offer; and the payer (with profile) of each recent payment on the admin dashboard. Service results are the rows themselves.
- Dates are integer milliseconds. A day is 86,400,000 ms, so daylight-saving shifts in `setDate` are not modelled.
- Numbers are integers. `Number` and `parseInt` are modelled on integer text only: fractions, exponents and the NaN of a malformed string become `None`. `parseInt` without a radix reads a "0x" prefix as hexadecimal ("0x10" is 16), which `Decimal.JsParseInt` does not: it reads the leading 0 only. `Number` also reads the "0x", "0b" and "0o" prefixes ("0x10" is 16, "0b1" is 1, "0o7" is 7), where `Decimal.JsNumber` gives `None`.
- The percent-encoding of `URLSearchParams.toString` and the `URL` constructor that builds the canonical address are not modelled. The serialisation joins `name=value` with `&`, and the site URL from the environment is left out.
- The order of `Object.entries` is taken to be the order of the record passed in.
- The debounced `useEffect` fetch of the search page is not modelled, because it is a timer plus network I/O. That includes the `type` parameter it adds or removes.
- The router calls are not modelled: `router.replace` and `router.push` are navigation I/O. `clearAll`, which only navigates to the bare path, and `handleSubmit` are left out with them.
- The wizard's rendering is not modelled. The step bubbles and the conditional panels are layout only.
- The create wizard page holds no uploaded image data. A slot is the empty string the page adds.
- A membership created without an explicit status is taken to be ACTIVE. That is the schema default, and the schema is not part of this model. A chat's `lastMessageAt` is taken to start at its creation time.
- `ListingQueryDto` declares `sortBy` with only `IsString`, so any string passes validation. The service treats every value but the two price orders as newest first.
- `RegisterDto` makes the e-mail, phone and password optional. A registration with none of them passes validation and creates a user with no contact.
- `rejectOffer` checks only existence and ownership, so an ACCEPTED offer can be rejected. `createOffer` ignores accepted offers, so two offers on one listing can end up ACCEPTED. Both follow the code.
- The listing quota counts the newest ACTIVE membership's plan and never looks at its end date.
- `update` writes the new location but not the `country` column, so search by country keeps the old value.
- `verifyOTP` answers with the user row read before `phoneVerified` is set, so the answer still carries the old flag.
- Listings.Delete: removes only the listing row. Its image rows, offers and chats keep pointing at the deleted id. Whether the database would cascade the delete to them or refuse it depends on the referential actions of the Prisma schema, which is not part of this model, so neither outcome is stated.
- Foreign keys other than the owner of a profile, membership or payment are not constrained by `Valid()`. A listing's seller, an image's or offer's listing, an offer's buyer and the keys of chats and messages may name a missing row.
- The `location` filter of `findAll` is a JSON-path `string_contains` over `['city', 'state']`. The model reads it as "the city or the state contains the text" (`Listings.Holds` on `PathContains`, and `Listings.Matches`), which is not how the database evaluates a path with two keys.
- The search and admin pages take `page` and `limit` as numbers already parsed from the query string; the parsing is not part of this model. A negative limit is read as the database client's backward `take` without a cursor (the rows that end `skip` rows before the end), and a negative skip as its refusal, reported as an internal error.
- Listings.SearchFindsEveryMatch: states completeness for a positive limit only. With a negative limit the pages read backwards from the end and page 0 is read as page 1, so the second block of rows from the end lies on no page.
- Text.ToLower: lowers ASCII letters only; Unicode case mapping is not modelled.
- CreateWizard.Wizard.AddImage: requires fewer than five slots, because the page only shows the button then; it does not model a call with five.

=== FILE: admin.dfy ===
/**
 * Admin oversight: every moderation action first checks that the caller is an
 * admin, then that the target exists, then changes one row and appends exactly
 * one entry to the audit log. The listing and user pages and the dashboard
 * counts are reads.
 */
module Admin {
  import opened Wrappers
  import opened Schema
  import Seqs

  const AdminRequired := "Admin access required"

  /** `isAdmin(u)`: the user exists and holds the ADMIN role. */
  predicate IsAdmin(users: map<Id, User>, u: Id)
  {
    u in users && users[u].role == UserRole.Admin
  }

  /**
   * The checks every moderation action makes, in order: `requireAdmin`, then
   * the lookup of the target, which fails with "`what` not found".
   */
  function CheckAction(users: map<Id, User>, adminId: Id, targetExists: bool, what: string): (r: Result<()>)
    ensures r.Ok? <==> IsAdmin(users, adminId) && targetExists
    ensures !IsAdmin(users, adminId) ==> r == Err(Error(Forbidden, AdminRequired))
    ensures IsAdmin(users, adminId) && !targetExists ==> r == Err(Error(NotFound, what + " not found"))
  {
    if !IsAdmin(users, adminId) then Err(Error(Forbidden, AdminRequired))
    else if !targetExists then Err(Error(NotFound, what + " not found"))
    else Ok(())
  }

  /** The admin guard in front of every admin route, for a request that may carry no user. */
  function Guard(users: map<Id, User>, caller: Option<Id>): (r: Result<()>)
    ensures r.Ok? <==> caller.Some? && IsAdmin(users, caller.value)
    ensures caller.None? ==> r == Err(Error(Forbidden, "Authentication required"))
    ensures caller.Some? && !IsAdmin(users, caller.value) ==> r == Err(Error(Forbidden, AdminRequired))
  {
    if caller.None? then Err(Error(Forbidden, "Authentication required"))
    else if !IsAdmin(users, caller.value) then Err(Error(Forbidden, AdminRequired))
    else Ok(())
  }

  /** The shared body of `banUser` and `suspendUser`. */
  method SetUserStatus(db: Db, adminId: Id, userId: Id, status: UserStatus, action: AdminAction, message: string)
    returns (r: Result<string>)
    requires db.Valid()
    modifies db`users, db`adminLogs
    ensures db.Valid()
    ensures CheckAction(old(db.users), adminId, userId in old(db.users), "User").Err? ==>
      r == Err(CheckAction(old(db.users), adminId, userId in old(db.users), "User").error)
      && db.users == old(db.users) && db.adminLogs == old(db.adminLogs)
    ensures CheckAction(old(db.users), adminId, userId in old(db.users), "User").Ok? ==>
      r == Ok(message)
      && db.users == old(db.users)[userId := old(db.users)[userId].(status := status)]
      && db.adminLogs == old(db.adminLogs) + [AdminLog(adminId, action, userId, NoMetadata)]
  {
    var checked := CheckAction(db.users, adminId, userId in db.users, "User");
    if checked.Err? {
      return Err(checked.error);
    }
    ContactsKept(db.users, userId, db.users[userId].(status := status));
    db.SetUsers(db.users[userId := db.users[userId].(status := status)]);
    db.AppendAdminLog(AdminLog(adminId, action, userId, NoMetadata));
    r := Ok(message);
  }

  /** `banUser(adminId, userId)`: the target becomes BANNED and one BAN_USER entry is logged. */
  method BanUser(db: Db, adminId: Id, userId: Id) returns (r: Result<string>)
    requires db.Valid()
    modifies db`users, db`adminLogs
    ensures db.Valid()
    ensures CheckAction(old(db.users), adminId, userId in old(db.users), "User").Err? ==>
      r == Err(CheckAction(old(db.users), adminId, userId in old(db.users), "User").error)
      && db.users == old(db.users) && db.adminLogs == old(db.adminLogs)
    ensures CheckAction(old(db.users), adminId, userId in old(db.users), "User").Ok? ==>
      r == Ok("User banned successfully")
      && db.users == old(db.users)[userId := old(db.users)[userId].(status := UserStatus.Banned)]
      && db.adminLogs == old(db.adminLogs) + [AdminLog(adminId, AdminAction.BanUser, userId, NoMetadata)]
  {
    r := SetUserStatus(db, adminId, userId, UserStatus.Banned, AdminAction.BanUser, "User banned successfully");
  }

  /** `suspendUser(adminId, userId)`: the target becomes SUSPENDED and one SUSPEND_USER entry is logged. */
  method SuspendUser(db: Db, adminId: Id, userId: Id) returns (r: Result<string>)
    requires db.Valid()
    modifies db`users, db`adminLogs
    ensures db.Valid()
    ensures CheckAction(old(db.users), adminId, userId in old(db.users), "User").Err? ==>
      r == Err(CheckAction(old(db.users), adminId, userId in old(db.users), "User").error)
      && db.users == old(db.users) && db.adminLogs == old(db.adminLogs)
    ensures CheckAction(old(db.users), adminId, userId in old(db.users), "User").Ok? ==>
      r == Ok("User suspended successfully")
      && db.users == old(db.users)[userId := old(db.users)[userId].(status := UserStatus.Suspended)]
      && db.adminLogs == old(db.adminLogs) + [AdminLog(adminId, AdminAction.SuspendUser, userId, NoMetadata)]
  {
    r := SetUserStatus(db, adminId, userId, UserStatus.Suspended, AdminAction.SuspendUser, "User suspended successfully");
  }

  /**
   * `isAdmin` looks only at the role, never at the status: an admin who has
   * been banned keeps every admin power.
   */
  lemma BannedAdminStaysAdmin(users: map<Id, User>, adminId: Id)
    requires IsAdmin(users, adminId)
    ensures IsAdmin(users[adminId := users[adminId].(status := UserStatus.Banned)], adminId)
  {
  }

  /** The listing-side changes each listing action makes. */
  datatype ListingAction = Approve | Reject(reason: Option<string>) | Feature(days: int)
  {
    function Action(): AdminAction
    {
      match this
      case Approve => AdminAction.ApproveListing
      case Reject(_) => AdminAction.RejectListing
      case Feature(_) => AdminAction.FeatureListing
    }

    /** The JSON metadata logged with the action. */
    function Metadata(): LogMetadata
    {
      match this
      case Approve => NoMetadata
      case Reject(reason) => Reason(reason)
      case Feature(days) => Days(days)
    }

    function Message(): string
    {
      match this
      case Approve => "Listing approved successfully"
      case Reject(_) => "Listing rejected"
      case Feature(_) => "Listing featured successfully"
    }
  }

  /**
   * The row after a listing action. Approve and reject overwrite the status
   * whatever it was; featuring marks the listing featured until `days` days
   * from `now` and leaves the status alone. A reject reason never reaches the
   * row.
   */
  function Moderated(l: Listing, a: ListingAction, now: int): (r: Listing)
    ensures r.id == l.id && r.sellerId == l.sellerId && r.price == l.price && r.createdAt == l.createdAt
    ensures a.Approve? ==> r == l.(status := ListingStatus.Approved)
    ensures a.Reject? ==> r == l.(status := ListingStatus.Rejected)
    ensures a.Feature? ==> r.status == l.status && r.isFeatured && r.featuredUntil == Some(now + a.days * DayMs)
  {
    match a
    case Approve => l.(status := ListingStatus.Approved)
    case Reject(_) => l.(status := ListingStatus.Rejected)
    case Feature(days) => l.(isFeatured := true, featuredUntil := Some(now + days * DayMs))
  }

  /** Every listing action is idempotent on the row, so repeating it changes nothing more. */
  lemma ModeratedIdempotent(l: Listing, a: ListingAction, now: int)
    ensures Moderated(Moderated(l, a, now), a, now) == Moderated(l, a, now)
  {
  }

  /** The `days || 7` default of the feature route. */
  function FeatureDays(days: Option<int>): (d: int)
    ensures days.Some? && days.value != 0 ==> d == days.value
    ensures days.None? || days.value == 0 ==> d == 7
  {
    if days.Some? && days.value != 0 then days.value else 7
  }

  /**
   * The shared body of `approveListing`, `rejectListing` and `featureListing`:
   * the admin check, the lookup, one row update and one log entry.
   */
  method ModerateListing(db: Db, adminId: Id, listingId: Id, a: ListingAction, now: int) returns (r: Result<string>)
    requires db.Valid()
    modifies db`listings, db`adminLogs
    ensures db.Valid()
    ensures CheckAction(old(db.users), adminId, listingId in old(db.listings), "Listing").Err? ==>
      r == Err(CheckAction(old(db.users), adminId, listingId in old(db.listings), "Listing").error)
      && db.listings == old(db.listings) && db.adminLogs == old(db.adminLogs)
    ensures CheckAction(old(db.users), adminId, listingId in old(db.listings), "Listing").Ok? ==>
      r == Ok(a.Message())
      && db.listings == old(db.listings)[listingId := Moderated(old(db.listings)[listingId], a, now)]
      && db.adminLogs == old(db.adminLogs) + [AdminLog(adminId, a.Action(), listingId, a.Metadata())]
  {
    var checked := CheckAction(db.users, adminId, listingId in db.listings, "Listing");
    if checked.Err? {
      return Err(checked.error);
    }
    db.SetListings(db.listings[listingId := Moderated(db.listings[listingId], a, now)]);
    db.AppendAdminLog(AdminLog(adminId, a.Action(), listingId, a.Metadata()));
    r := Ok(a.Message());
  }

  /** `approveListing(adminId, listingId)`. */
  method ApproveListing(db: Db, adminId: Id, listingId: Id) returns (r: Result<string>)
    requires db.Valid()
    modifies db`listings, db`adminLogs
    ensures db.Valid()
    ensures CheckAction(old(db.users), adminId, listingId in old(db.listings), "Listing").Err? ==>
      r == Err(CheckAction(old(db.users), adminId, listingId in old(db.listings), "Listing").error)
      && db.listings == old(db.listings) && db.adminLogs == old(db.adminLogs)
    ensures CheckAction(old(db.users), adminId, listingId in old(db.listings), "Listing").Ok? ==>
      r == Ok("Listing approved successfully")
      && db.listings == old(db.listings)[listingId := old(db.listings)[listingId].(status := ListingStatus.Approved)]
      && db.adminLogs == old(db.adminLogs) + [AdminLog(adminId, AdminAction.ApproveListing, listingId, NoMetadata)]
  {
    r := ModerateListing(db, adminId, listingId, Approve, 0);
  }

  /** `rejectListing(adminId, listingId, reason)`: the reason goes to the log only. */
  method RejectListing(db: Db, adminId: Id, listingId: Id, reason: Option<string>) returns (r: Result<string>)
    requires db.Valid()
    modifies db`listings, db`adminLogs
    ensures db.Valid()
    ensures CheckAction(old(db.users), adminId, listingId in old(db.listings), "Listing").Err? ==>
      r == Err(CheckAction(old(db.users), adminId, listingId in old(db.listings), "Listing").error)
      && db.listings == old(db.listings) && db.adminLogs == old(db.adminLogs)
    ensures CheckAction(old(db.users), adminId, listingId in old(db.listings), "Listing").Ok? ==>
      r == Ok("Listing rejected")
      && db.listings == old(db.listings)[listingId := old(db.listings)[listingId].(status := ListingStatus.Rejected)]
      && db.adminLogs == old(db.adminLogs) + [AdminLog(adminId, AdminAction.RejectListing, listingId, Reason(reason))]
  {
    r := ModerateListing(db, adminId, listingId, Reject(reason), 0);
  }

  /** `featureListing(adminId, listingId, days)`, with the route's default of 7 days. */
  method FeatureListing(db: Db, adminId: Id, listingId: Id, days: Option<int>, now: int) returns (r: Result<string>)
    requires db.Valid()
    modifies db`listings, db`adminLogs
    ensures db.Valid()
    ensures CheckAction(old(db.users), adminId, listingId in old(db.listings), "Listing").Err? ==>
      r == Err(CheckAction(old(db.users), adminId, listingId in old(db.listings), "Listing").error)
      && db.listings == old(db.listings) && db.adminLogs == old(db.adminLogs)
    ensures CheckAction(old(db.users), adminId, listingId in old(db.listings), "Listing").Ok? ==>
      r == Ok("Listing featured successfully")
      && db.listings == old(db.listings)[listingId := old(db.listings)[listingId].(
           isFeatured := true, featuredUntil := Some(now + FeatureDays(days) * DayMs))]
      && db.adminLogs == old(db.adminLogs) + [AdminLog(adminId, AdminAction.FeatureListing, listingId, Days(FeatureDays(days)))]
  {
    r := ModerateListing(db, adminId, listingId, Feature(FeatureDays(days)), now);
  }

  predicate IsPendingListing(l: Listing) { l.status == ListingStatus.Pending }

  /**
   * `getPendingListings(page, limit)` after the controller's `page || 1` and
   * `limit || 20`: PENDING listings, newest first, one page of them.
   */
  function PendingListings(ls: map<Id, Listing>, n: nat, page: Option<int>, limit: Option<int>): Result<Seqs.Page<Listing>>
  {
    Seqs.Paginate(Seqs.Query(ls, n, IsPendingListing, (l: Listing) => l.createdAt, true),
                  Seqs.OrDefault(page, 1), Seqs.OrDefault(limit, 20))
  }

  /**
   * A page below 1 with a positive limit, or above 1 with a negative one, fails
   * on the negative skip. Otherwise the pending page holds only stored PENDING
   * listings, newest first, and its totals count every PENDING listing.
   */
  lemma PendingListingsSound(ls: map<Id, Listing>, n: nat, page: Option<int>, limit: Option<int>)
    ensures var r := PendingListings(ls, n, page, limit);
      var pg := Seqs.OrDefault(page, 1); var l := Seqs.OrDefault(limit, 20);
      (r.Err? <==> (pg < 1 && l > 0) || (pg > 1 && l < 0))
      && (r.Err? ==> r.error == Seqs.NegativeSkip)
      && (r.Ok? ==>
            (forall i :: 0 <= i < |r.value.items| ==>
               r.value.items[i].status == ListingStatus.Pending && exists k :: k in ls && k < n && ls[k] == r.value.items[i])
            && Seqs.SortedByKey(r.value.items, (l: Listing) => l.createdAt, true)
            && r.value.total == |Seqs.KeysWhere(ls, n, IsPendingListing)|
            && r.value.totalPages == Seqs.JsCeilDiv(r.value.total, l)
            && |r.value.items| <= Seqs.Abs(l))
  {
    Seqs.NegativeSkipCases(Seqs.OrDefault(page, 1), Seqs.OrDefault(limit, 20));
    Seqs.PageOfQuery(ls, n, IsPendingListing, (l: Listing) => l.createdAt, true,
                     Seqs.OrDefault(page, 1), Seqs.OrDefault(limit, 20));
  }

  predicate AnyUser(u: User) { true }

  /**
   * `getAllUsers(page, limit)` after the controller's `page || 1` and
   * `limit || 20`: all users, newest first, one page of them.
   */
  function AllUsers(users: map<Id, User>, n: nat, page: Option<int>, limit: Option<int>): Result<Seqs.Page<User>>
  {
    Seqs.Paginate(Seqs.Query(users, n, AnyUser, (u: User) => u.createdAt, true),
                  Seqs.OrDefault(page, 1), Seqs.OrDefault(limit, 20))
  }

  /** In a valid database every stored row lies below the id counter, so a query on all rows counts the table. */
  lemma AllKeysBelow<T>(m: map<nat, T>, n: nat, p: T -> bool)
    requires forall k :: k in m ==> k < n && p(m[k])
    ensures Seqs.KeysWhere(m, n, p) == m.Keys
  {
  }

  /**
   * The users page fails exactly on a negative skip; otherwise it is sorted
   * newest first and its total is the number of users.
   */
  lemma AllUsersSound(db: Db, page: Option<int>, limit: Option<int>)
    requires db.Valid()
    ensures var r := AllUsers(db.users, db.nextId, page, limit);
      var pg := Seqs.OrDefault(page, 1); var l := Seqs.OrDefault(limit, 20);
      (r.Err? <==> (pg < 1 && l > 0) || (pg > 1 && l < 0))
      && (r.Err? ==> r.error == Seqs.NegativeSkip)
      && (r.Ok? ==>
            (forall i :: 0 <= i < |r.value.items| ==> r.value.items[i] in db.users.Values)
            && Seqs.SortedByKey(r.value.items, (u: User) => u.createdAt, true)
            && r.value.total == |db.users|
            && r.value.totalPages == Seqs.JsCeilDiv(|db.users|, l)
            && |r.value.items| <= Seqs.Abs(l))
  {
    Seqs.NegativeSkipCases(Seqs.OrDefault(page, 1), Seqs.OrDefault(limit, 20));
    Seqs.PageOfQuery(db.users, db.nextId, AnyUser, (u: User) => u.createdAt, true,
                     Seqs.OrDefault(page, 1), Seqs.OrDefault(limit, 20));
    AllKeysBelow(db.users, db.nextId, AnyUser);
    assert |db.users.Keys| == |db.users|;
  }

  datatype DashboardStats = DashboardStats(
    totalUsers: nat,
    totalListings: nat,
    pendingListings: nat,
    activeMemberships: nat,
    recentPayments: seq<Payment>)

  predicate IsActiveMembership(m: Membership) { m.status == MembershipStatus.Active }
  predicate AnyPayment(p: Payment) { true }

  /** A subset of a table's keys is no larger than the table. */
  lemma KeysWhereBounded<T>(m: map<nat, T>, n: nat, p: T -> bool)
    ensures |Seqs.KeysWhere(m, n, p)| <= |m|
  {
    var ks := Seqs.KeysWhere(m, n, p);
    assert ks <= m.Keys;
    SubsetCardinality(ks, m.Keys);
    assert |m.Keys| == |m|;
  }

  lemma {:induction false} SubsetCardinality(a: set<nat>, b: set<nat>)
    requires a <= b
    ensures |a| <= |b|
    decreases |b|
  {
    if a != {} {
      var x :| x in a;
      SubsetCardinality(a - {x}, b - {x});
    }
  }

  /**
   * `getDashboardStats()`: the four counts and the ten newest payments. It is a
   * pure read. The counts are those of the stored rows (of the PENDING
   * listings and the ACTIVE memberships for the middle two); the payments are
   * stored ones, newest first, as many as there are up to ten, and no stored
   * payment left out is newer than one shown.
   */
  function Stats(db: Db): (s: DashboardStats)
    reads db
    ensures s.totalUsers == |db.users| && s.totalListings == |db.listings|
    ensures s.pendingListings == |set k | k in db.listings && k < db.nextId && db.listings[k].status == ListingStatus.Pending|
    ensures s.activeMemberships == |set k | k in db.memberships && k < db.nextId && db.memberships[k].status == MembershipStatus.Active|
    ensures s.pendingListings <= s.totalListings
    ensures s.activeMemberships <= |db.memberships|
    ensures |s.recentPayments| == Seqs.Min(10, |set k | k in db.payments && k < db.nextId|)
    ensures Seqs.SortedByKey(s.recentPayments, (p: Payment) => p.createdAt, true)
    ensures forall i :: 0 <= i < |s.recentPayments| ==> s.recentPayments[i] in db.payments.Values
    ensures forall k :: k in db.payments && k < db.nextId && db.payments[k] !in s.recentPayments ==>
      forall i :: 0 <= i < |s.recentPayments| ==> s.recentPayments[i].createdAt >= db.payments[k].createdAt
  {
    var pending := Seqs.KeysWhere(db.listings, db.nextId, IsPendingListing);
    var active := Seqs.KeysWhere(db.memberships, db.nextId, IsActiveMembership);
    KeysWhereBounded(db.listings, db.nextId, IsPendingListing);
    KeysWhereBounded(db.memberships, db.nextId, IsActiveMembership);
    StatsCountSets(db.listings, db.memberships, db.payments, db.nextId);
    var recent := Seqs.Slice(Seqs.Query(db.payments, db.nextId, AnyPayment, (p: Payment) => p.createdAt, true), 0, 10);
    Seqs.FirstOfQuery(db.payments, db.nextId, AnyPayment, (p: Payment) => p.createdAt, true, 10);
    DashboardStats(|db.users|, |db.listings|, |pending|, |active|, recent)
  }

  /** The three `where` filters of the dashboard, as sets of stored ids. */
  lemma StatsCountSets(ls: map<Id, Listing>, ms: map<Id, Membership>, ps: map<Id, Payment>, n: nat)
    ensures Seqs.KeysWhere(ls, n, IsPendingListing) == set k | k in ls && k < n && ls[k].status == ListingStatus.Pending
    ensures Seqs.KeysWhere(ms, n, IsActiveMembership) == set k | k in ms && k < n && ms[k].status == MembershipStatus.Active
    ensures Seqs.KeysWhere(ps, n, AnyPayment) == set k | k in ps && k < n
  {
  }

  /** In a valid database the dashboard counts every PENDING listing, every ACTIVE membership and shows min(10, payments) payments. */
  lemma StatsOfValid(db: Db)
    requires db.Valid()
    ensures Stats(db).pendingListings == |set k | k in db.listings && db.listings[k].status == ListingStatus.Pending|
    ensures Stats(db).activeMemberships == |set k | k in db.memberships && db.memberships[k].status == MembershipStatus.Active|
    ensures |Stats(db).recentPayments| == Seqs.Min(10, |db.payments|)
    ensures forall p :: p in db.payments.Values && p !in Stats(db).recentPayments ==>
      forall i :: 0 <= i < |Stats(db).recentPayments| ==> Stats(db).recentPayments[i].createdAt >= p.createdAt
  {
    assert (set k | k in db.listings && k < db.nextId && db.listings[k].status == ListingStatus.Pending)
        == (set k | k in db.listings && db.listings[k].status == ListingStatus.Pending);
    assert (set k | k in db.memberships && k < db.nextId && db.memberships[k].status == MembershipStatus.Active)
        == (set k | k in db.memberships && db.memberships[k].status == MembershipStatus.Active);
    assert (set k | k in db.payments && k < db.nextId) == db.payments.Keys;
    assert |db.payments.Keys| == |db.payments|;
  }
}

=== FILE: auth.dfy ===
/**
 * The authentication service: registration with a free membership (a 7-day
 * trial once per device), email and password login with a per-IP attempt
 * limit, and WhatsApp one-time passwords. Password hashing and comparison
 * and the random OTP draw arrive as parameters; token signing is left out,
 * so a successful call answers with the `user` part of the token response.
 */
module Auth {
  import opened Wrappers
  import opened Schema
  import Seqs
  import Memberships
  import Decimal
  import Cache
  import opened KeyValue

  /** The fields of a registration request. */
  datatype RegisterForm = RegisterForm(
    email: Option<string>,
    phone: Option<string>,
    password: Option<string>,
    role: UserRole,
    fullName: Option<string>)

  /** The fields of a login request. */
  datatype Credentials = Credentials(email: string, password: string)

  /** The user summary returned beside the access token. */
  datatype Session = Session(
    userId: Id,
    email: Option<string>,
    phone: Option<string>,
    role: UserRole,
    emailVerified: bool,
    phoneVerified: bool)

  function SessionOf(u: User): Session
  {
    Session(u.id, u.email, u.phone, u.role, u.emailVerified, u.phoneVerified)
  }

  const TrialDays: int := 7
  const DefaultMaxLoginAttempts: int := 5
  const DefaultOtpMinutes: int := 10

  const InvalidCredentials: Error := Error(Unauthorized, "Invalid credentials")
  const AccountBlocked: Error := Error(Unauthorized, "Account is suspended or banned")
  const TooManyAttempts: Error := Error(Unauthorized, "Too many login attempts. Please try again later.")
  const InvalidOtp: Error := Error(Unauthorized, "Invalid or expired OTP")

  /** `findUnique({where: {email}})`. */
  function UserByEmail(users: map<Id, User>, n: nat, email: string): (r: Option<User>)
    ensures r.Some? <==> exists k :: k in users && k < n && users[k].email == Some(email)
    ensures r.Some? ==> r.value.email == Some(email) && exists k :: k in users && k < n && users[k] == r.value
  {
    Seqs.FindRow(users, n, (u: User) => u.email == Some(email))
  }

  /** `findUnique({where: {phone}})`. */
  function UserByPhone(users: map<Id, User>, n: nat, phone: string): (r: Option<User>)
    ensures r.Some? <==> exists k :: k in users && k < n && users[k].phone == Some(phone)
    ensures r.Some? ==> r.value.phone == Some(phone) && exists k :: k in users && k < n && users[k] == r.value
  {
    Seqs.FindRow(users, n, (u: User) => u.phone == Some(phone))
  }

  /*
   * Registration.
   */

  /**
   * Why `register` refuses the form, if it does: a given email already
   * taken, then a given phone already taken; an empty email or phone skips
   * its check, and if it collides with a stored one the insert itself breaks
   * the uniqueness constraint.
   */
  function RegisterError(users: map<Id, User>, n: nat, f: RegisterForm): (e: Option<Error>)
    ensures e.Some? ==> e.value.kind in {Conflict, Internal}
  {
    if Truthy(f.email) && UserByEmail(users, n, f.email.value).Some? then
      Some(Error(Conflict, "Email already registered"))
    else if Truthy(f.phone) && UserByPhone(users, n, f.phone.value).Some? then
      Some(Error(Conflict, "Phone already registered"))
    else if f.email.Some? && UserByEmail(users, n, f.email.value).Some? then
      Some(Error(Internal, "Unique constraint failed on the fields: (`email`)"))
    else if f.phone.Some? && UserByPhone(users, n, f.phone.value).Some? then
      Some(Error(Internal, "Unique constraint failed on the fields: (`phone`)"))
    else None
  }

  /**
   * The email check comes first, then the phone check; a form passes exactly
   * when neither contact it carries is already on record.
   */
  lemma RegisterErrorOrder(users: map<Id, User>, n: nat, f: RegisterForm)
    ensures Truthy(f.email) && UserByEmail(users, n, f.email.value).Some? ==>
      RegisterError(users, n, f) == Some(Error(Conflict, "Email already registered"))
    ensures (!(Truthy(f.email) && UserByEmail(users, n, f.email.value).Some?)
             && Truthy(f.phone) && UserByPhone(users, n, f.phone.value).Some?) ==>
      RegisterError(users, n, f) == Some(Error(Conflict, "Phone already registered"))
    ensures RegisterError(users, n, f).None? <==>
      (f.email.None? || UserByEmail(users, n, f.email.value).None?)
      && (f.phone.None? || UserByPhone(users, n, f.phone.value).None?)
  {
  }

  /**
   * The user row `register` inserts: ACTIVE, the password hashed when one is
   * given, and a contact counted as verified exactly when it is absent.
   */
  function NewUser(f: RegisterForm, id: Id, digest: string, now: int): (u: User)
    ensures u.id == id && u.email == f.email && u.phone == f.phone && u.role == f.role
    ensures u.status == UserStatus.Active
    ensures u.emailVerified <==> !Truthy(f.email)
    ensures u.phoneVerified <==> !Truthy(f.phone)
    ensures u.passwordHash.Some? <==> Truthy(f.password)
  {
    User(id, f.email, f.phone,
         if Truthy(f.password) then Some(digest) else None,
         f.role, UserStatus.Active, !Truthy(f.email), !Truthy(f.phone), now)
  }

  /** A form `RegisterError` lets through adds a user without breaking contact uniqueness. */
  lemma NewUserKeepsContacts(users: map<Id, User>, n: nat, f: RegisterForm, u: User)
    requires UniqueContacts(users) && forall k :: k in users ==> k < n
    requires RegisterError(users, n, f).None? && u.id == n && u.email == f.email && u.phone == f.phone
    ensures UniqueContacts(users[n := u])
  {
    RegisterErrorOrder(users, n, f);
  }

  /** A truthy device fingerprint whose trial flag is not set yet. */
  predicate TrialEligible(s: Store, device: Option<string>, now: int)
    reads s
  {
    Truthy(device) && !Cache.HasTrialBeenUsed(s, device.value, now)
  }

  /** The free membership's end: 7 days out on a trial, none otherwise. */
  function TrialEnd(trial: bool, now: int): (end: Option<int>)
    ensures trial <==> end.Some?
    ensures trial ==> end.value - now == TrialDays * DayMs
  {
    if trial then Some(now + TrialDays * DayMs) else None
  }

  /** Inserts the user and its profile under the first two of three fresh ids. */
  method InsertAccount(db: Db, f: RegisterForm, digest: string, now: int) returns (user: User)
    requires db.Valid() && UniqueContacts(db.users[db.nextId := NewUser(f, db.nextId, digest, now)])
    modifies db`users, db`profiles, db`nextId
    ensures db.Valid()
    ensures user == NewUser(f, old(db.nextId), digest, now)
    ensures db.users == old(db.users)[user.id := user]
    ensures db.profiles == old(db.profiles)[user.id + 1 := Profile(user.id + 1, user.id, f.fullName)]
    ensures db.nextId == old(db.nextId) + 3
  {
    var id := db.NewIds(3);
    user := NewUser(f, id, digest, now);
    db.SetUsers(db.users[id := user]);
    db.SetProfiles(db.profiles[id + 1 := Profile(id + 1, id, f.fullName)]);
  }

  /** Inserts the FREE membership of a user that has none yet. */
  method InsertFreeMembership(db: Db, userId: Id, endDate: Option<int>, now: int)
    requires db.Valid() && userId in db.users && userId + 2 < db.nextId
    requires userId + 2 !in db.memberships
    requires forall k :: k in db.memberships ==> db.memberships[k].userId != userId
    modifies db`memberships
    ensures db.Valid()
    ensures db.memberships == old(db.memberships)[userId + 2 :=
      Membership(userId + 2, userId, Plan.Free, MembershipStatus.Active, endDate, now)]
  {
    var m := Membership(userId + 2, userId, Plan.Free, MembershipStatus.Active, endDate, now);
    Memberships.InsertActiveKeepsOne(db.memberships, userId + 2, m);
    db.SetMemberships(db.memberships[userId + 2 := m]);
  }

  /**
   * The writes `register` makes for a form it accepts, in its order: the
   * user, the profile, the FREE membership (a 7-day trial when the device is
   * eligible, which then marks the device), and a successful login record.
   */
  method CreateAccount(db: Db, s: Store, f: RegisterForm, ip: string, device: Option<string>,
                       digest: string, now: int) returns (user: User)
    requires db.Valid() && UniqueContacts(db.users[db.nextId := NewUser(f, db.nextId, digest, now)])
    modifies db`users, db`profiles, db`memberships, db`loginActivity, db`nextId, s
    ensures db.Valid()
    ensures var id := old(db.nextId);
      var trial := old(TrialEligible(s, device, now));
      user == NewUser(f, id, digest, now)
      && db.users == old(db.users)[id := user]
      && db.profiles == old(db.profiles)[id + 1 := Profile(id + 1, id, f.fullName)]
      && db.memberships == old(db.memberships)[id + 2 :=
           Membership(id + 2, id, Plan.Free, MembershipStatus.Active, TrialEnd(trial, now), now)]
      && db.loginActivity == old(db.loginActivity) + [LoginActivity(id, ip, device, true)]
      && db.nextId == id + 3
      && (trial ==> s.data == old(s.data)[Cache.TrialKey(device.value) := Entry("1", None)])
      && (!trial ==> s.data == old(s.data))
  {
    assert forall k :: k in db.memberships ==> db.memberships[k].userId != db.nextId;
    user := InsertAccount(db, f, digest, now);
    StartMembership(db, s, user.id, ip, device, now);
  }

  /**
   * The writes after the user and profile: the FREE membership, the trial
   * flag when the device was eligible, and the successful login record.
   */
  method StartMembership(db: Db, s: Store, userId: Id, ip: string, device: Option<string>, now: int)
    requires db.Valid() && userId in db.users && userId + 2 < db.nextId
    requires userId + 2 !in db.memberships
    requires forall k :: k in db.memberships ==> db.memberships[k].userId != userId
    modifies db`memberships, db`loginActivity, s
    ensures db.Valid()
    ensures var trial := old(TrialEligible(s, device, now));
      db.memberships == old(db.memberships)[userId + 2 :=
        Membership(userId + 2, userId, Plan.Free, MembershipStatus.Active, TrialEnd(trial, now), now)]
      && db.loginActivity == old(db.loginActivity) + [LoginActivity(userId, ip, device, true)]
      && (trial ==> s.data == old(s.data)[Cache.TrialKey(device.value) := Entry("1", None)])
      && (!trial ==> s.data == old(s.data))
  {
    var trial := TrialEligible(s, device, now);
    InsertFreeMembership(db, userId, TrialEnd(trial, now), now);
    if trial {
      Cache.SetTrialUsed(s, device.value);
    }
    db.AppendLoginActivity(LoginActivity(userId, ip, device, true));
  }

  /**
   * `register(dto, ip, fingerprint)`: refused as `RegisterError` says with
   * nothing written; otherwise the writes of `CreateAccount`, answered with
   * the new user's summary.
   */
  method Register(db: Db, s: Store, f: RegisterForm, ip: string, device: Option<string>,
                  digest: string, now: int) returns (r: Result<Session>)
    requires db.Valid()
    modifies db`users, db`profiles, db`memberships, db`loginActivity, db`nextId, s
    ensures db.Valid()
    ensures RegisterError(old(db.users), old(db.nextId), f).Some? ==>
      r == Err(RegisterError(old(db.users), old(db.nextId), f).value)
      && db.users == old(db.users) && db.profiles == old(db.profiles) && db.memberships == old(db.memberships)
      && db.loginActivity == old(db.loginActivity) && db.nextId == old(db.nextId) && s.data == old(s.data)
    ensures RegisterError(old(db.users), old(db.nextId), f).None? ==>
      var id := old(db.nextId);
      var user := NewUser(f, id, digest, now);
      var trial := old(TrialEligible(s, device, now));
      r == Ok(SessionOf(user))
      && db.users == old(db.users)[id := user]
      && db.profiles == old(db.profiles)[id + 1 := Profile(id + 1, id, f.fullName)]
      && db.memberships == old(db.memberships)[id + 2 :=
           Membership(id + 2, id, Plan.Free, MembershipStatus.Active, TrialEnd(trial, now), now)]
      && db.loginActivity == old(db.loginActivity) + [LoginActivity(id, ip, device, true)]
      && db.nextId == id + 3
      && (trial ==> s.data == old(s.data)[Cache.TrialKey(device.value) := Entry("1", None)])
      && (!trial ==> s.data == old(s.data))
  {
    var e := RegisterError(db.users, db.nextId, f);
    if e.Some? {
      return Err(e.value);
    }
    ghost var id := db.nextId;
    NewUserKeepsContacts(db.users, db.nextId, f, NewUser(f, db.nextId, digest, now));
    var user := CreateAccount(db, s, f, ip, device, digest, now);
    assert user == NewUser(f, id, digest, now);
    r := Ok(SessionOf(user));
  }

  /*
   * Password login.
   */

  /** `attempts >= maxAttempts`, where a NaN on either side (`None`) compares false. */
  predicate TooMany(attempts: Option<int>, max: Option<int>)
  {
    attempts.Some? && max.Some? && attempts.value >= max.value
  }

  /**
   * The checks `login` makes before looking at the password, in order: a
   * known email with a password set, an ACTIVE account, and fewer recorded
   * attempts from this IP than the maximum.
   */
  function LoginGate(users: map<Id, User>, n: nat, email: string, attempts: Option<int>, max: Option<int>)
    : (r: Result<User>)
    ensures r == Err(InvalidCredentials) <==>
      UserByEmail(users, n, email).None? || !Truthy(UserByEmail(users, n, email).value.passwordHash)
    ensures r == Err(AccountBlocked) <==>
      UserByEmail(users, n, email).Some? && Truthy(UserByEmail(users, n, email).value.passwordHash)
      && UserByEmail(users, n, email).value.status != UserStatus.Active
    ensures r.Ok? <==>
      UserByEmail(users, n, email).Some? && Truthy(UserByEmail(users, n, email).value.passwordHash)
      && UserByEmail(users, n, email).value.status == UserStatus.Active && !TooMany(attempts, max)
    ensures r.Ok? ==> Some(r.value) == UserByEmail(users, n, email)
    ensures r.Err? ==> r.error in {InvalidCredentials, AccountBlocked, TooManyAttempts}
  {
    var found := UserByEmail(users, n, email);
    if found.None? || !Truthy(found.value.passwordHash) then Err(InvalidCredentials)
    else if found.value.status != UserStatus.Active then Err(AccountBlocked)
    else if TooMany(attempts, max) then Err(TooManyAttempts)
    else Ok(found.value)
  }

  /**
   * Once an IP's recorded attempts reach the maximum, every login from it is
   * refused before the password is compared, whichever account it names.
   */
  lemma LockedOut(users: map<Id, User>, n: nat, email: string, attempts: int, max: int)
    requires attempts >= max
    ensures LoginGate(users, n, email, Some(attempts), Some(max)).Err?
    ensures (UserByEmail(users, n, email).Some? && Truthy(UserByEmail(users, n, email).value.passwordHash)
             && UserByEmail(users, n, email).value.status == UserStatus.Active) ==>
      LoginGate(users, n, email, Some(attempts), Some(max)) == Err(TooManyAttempts)
  {
  }

  /**
   * `login(dto, ip, fingerprint)`: the gate's refusals write nothing; a
   * wrong password bumps the IP's counter and records a failed login; a
   * right one clears the counter and records a successful login.
   */
  method Login(db: Db, s: Store, c: Credentials, ip: string, device: Option<string>,
               maxEnv: Option<string>, compare: (string, string) -> bool, now: int) returns (r: Result<Session>)
    requires db.Valid()
    modifies db`loginActivity, s
    ensures db.Valid()
    ensures var g := LoginGate(old(db.users), old(db.nextId), c.email,
                               old(Cache.GetLoginAttempts(s, ip, now)),
                               Decimal.Setting(maxEnv, DefaultMaxLoginAttempts));
      (g.Err? ==>
         r == Err(g.error) && db.loginActivity == old(db.loginActivity) && s.data == old(s.data))
      && (g.Ok? && compare(c.password, g.value.passwordHash.value) ==>
         r == Ok(SessionOf(g.value))
         && db.loginActivity == old(db.loginActivity) + [LoginActivity(g.value.id, ip, device, true)]
         && s.data == old(s.data) - {Cache.LoginKey(ip)})
      && (g.Ok? && !compare(c.password, g.value.passwordHash.value)
          && old(Cache.Counter(s, Cache.LoginKey(ip), now)).Some? ==>
         r == Err(InvalidCredentials)
         && db.loginActivity == old(db.loginActivity) + [LoginActivity(g.value.id, ip, device, false)]
         && Cache.GetLoginAttempts(s, ip, now) == Some(old(Cache.Counter(s, Cache.LoginKey(ip), now)).value + 1)
         && SameOutside(old(s.data), s.data, Cache.LoginKey(ip)))
      && (g.Ok? && !compare(c.password, g.value.passwordHash.value)
          && old(Cache.Counter(s, Cache.LoginKey(ip), now)).None? ==>
         r.Err? && r.error.kind == Internal
         && db.loginActivity == old(db.loginActivity) && s.data == old(s.data))
  {
    var attempts := Cache.GetLoginAttempts(s, ip, now);
    var g := LoginGate(db.users, db.nextId, c.email, attempts, Decimal.Setting(maxEnv, DefaultMaxLoginAttempts));
    if g.Err? {
      return Err(g.error);
    }
    var user := g.value;
    if !compare(c.password, user.passwordHash.value) {
      var count := Cache.IncrementLoginAttempts(s, ip, Cache.LoginWindowMs, now);
      if count.Err? {
        return Err(count.error);
      }
      db.AppendLoginActivity(LoginActivity(user.id, ip, device, false));
      return Err(InvalidCredentials);
    }
    Cache.ResetLoginAttempts(s, ip);
    db.AppendLoginActivity(LoginActivity(user.id, ip, device, true));
    r := Ok(SessionOf(user));
  }

  /*
   * One-time passwords over WhatsApp.
   */

  /** The code drawn in `[100000, 999999]` is written with exactly six digits. */
  lemma SixDigitCode(code: int)
    requires 100000 <= code <= 999999
    ensures |Decimal.IntToString(code)| == 6 && Decimal.AllDigits(Decimal.IntToString(code))
  {
    var c1 := code / 10;
    var c2 := c1 / 10;
    var c3 := c2 / 10;
    var c4 := c3 / 10;
    var c5 := c4 / 10;
    assert 1 <= c5 < 10;
    assert |Decimal.NatToString(c5)| == 1;
    assert |Decimal.NatToString(c4)| == 2;
    assert |Decimal.NatToString(c3)| == 3;
    assert |Decimal.NatToString(c2)| == 4;
    assert |Decimal.NatToString(c1)| == 5;
    assert |Decimal.NatToString(code)| == 6;
  }

  /**
   * `sendWhatsAppOTP(dto, ip)`: an unknown phone is refused; otherwise the
   * six-digit code replaces any earlier one for that phone and lives for the
   * configured number of minutes (10 by default). A non-numeric or
   * non-positive setting makes the store refuse the write.
   */
  method SendWhatsAppOtp(db: Db, s: Store, phone: string, code: int, expiryEnv: Option<string>, now: int)
    returns (r: Result<string>)
    requires 100000 <= code <= 999999
    modifies s
    ensures UserByPhone(db.users, db.nextId, phone).None? ==>
      r == Err(Error(BadRequest, "Phone number not registered")) && s.data == old(s.data)
    ensures var minutes := Decimal.Setting(expiryEnv, DefaultOtpMinutes);
      UserByPhone(db.users, db.nextId, phone).Some? && minutes.Some? && minutes.value > 0 ==>
      r == Ok("OTP sent successfully")
      && s.data == old(s.data)[Cache.OtpKey(phone) := Entry(Decimal.IntToString(code), Some(now + minutes.value * 60000))]
      && forall t :: t < now + minutes.value * 60000 ==> Cache.GetOtp(s, phone, t) == Some(Decimal.IntToString(code))
    ensures var minutes := Decimal.Setting(expiryEnv, DefaultOtpMinutes);
      UserByPhone(db.users, db.nextId, phone).Some? && (minutes.None? || minutes.value <= 0) ==>
      r.Err? && r.error.kind == Internal && s.data == old(s.data)
    ensures r.Ok? ==> Cache.GetOtp(s, phone, now).Some? && |Cache.GetOtp(s, phone, now).value| == 6
  {
    if UserByPhone(db.users, db.nextId, phone).None? {
      return Err(Error(BadRequest, "Phone number not registered"));
    }
    var otp := Decimal.IntToString(code);
    SixDigitCode(code);
    var minutes := Decimal.Setting(expiryEnv, DefaultOtpMinutes);
    if minutes.None? {
      return Err(Error(Internal, "ERR value is not an integer or out of range"));
    }
    var stored := Cache.SetOtp(s, phone, otp, minutes.value, now);
    if stored.Err? {
      return Err(stored.error);
    }
    r := Ok("OTP sent successfully");
  }

  /**
   * The checks `verifyOTP` makes, in order: a stored, non-empty code equal
   * to the one given, a user with that phone, an ACTIVE account.
   */
  function OtpGate(stored: Option<string>, otp: string, users: map<Id, User>, n: nat, phone: string)
    : (r: Result<User>)
    ensures r == Err(InvalidOtp) <==> !Truthy(stored) || stored.value != otp
    ensures r == Err(Error(BadRequest, "User not found")) <==>
      Truthy(stored) && stored.value == otp && UserByPhone(users, n, phone).None?
    ensures r.Ok? <==>
      Truthy(stored) && stored.value == otp && UserByPhone(users, n, phone).Some?
      && UserByPhone(users, n, phone).value.status == UserStatus.Active
    ensures r.Ok? ==> Some(r.value) == UserByPhone(users, n, phone)
  {
    if !Truthy(stored) || stored.value != otp then Err(InvalidOtp)
    else
      var found := UserByPhone(users, n, phone);
      if found.None? then Err(Error(BadRequest, "User not found"))
      else if found.value.status != UserStatus.Active then Err(AccountBlocked)
      else Ok(found.value)
  }

  /**
   * `verifyOTP(dto, ip, fingerprint)`: on success the phone becomes verified,
   * the code is deleted so it cannot be used again, and a successful login is
   * recorded. The answer is built from the row read before the update, so it
   * still carries the old `phoneVerified`.
   */
  method VerifyOtp(db: Db, s: Store, phone: string, otp: string, ip: string, device: Option<string>, now: int)
    returns (r: Result<Session>)
    requires db.Valid()
    modifies db`users, db`loginActivity, s
    ensures db.Valid()
    ensures var g := OtpGate(old(Cache.GetOtp(s, phone, now)), otp, old(db.users), old(db.nextId), phone);
      (g.Err? ==>
         r == Err(g.error) && db.users == old(db.users)
         && db.loginActivity == old(db.loginActivity) && s.data == old(s.data))
      && (g.Ok? ==>
         r == Ok(SessionOf(g.value))
         && db.users == old(db.users)[g.value.id := g.value.(phoneVerified := true)]
         && db.loginActivity == old(db.loginActivity) + [LoginActivity(g.value.id, ip, device, true)]
         && s.data == old(s.data) - {Cache.OtpKey(phone)})
    ensures r.Ok? ==> forall t :: Cache.GetOtp(s, phone, t).None?
    ensures r.Ok? ==> forall t, code :: OtpGate(Cache.GetOtp(s, phone, t), code, db.users, db.nextId, phone) == Err(InvalidOtp)
  {
    var stored := Cache.GetOtp(s, phone, now);
    var g := OtpGate(stored, otp, db.users, db.nextId, phone);
    if g.Err? {
      return Err(g.error);
    }
    var user := g.value;
    assert user.id in db.users && db.users[user.id] == user;
    ContactsKept(db.users, user.id, user.(phoneVerified := true));
    db.SetUsers(db.users[user.id := user.(phoneVerified := true)]);
    Cache.DeleteOtp(s, phone);
    db.AppendLoginActivity(LoginActivity(user.id, ip, device, true));
    r := Ok(SessionOf(user));
  }

  /**
   * `validateUser(userId)`: the user when it exists and is ACTIVE, nothing
   * otherwise.
   */
  function ValidateUser(users: map<Id, User>, userId: Id): (r: Option<User>)
    ensures r.Some? <==> userId in users && users[userId].status == UserStatus.Active
    ensures r.Some? ==> r.value == users[userId]
  {
    if userId in users && users[userId].status == UserStatus.Active then Some(users[userId]) else None
  }
}

=== FILE: auth_dto.dfy ===
/**
 * The validation rules of the authentication request bodies: `LoginDto`,
 * `RegisterDto`, `WhatsAppOTPDto` and `VerifyOTPDto`, each a predicate over
 * the JSON body. The e-mail syntax check is given as `isEmail`.
 */
module AuthDtos {
  import opened Wrappers
  import opened Json
  import Schema
  import Auth

  /** The properties the authentication DTOs declare. */
  datatype Prop = Email | Password | Phone | Role | FullName | DeviceFingerprint | Otp

  /** The JSON key of each property. */
  function Key(p: Prop): string
  {
    match p
    case Email => "email"
    case Password => "password"
    case Phone => "phone"
    case Role => "role"
    case FullName => "fullName"
    case DeviceFingerprint => "deviceFingerprint"
    case Otp => "otp"
  }

  const AllProps: set<Prop> := {Email, Password, Phone, Role, FullName, DeviceFingerprint, Otp}

  /**
   * Every property is in `AllProps`, and no two properties share a JSON key,
   * so a body keyed by property is the same as one keyed by its JSON name.
   */
  lemma AllPropsListed()
    ensures forall p :: p in AllProps
    ensures forall p, q :: Key(p) == Key(q) ==> p == q
  {
    forall p: Prop
      ensures p in AllProps
    {
      match p
      case Email => case Password => case Phone => case Role =>
      case FullName => case DeviceFingerprint => case Otp =>
    }
  }

  /** The string value of each user role. */
  function RoleName(r: Schema.UserRole): string
  {
    match r
    case Buyer => "BUYER"
    case Seller => "SELLER"
    case Admin => "ADMIN"
  }

  const RoleNames: set<string> := {"BUYER", "SELLER", "ADMIN"}

  /** The shortest password either DTO accepts. */
  const MinPasswordLength: nat := 6

  /** `LoginDto`. */
  predicate ValidLogin(body: Body<Prop>, isEmail: string -> bool)
  {
    IsEmail(Field(body, Email), isEmail)
    && IsString(Field(body, Password)) && MinLength(Field(body, Password), MinPasswordLength)
  }

  /** `RegisterDto`: only the role is required; neither an e-mail nor a phone has to be given. */
  predicate ValidRegister(body: Body<Prop>, isEmail: string -> bool)
  {
    (Skipped(Field(body, Email)) || IsEmail(Field(body, Email), isEmail))
    && (Skipped(Field(body, Phone)) || IsString(Field(body, Phone)))
    && (Skipped(Field(body, Password))
        || (IsString(Field(body, Password)) && MinLength(Field(body, Password), MinPasswordLength)))
    && IsEnum(Field(body, Role), RoleNames)
    && (Skipped(Field(body, FullName)) || IsString(Field(body, FullName)))
  }

  /** `WhatsAppOTPDto`. */
  predicate ValidWhatsAppOtp(body: Body<Prop>)
  {
    IsString(Field(body, Phone))
    && (Skipped(Field(body, DeviceFingerprint)) || IsString(Field(body, DeviceFingerprint)))
  }

  /** `VerifyOTPDto`. */
  predicate ValidVerifyOtp(body: Body<Prop>)
  {
    IsString(Field(body, Phone)) && IsString(Field(body, Otp))
  }

  /** The body of a login request. */
  function LoginBody(c: Auth.Credentials): Body<Prop>
  {
    BodyOf(AllProps, p => if p == Email then Some(Str(c.email)) else if p == Password then Some(Str(c.password)) else None)
  }

  /** What a client sends for each property of a registration. */
  function RegisterValue(f: Auth.RegisterForm, p: Prop): Option<Value>
  {
    match p
    case Email => OptionalStr(f.email)
    case Phone => OptionalStr(f.phone)
    case Password => OptionalStr(f.password)
    case Role => Some(Str(RoleName(f.role)))
    case FullName => OptionalStr(f.fullName)
    case _ => None
  }

  /** The body of a registration. */
  function RegisterBody(f: Auth.RegisterForm): Body<Prop>
  {
    BodyOf(AllProps, p => RegisterValue(f, p))
  }

  /** The body of an OTP request. */
  function OtpRequestBody(phone: string, device: Option<string>): Body<Prop>
  {
    BodyOf(AllProps, p => if p == Phone then Some(Str(phone)) else if p == DeviceFingerprint then OptionalStr(device) else None)
  }

  /** The body of an OTP check. */
  function VerifyBody(phone: string, otp: string): Body<Prop>
  {
    BodyOf(AllProps, p => if p == Phone then Some(Str(phone)) else if p == Otp then Some(Str(otp)) else None)
  }

  /** A login passes validation exactly when the e-mail is well formed and the password has six characters or more. */
  lemma LoginBodyValid(c: Auth.Credentials, isEmail: string -> bool)
    ensures ValidLogin(LoginBody(c), isEmail) <==> isEmail(c.email) && |c.password| >= 6
  {
    AllPropsListed();
    FieldOfBody(AllProps, p => if p == Email then Some(Str(c.email)) else if p == Password then Some(Str(c.password)) else None);
  }

  /**
   * A registration passes validation exactly when a given e-mail is well
   * formed and a given password has six characters or more; one with no
   * e-mail, no phone and no password passes.
   */
  lemma RegisterBodyValid(f: Auth.RegisterForm, isEmail: string -> bool)
    ensures ValidRegister(RegisterBody(f), isEmail) <==>
      (f.email.Some? ==> isEmail(f.email.value)) && (f.password.Some? ==> |f.password.value| >= 6)
    ensures f.email.None? && f.phone.None? && f.password.None? ==> ValidRegister(RegisterBody(f), isEmail)
  {
    AllPropsListed();
    FieldOfBody(AllProps, p => RegisterValue(f, p));
  }

  /**
   * The role rule of a registration body passes exactly when the role is
   * the string of one of the three roles, and no two roles share a string.
   */
  lemma RoleNamesComplete(body: Body<Prop>)
    ensures IsEnum(Field(body, Role), RoleNames) <==> exists q :: Field(body, Role) == Some(Str(RoleName(q)))
    ensures forall a, b :: RoleName(a) == RoleName(b) ==> a == b
  {
    if IsEnum(Field(body, Role), RoleNames) {
      var s := Field(body, Role).value.s;
      if s == "BUYER" {
        assert Field(body, Role) == Some(Str(RoleName(Schema.Buyer)));
      } else if s == "SELLER" {
        assert Field(body, Role) == Some(Str(RoleName(Schema.Seller)));
      } else {
        assert Field(body, Role) == Some(Str(RoleName(Schema.Admin)));
      }
    }
  }

  /**
   * Every OTP request and OTP check built from strings passes validation; a
   * request without a phone, or a check without a code, does not.
   */
  lemma OtpBodiesValid(phone: string, device: Option<string>, otp: string)
    ensures ValidWhatsAppOtp(OtpRequestBody(phone, device))
    ensures ValidVerifyOtp(VerifyBody(phone, otp))
    ensures !ValidWhatsAppOtp(map[DeviceFingerprint := Str(phone)])
    ensures !ValidVerifyOtp(map[Phone := Str(phone)])
  {
    AllPropsListed();
    FieldOfBody(AllProps, p => if p == Phone then Some(Str(phone)) else if p == DeviceFingerprint then OptionalStr(device) else None);
    FieldOfBody(AllProps, p => if p == Phone then Some(Str(phone)) else if p == Otp then Some(Str(otp)) else None);
  }
}

=== FILE: chat.dfy ===
/**
 * Buyer–seller chats: one chat per (listing, buyer), visible only to its two
 * parties, holding an append-only list of messages.
 */
module Chats {
  import opened Wrappers
  import opened Schema
  import Seqs

  /** How many messages `getChat` returns, oldest first. */
  const MessagePageSize: nat := 50

  /** A chat together with the messages `getChat` returns with it. */
  datatype ChatView = ChatView(chat: Chat, messages: seq<Message>)

  predicate IsParty(c: Chat, u: Id)
  {
    c.buyerId == u || c.sellerId == u
  }

  /** The access checks `getChat` and `sendMessage` share. */
  function CheckAccess(chats: map<Id, Chat>, chatId: Id, u: Id): (r: Result<Chat>)
    ensures r.Ok? <==> chatId in chats && IsParty(chats[chatId], u)
    ensures r.Ok? ==> r.value == chats[chatId]
    ensures chatId !in chats ==> r == Err(Error(NotFound, "Chat not found"))
    ensures chatId in chats && !IsParty(chats[chatId], u) ==> r == Err(Error(Forbidden, "Access denied"))
  {
    if chatId !in chats then Err(Error(NotFound, "Chat not found"))
    else if !IsParty(chats[chatId], u) then Err(Error(Forbidden, "Access denied"))
    else Ok(chats[chatId])
  }

  /** The `where: { chatId }` test on a message. */
  function InChat(chatId: Id): Message -> bool
  {
    (m: Message) => m.chatId == chatId
  }

  /** The ids of the stored messages of one chat. */
  function ChatMessageIds(msgs: map<Id, Message>, n: nat, chatId: Id): set<Id>
  {
    set k | k in msgs && k < n && msgs[k].chatId == chatId
  }

  /** All stored messages of one chat, oldest first: every one of them, once per row, and no other. */
  function ChatMessages(msgs: map<Id, Message>, n: nat, chatId: Id): (r: seq<Message>)
    ensures forall i :: 0 <= i < |r| ==> r[i].chatId == chatId && exists k :: k in msgs && k < n && msgs[k] == r[i]
    ensures forall k :: k in msgs && k < n && msgs[k].chatId == chatId ==> msgs[k] in r
    ensures |r| == |ChatMessageIds(msgs, n, chatId)|
    ensures Seqs.SortedByKey(r, (m: Message) => m.createdAt, false)
  {
    assert Seqs.KeysWhere(msgs, n, InChat(chatId)) == ChatMessageIds(msgs, n, chatId);
    Seqs.Query(msgs, n, InChat(chatId), (m: Message) => m.createdAt, false)
  }

  /**
   * `getChat(chatId, u)`: the access checks, then the chat with its first
   * page of messages, which are stored messages of that chat, as many as it
   * has up to 50.
   */
  function GetChat(chats: map<Id, Chat>, msgs: map<Id, Message>, n: nat, chatId: Id, u: Id): (r: Result<ChatView>)
    ensures r.Ok? <==> CheckAccess(chats, chatId, u).Ok?
    ensures r.Err? ==> r == Err(CheckAccess(chats, chatId, u).error)
    ensures r.Ok? ==> r.value.chat == chats[chatId]
    ensures r.Ok? ==> |r.value.messages| == Seqs.Min(MessagePageSize, |ChatMessageIds(msgs, n, chatId)|)
    ensures r.Ok? ==> forall i :: 0 <= i < |r.value.messages| ==>
      r.value.messages[i].chatId == chatId && exists k :: k in msgs && k < n && msgs[k] == r.value.messages[i]
  {
    var access := CheckAccess(chats, chatId, u);
    if access.Err? then Err(access.error)
    else
      var all := ChatMessages(msgs, n, chatId);
      Seqs.SliceWithin(all, 0, MessagePageSize);
      Ok(ChatView(chats[chatId], Seqs.Slice(all, 0, MessagePageSize)))
  }

  /**
   * The messages `getChat` returns are the chat's 50 OLDEST, in ascending
   * time: as many as the chat has up to 50, and every message left out is at
   * least as new as every one returned.
   */
  lemma GetChatMessages(chats: map<Id, Chat>, msgs: map<Id, Message>, n: nat, chatId: Id, u: Id)
    requires GetChat(chats, msgs, n, chatId, u).Ok?
    ensures var shown := GetChat(chats, msgs, n, chatId, u).value.messages;
      |shown| == Seqs.Min(MessagePageSize, |ChatMessageIds(msgs, n, chatId)|)
      && (forall i :: 0 <= i < |shown| ==> shown[i].chatId == chatId)
      && Seqs.SortedByKey(shown, (m: Message) => m.createdAt, false)
      && (forall k :: k in msgs && k < n && msgs[k].chatId == chatId && msgs[k] !in shown ==>
            forall i :: 0 <= i < |shown| ==> shown[i].createdAt <= msgs[k].createdAt)
  {
    var all := ChatMessages(msgs, n, chatId);
    Seqs.PrefixLeads(all, MessagePageSize, (m: Message) => m.createdAt, false);
  }

  /** `getUserChats(u)`: exactly the chats where the caller is a party, most recently active first. */
  function UserChats(chats: map<Id, Chat>, n: nat, u: Id): (r: seq<Chat>)
    ensures forall i :: 0 <= i < |r| ==> IsParty(r[i], u) && exists k :: k in chats && k < n && chats[k] == r[i]
    ensures forall k :: k in chats && k < n && IsParty(chats[k], u) ==> chats[k] in r
    ensures Seqs.SortedByKey(r, (c: Chat) => c.lastMessageAt, true)
    ensures |r| == |set k | k in chats && k < n && IsParty(chats[k], u)|
  {
    var mine := (c: Chat) => IsParty(c, u);
    assert Seqs.KeysWhere(chats, n, mine) == set k | k in chats && k < n && IsParty(chats[k], u);
    Seqs.Query(chats, n, mine, (c: Chat) => c.lastMessageAt, true)
  }

  predicate Between(c: Chat, listingId: Id, buyerId: Id)
  {
    c.listingId == listingId && c.buyerId == buyerId
  }

  /** The lookup on the unique (listingId, buyerId) pair. */
  function FindChat(chats: map<Id, Chat>, n: nat, listingId: Id, buyerId: Id): (r: Option<Chat>)
    ensures r.Some? <==> exists k :: k in chats && k < n && Between(chats[k], listingId, buyerId)
    ensures r.Some? ==> Between(r.value, listingId, buyerId) && exists k :: k in chats && k < n && chats[k] == r.value
  {
    Seqs.FindRow(chats, n, (c: Chat) => Between(c, listingId, buyerId))
  }

  /** A new chat for a pair that has none keeps the pair unique. */
  lemma NewChatKeepsUnique(chats: map<Id, Chat>, c: Chat)
    requires OneChatPerBuyer(chats) && c.id !in chats
    requires forall k :: k in chats ==> !Between(chats[k], c.listingId, c.buyerId)
    ensures OneChatPerBuyer(chats[c.id := c])
  {
  }

  /** Touching a chat's `lastMessageAt` keeps the pair unique. */
  lemma TouchKeepsUnique(chats: map<Id, Chat>, chatId: Id, at: int)
    requires OneChatPerBuyer(chats) && chatId in chats
    ensures OneChatPerBuyer(chats[chatId := chats[chatId].(lastMessageAt := at)])
  {
    var t := chats[chatId := chats[chatId].(lastMessageAt := at)];
    assert forall k :: k in t ==> t[k].listingId == chats[k].listingId && t[k].buyerId == chats[k].buyerId;
  }

  /**
   * `sendMessage(chatId, u, {message})`: after the access checks, exactly one
   * message from the caller is appended and only that chat's `lastMessageAt`
   * moves.
   */
  method SendMessage(db: Db, chatId: Id, u: Id, text: string, now: int) returns (r: Result<Message>)
    requires db.Valid()
    modifies db`messages, db`chats, db`nextId
    ensures db.Valid()
    ensures CheckAccess(old(db.chats), chatId, u).Err? ==>
      r == Err(CheckAccess(old(db.chats), chatId, u).error)
      && db.messages == old(db.messages) && db.chats == old(db.chats) && db.nextId == old(db.nextId)
    ensures CheckAccess(old(db.chats), chatId, u).Ok? ==>
      r == Ok(Message(old(db.nextId), chatId, u, text, now))
      && db.messages == old(db.messages)[old(db.nextId) := r.value]
      && db.chats == old(db.chats)[chatId := old(db.chats)[chatId].(lastMessageAt := now)]
      && db.nextId == old(db.nextId) + 1
  {
    var access := CheckAccess(db.chats, chatId, u);
    if access.Err? {
      return Err(access.error);
    }
    var id := db.NewId();
    var m := Message(id, chatId, u, text, now);
    db.SetMessages(db.messages[id := m]);
    TouchKeepsUnique(db.chats, chatId, now);
    db.SetChats(db.chats[chatId := db.chats[chatId].(lastMessageAt := now)]);
    r := Ok(m);
  }

  /** The guard chain of `createChat` before the pair lookup. */
  function CheckChatTarget(ls: map<Id, Listing>, listingId: Id, u: Id): (r: Result<Listing>)
    ensures r.Ok? <==> listingId in ls && ls[listingId].sellerId != u
    ensures r.Ok? ==> r.value == ls[listingId]
    ensures listingId !in ls ==> r == Err(Error(NotFound, "Listing not found"))
    ensures listingId in ls && ls[listingId].sellerId == u ==> r == Err(Error(BadRequest, "Cannot chat with yourself"))
  {
    if listingId !in ls then Err(Error(NotFound, "Listing not found"))
    else if ls[listingId].sellerId == u then Err(Error(BadRequest, "Cannot chat with yourself"))
    else Ok(ls[listingId])
  }

  /**
   * The creating half of `createChat`: a fresh chat for a pair that has none,
   * with one first message from the caller when an initial message is given,
   * returned as `getChat` shows it.
   */
  method OpenChat(db: Db, listingId: Id, u: Id, sellerId: Id, initialMessage: Option<string>, now: int)
    returns (r: Result<ChatView>)
    requires db.Valid() && sellerId != u
    requires forall k :: k in db.chats ==> !Between(db.chats[k], listingId, u)
    modifies db`chats, db`messages, db`nextId
    ensures db.Valid()
    ensures db.chats == old(db.chats)[old(db.nextId) := Chat(old(db.nextId), listingId, u, sellerId, now, now)]
    ensures Truthy(initialMessage) ==>
      db.messages == old(db.messages)[old(db.nextId) + 1 := Message(old(db.nextId) + 1, old(db.nextId), u, initialMessage.value, now)]
      && db.nextId == old(db.nextId) + 2
    ensures !Truthy(initialMessage) ==> db.messages == old(db.messages) && db.nextId == old(db.nextId) + 1
    ensures r == GetChat(db.chats, db.messages, db.nextId, old(db.nextId), u) && r.Ok?
  {
    var id := InsertChat(db, listingId, u, sellerId, now);
    if Truthy(initialMessage) {
      var chats := db.chats;
      var sent := SendMessage(db, id, u, initialMessage.value, now);
      assert chats[id].(lastMessageAt := now) == chats[id];
      assert db.chats == chats;
    }
    r := GetChat(db.chats, db.messages, db.nextId, id, u);
  }

  /** Stores a fresh chat for a pair that has none. */
  method InsertChat(db: Db, listingId: Id, u: Id, sellerId: Id, now: int) returns (id: Id)
    requires db.Valid()
    requires forall k :: k in db.chats ==> !Between(db.chats[k], listingId, u)
    modifies db`chats, db`nextId
    ensures db.Valid()
    ensures id == old(db.nextId) && db.nextId == id + 1
    ensures db.chats == old(db.chats)[id := Chat(id, listingId, u, sellerId, now, now)]
  {
    id := db.NewId();
    var c := Chat(id, listingId, u, sellerId, now, now);
    NewChatKeepsUnique(db.chats, c);
    db.SetChats(db.chats[id := c]);
  }

  /** In a valid database the pair lookup finds the one chat of that pair. */
  lemma FindChatUnique(chats: map<Id, Chat>, n: nat, listingId: Id, buyerId: Id)
    requires OneChatPerBuyer(chats) && forall k :: k in chats ==> k < n && chats[k].id == k
    ensures forall k :: k in chats && Between(chats[k], listingId, buyerId) ==>
      FindChat(chats, n, listingId, buyerId) == Some(chats[k])
  {
  }

  /**
   * `createChat(u, {listingId, initialMessage})`: the guard chain; then an
   * existing chat for (listing, caller) is returned untouched, and the
   * initial message is dropped; otherwise one chat is created between the
   * caller and the listing's seller, with one first message from the caller
   * when an initial message is given.
   */
  method CreateChat(db: Db, u: Id, listingId: Id, initialMessage: Option<string>, now: int) returns (r: Result<ChatView>)
    requires db.Valid()
    modifies db`chats, db`messages, db`nextId
    ensures db.Valid()
    ensures CheckChatTarget(old(db.listings), listingId, u).Err? ==>
      r == Err(CheckChatTarget(old(db.listings), listingId, u).error)
      && db.chats == old(db.chats) && db.messages == old(db.messages) && db.nextId == old(db.nextId)
    ensures CheckChatTarget(old(db.listings), listingId, u).Ok? && FindChat(old(db.chats), old(db.nextId), listingId, u).Some? ==>
      r == GetChat(old(db.chats), old(db.messages), old(db.nextId), FindChat(old(db.chats), old(db.nextId), listingId, u).value.id, u)
      && r.Ok? && db.chats == old(db.chats) && db.messages == old(db.messages) && db.nextId == old(db.nextId)
    ensures CheckChatTarget(old(db.listings), listingId, u).Ok? && FindChat(old(db.chats), old(db.nextId), listingId, u).None? ==>
      db.chats == old(db.chats)[old(db.nextId) := Chat(old(db.nextId), listingId, u, old(db.listings)[listingId].sellerId, now, now)]
      && (Truthy(initialMessage) ==>
            db.messages == old(db.messages)[old(db.nextId) + 1 := Message(old(db.nextId) + 1, old(db.nextId), u, initialMessage.value, now)]
            && db.nextId == old(db.nextId) + 2)
      && (!Truthy(initialMessage) ==> db.messages == old(db.messages) && db.nextId == old(db.nextId) + 1)
      && r == GetChat(db.chats, db.messages, db.nextId, old(db.nextId), u) && r.Ok?
  {
    var target := CheckChatTarget(db.listings, listingId, u);
    if target.Err? {
      return Err(target.error);
    }
    var existing := FindChat(db.chats, db.nextId, listingId, u);
    if existing.Some? {
      r := GetChat(db.chats, db.messages, db.nextId, existing.value.id, u);
    } else {
      r := OpenChat(db, listingId, u, target.value.sellerId, initialMessage, now);
    }
  }

  /**
   * The open branch of `createChat` leaves the pair with exactly one chat, the
   * new one, and the lookup of a second call for the same pair (the guard still
   * passes, since the listings are unchanged) finds it. That call therefore
   * takes the branch of `CreateChat` that returns the chat and writes nothing.
   */
  lemma SecondCreateFindsFirst(ls: map<Id, Listing>, chats: map<Id, Chat>, n: nat, after: nat,
                               listingId: Id, u: Id, now: int)
    requires OneChatPerBuyer(chats) && forall k :: k in chats ==> k < n && chats[k].id == k
    requires CheckChatTarget(ls, listingId, u).Ok? && FindChat(chats, n, listingId, u).None?
    requires n < after
    ensures var c := Chat(n, listingId, u, ls[listingId].sellerId, now, now);
      var stored := chats[n := c];
      OneChatPerBuyer(stored)
      && (forall k :: k in stored && Between(stored[k], listingId, u) ==> k == n)
      && CheckChatTarget(ls, listingId, u).Ok?
      && FindChat(stored, after, listingId, u) == Some(c)
  {
    var c := Chat(n, listingId, u, ls[listingId].sellerId, now, now);
    var stored := chats[n := c];
    NewChatKeepsUnique(chats, c);
    FindChatUnique(stored, after, listingId, u);
    assert Between(stored[n], listingId, u);
  }
}

=== FILE: create_wizard.dfy ===
/**
 * The seller's four-step listing wizard: the current step, the form fields
 * and the image slots, stepped by the Next, Previous, field-edit and
 * add/remove-image handlers.
 */
module CreateWizard {

  /** The titles of the wizard's steps, in order. */
  const Steps: seq<string> := ["Basic Details", "Metal Specifications", "Images", "Review & Publish"]

  /** The most image slots the page offers. */
  const MaxImages: nat := 5

  /** The form's fields. */
  datatype Field =
    | Title | Description | MetalType | Price | Quantity | Unit | Location | Grade | Thickness | Standard

  datatype Form = Form(
    title: string,
    description: string,
    metalType: string,
    price: string,
    quantity: string,
    unit: string,
    location: string,
    grade: string,
    thickness: string,
    standard: string)

  /** The form as the page first shows it: every field empty except the unit. */
  const InitialForm: Form := Form("", "", "", "", "", "MT", "", "", "", "")

  /** The value of one field. */
  function Get(f: Form, field: Field): string
  {
    match field
    case Title => f.title
    case Description => f.description
    case MetalType => f.metalType
    case Price => f.price
    case Quantity => f.quantity
    case Unit => f.unit
    case Location => f.location
    case Grade => f.grade
    case Thickness => f.thickness
    case Standard => f.standard
  }

  /** `{ ...formData, [field]: value }`. */
  function With(f: Form, field: Field, value: string): Form
  {
    match field
    case Title => f.(title := value)
    case Description => f.(description := value)
    case MetalType => f.(metalType := value)
    case Price => f.(price := value)
    case Quantity => f.(quantity := value)
    case Unit => f.(unit := value)
    case Location => f.(location := value)
    case Grade => f.(grade := value)
    case Thickness => f.(thickness := value)
    case Standard => f.(standard := value)
  }

  /** An edit replaces exactly the edited field and leaves every other field as it was. */
  lemma EditIsolated(f: Form, field: Field, value: string)
    ensures Get(With(f, field, value), field) == value
    ensures forall other :: other != field ==> Get(With(f, field, value), other) == Get(f, other)
  {
  }

  /** Two forms that agree on every field are the same form. */
  lemma FormsByFields(f: Form, g: Form)
    requires forall field :: Get(f, field) == Get(g, field)
    ensures f == g
  {
    assert Get(f, Title) == Get(g, Title) && Get(f, Description) == Get(g, Description);
    assert Get(f, MetalType) == Get(g, MetalType) && Get(f, Price) == Get(g, Price);
    assert Get(f, Quantity) == Get(g, Quantity) && Get(f, Unit) == Get(g, Unit);
    assert Get(f, Location) == Get(g, Location) && Get(f, Grade) == Get(g, Grade);
    assert Get(f, Thickness) == Get(g, Thickness) && Get(f, Standard) == Get(g, Standard);
  }

  /** Re-entering the value a field already holds changes nothing. */
  lemma EditSameValue(f: Form, field: Field)
    ensures With(f, field, Get(f, field)) == f
  {
    EditIsolated(f, field, Get(f, field));
    FormsByFields(With(f, field, Get(f, field)), f);
  }

  /** `images.filter((_, i) => i !== index)`. */
  function Without<T>(s: seq<T>, index: nat): (r: seq<T>)
    requires index < |s|
    ensures |r| == |s| - 1
    ensures forall i :: 0 <= i < index ==> r[i] == s[i]
    ensures forall i :: index <= i < |r| ==> r[i] == s[i + 1]
  {
    s[..index] + s[index + 1..]
  }

  /** The step after `handleNext`. */
  function Next(step: int): int
  {
    if step < |Steps| then step + 1 else step
  }

  /** The step after `handlePrevious`. */
  function Previous(step: int): int
  {
    if step > 1 then step - 1 else step
  }

  class Wizard {
    var currentStep: int
    var form: Form
    var images: seq<string>

    /** The step is one of the four, and there are at most five image slots. */
    predicate Valid()
      reads this
    {
      1 <= currentStep <= |Steps| && |images| <= MaxImages
    }

    constructor ()
      ensures Valid()
      ensures currentStep == 1 && form == InitialForm && images == []
    {
      currentStep := 1;
      form := InitialForm;
      images := [];
    }

    /** The title shown above the current step. */
    function StepTitle(): (t: string)
      reads this
      requires Valid()
      ensures t in Steps
    {
      Steps[currentStep - 1]
    }

    /** `handleNext`: one step forward unless on the last step. */
    method HandleNext()
      requires Valid()
      modifies this
      ensures Valid()
      ensures currentStep == Next(old(currentStep))
      ensures form == old(form) && images == old(images)
    {
      if currentStep < |Steps| {
        currentStep := currentStep + 1;
      }
    }

    /** `handlePrevious`: one step back unless on the first step. */
    method HandlePrevious()
      requires Valid()
      modifies this
      ensures Valid()
      ensures currentStep == Previous(old(currentStep))
      ensures form == old(form) && images == old(images)
    {
      if currentStep > 1 {
        currentStep := currentStep - 1;
      }
    }

    /** A field's `onChange`: the one field takes the new value. */
    method Edit(field: Field, value: string)
      requires Valid()
      modifies this
      ensures Valid()
      ensures form == With(old(form), field, value)
      ensures currentStep == old(currentStep) && images == old(images)
    {
      form := With(form, field, value);
    }

    /**
     * The Upload Image button, which is only shown while there are fewer than
     * five slots: adds an empty slot at the end.
     */
    method AddImage()
      requires Valid() && |images| < MaxImages
      modifies this
      ensures Valid()
      ensures images == old(images) + [""]
      ensures currentStep == old(currentStep) && form == old(form)
    {
      images := images + [""];
    }

    /** The remove button of slot `index`: drops exactly that slot, keeping the others in order. */
    method RemoveImage(index: nat)
      requires Valid() && index < |images|
      modifies this
      ensures Valid()
      ensures images == Without(old(images), index)
      ensures currentStep == old(currentStep) && form == old(form)
    {
      images := Without(images, index);
    }
  }

  /**
   * From any step, Next stays within 1..4, Previous undoes a Next that moved,
   * and three Nexts from the first step reach the last one, where Next stops.
   */
  lemma StepsRoundTrip(step: int)
    requires 1 <= step <= |Steps|
    ensures Next(step) == step + 1 <==> step < |Steps|
    ensures Previous(step) == step - 1 <==> step > 1
    ensures 1 <= Next(step) <= |Steps| && 1 <= Previous(step) <= |Steps|
    ensures step < |Steps| ==> Previous(Next(step)) == step
    ensures step > 1 ==> Next(Previous(step)) == step
    ensures Next(Next(Next(1))) == |Steps| && Next(|Steps|) == |Steps|
  {
  }
}

=== FILE: decimal.dfy ===
/**
 * Decimal integers as text: the canonical rendering a key-value store keeps
 * counters in, its strict parser, and the lenient JavaScript conversions
 * `parseInt(s)` and `Number(s)` restricted to integers.
 */
module Decimal {
  import opened Wrappers
  import Text

  predicate IsDigit(c: char) { '0' <= c <= '9' }

  function DigitValue(c: char): nat
    requires IsDigit(c)
  {
    c as int - '0' as int
  }

  function DigitChar(d: nat): (c: char)
    requires d < 10
    ensures IsDigit(c) && DigitValue(c) == d
  {
    ('0' as int + d) as char
  }

  predicate AllDigits(s: string)
  {
    forall i :: 0 <= i < |s| ==> IsDigit(s[i])
  }

  /** The value of a string of digits, most significant first (leading zeros allowed). */
  function DigitsValue(s: string): nat
    requires AllDigits(s)
  {
    if s == [] then 0 else DigitsValue(s[..|s| - 1]) * 10 + DigitValue(s[|s| - 1])
  }

  /** A digit string without a redundant leading zero. */
  predicate Canonical(s: string)
  {
    s != [] && AllDigits(s) && (s[0] == '0' ==> |s| == 1)
  }

  /** `String(n)` for a natural number. */
  function NatToString(n: nat): (s: string)
    ensures Canonical(s)
    ensures DigitsValue(s) == n
  {
    if n < 10 then [DigitChar(n)]
    else
      var s := NatToString(n / 10) + [DigitChar(n % 10)];
      assert s[..|s| - 1] == NatToString(n / 10);
      s
  }

  /** `String(i)` for an integer. */
  function IntToString(i: int): (s: string)
    ensures s != []
  {
    if i < 0 then "-" + NatToString(-i) else NatToString(i)
  }

  /** Two canonical digit strings with the same value are the same string. */
  lemma {:induction false} CanonicalUnique(s: string)
    requires Canonical(s)
    ensures NatToString(DigitsValue(s)) == s
    decreases |s|
  {
    var n := DigitsValue(s);
    if |s| == 1 {
      assert s[..0] == [];
    } else {
      var front := s[..|s| - 1];
      assert front[0] == s[0];
      assert AllDigits(front);
      assert n / 10 == DigitsValue(front) && n % 10 == DigitValue(s[|s| - 1]);
      assert front[0] != '0';
      FrontPositive(front);
      assert n >= 10;
      CanonicalUnique(front);
      assert s == front + [s[|s| - 1]];
    }
  }

  /** A digit string that starts with a non-zero digit has a non-zero value. */
  lemma {:induction false} FrontPositive(s: string)
    requires s != [] && AllDigits(s) && s[0] != '0'
    ensures DigitsValue(s) >= 1
    decreases |s|
  {
    if |s| > 1 {
      var front := s[..|s| - 1];
      assert front[0] == s[0] && AllDigits(front);
      FrontPositive(front);
    }
  }

  /**
   * The store's strict integer parse: an optional '-' then a canonical digit
   * string, no sign on zero, nothing else (no spaces, no '+').
   */
  function ParseInt(s: string): (r: Option<int>)
    ensures r.Some? ==> IntToString(r.value) == s
  {
    if |s| >= 2 && s[0] == '-' && Canonical(s[1..]) && s[1] != '0' then
      var t := s[1..];
      var v: int := DigitsValue(t);
      CanonicalUnique(t);
      FrontPositive(t);
      assert IntToString(-v) == "-" + NatToString(v);
      assert "-" + t == s;
      Some(-v)
    else if Canonical(s) then
      var v: nat := DigitsValue(s);
      CanonicalUnique(s);
      assert IntToString(v) == NatToString(v);
      Some(v)
    else None
  }

  /** Every integer the store renders parses back to itself. */
  lemma ParseIntRoundTrip(i: int)
    ensures ParseInt(IntToString(i)) == Some(i)
  {
    var s := IntToString(i);
    if i < 0 {
      var t := NatToString(-i);
      assert s[1..] == t;
      assert t[0] != '0';
    } else {
      assert s == NatToString(i);
    }
  }

  /** The longest prefix of `s` made of digits. */
  function DigitPrefix(s: string): (r: string)
    ensures AllDigits(r) && |r| <= |s| && r == s[..|r|]
    ensures |r| < |s| ==> !IsDigit(s[|r|])
  {
    if s != [] && IsDigit(s[0]) then
      var rest := DigitPrefix(s[1..]);
      assert [s[0]] + rest == s[..1 + |rest|];
      [s[0]] + rest
    else []
  }

  /**
   * `parseInt(s)` in base 10: leading white space skipped, an optional sign,
   * then the longest run of digits; `None` stands for NaN (no digit at all).
   */
  function JsParseInt(s: string): (r: Option<int>)
    ensures r.None? <==> DigitPrefix(Unsigned(Text.TrimStart(s))) == []
  {
    var t := Text.TrimStart(s);
    var neg := t != [] && t[0] == '-';
    var digits := DigitPrefix(Unsigned(t));
    var v: int := if digits == [] then 0 else DigitsValue(digits);
    if digits == [] then None
    else if neg then Some(-v)
    else Some(v)
  }

  /** The text after an optional leading sign. */
  function Unsigned(t: string): (r: string)
    ensures |r| <= |t|
  {
    if t != [] && (t[0] == '-' || t[0] == '+') then t[1..] else t
  }

  /** `DigitPrefix` stops at the end of a canonical digit string. */
  lemma {:induction false} DigitPrefixOfDigits(s: string)
    requires AllDigits(s)
    ensures DigitPrefix(s) == s
  {
    if s != [] {
      DigitPrefixOfDigits(s[1..]);
      assert [s[0]] + s[1..] == s;
    }
  }

  /** A string starting with a sign or a digit has no leading white space. */
  lemma TrimStartKeeps(s: string)
    requires s != [] && (s[0] == '-' || IsDigit(s[0]))
    ensures Text.TrimStart(s) == s
  {
  }

  /** `parseInt(String(i)) === i` for every integer. */
  lemma JsParseIntRoundTrip(i: int)
    ensures JsParseInt(IntToString(i)) == Some(i)
  {
    var s := IntToString(i);
    var digits := NatToString(if i < 0 then -i else i);
    assert Unsigned(s) == digits;
    assert s[0] == '-' || IsDigit(s[0]);
    TrimStartKeeps(s);
    DigitPrefixOfDigits(digits);
  }

  /**
   * `parseInt(env || fallback)`: an unset or empty variable takes the
   * fallback, whose text is a plain decimal and so parses to itself.
   */
  function Setting(env: Option<string>, fallback: int): (r: Option<int>)
    ensures !Truthy(env) ==> r == Some(fallback)
  {
    if Truthy(env) then JsParseInt(env.value) else Some(fallback)
  }

  /**
   * `Number(s)` for strings holding an integer: white space around an optional
   * sign and digits is ignored, the empty (or all-space) string is 0, anything
   * else is NaN (`None`).
   */
  function JsNumber(s: string): (r: Option<int>)
    ensures Text.Trim(s) == "" ==> r == Some(0)
  {
    var t := Text.Trim(s);
    if t == "" then Some(0)
    else
      var u := Unsigned(t);
      if u != [] && AllDigits(u) then
        var v: int := DigitsValue(u);
        if t[0] == '-' then Some(-v) else Some(v)
      else None
  }

  /** `Number(String(i)) === i` for every integer. */
  lemma JsNumberRoundTrip(i: int)
    ensures JsNumber(IntToString(i)) == Some(i)
  {
    var s := IntToString(i);
    var digits := NatToString(if i < 0 then -i else i);
    assert Unsigned(s) == digits;
    assert s[0] == '-' || IsDigit(s[0]);
    assert IsDigit(s[|s| - 1]);
    Text.TrimOfTrimmed(s);
  }
}

=== FILE: json.dfy ===
/**
 * Request bodies as the validation pipe sees them, and the class-validator
 * decorators the DTO classes use, one predicate each. A body maps property
 * names to values; each DTO module names its properties with an enumeration
 * `K`, since properties outside the DTO take no part in its rules. Reading a
 * property gives `None` for `undefined` (the key is absent).
 */
module Json {
  import opened Wrappers

  /** A JSON value. Numbers are integers here; fractional numbers are not modelled. */
  datatype Value =
    | Null
    | Bool(b: bool)
    | Num(n: int)
    | Str(s: string)
    | Arr(items: seq<Value>)
    | Obj(fields: map<string, Value>)

  /** A request body: a JSON object over the property names `K`. */
  type Body<K(==)> = map<K, Value>

  /** Reading a property: absent keys are `undefined`. */
  function Field<K(==)>(body: Body<K>, name: K): (v: Option<Value>)
    ensures v.Some? <==> name in body
  {
    if name in body then Some(body[name]) else None
  }

  /** `@IsOptional()`: a null or undefined value skips every other decorator of the property. */
  predicate Skipped(v: Option<Value>)
  {
    v.None? || v.value.Null?
  }

  /** `@IsString()`. */
  predicate IsString(v: Option<Value>)
  {
    v.Some? && v.value.Str?
  }

  /** `@IsNotEmpty()`: neither `''`, `null` nor `undefined`. */
  predicate IsNotEmpty(v: Option<Value>)
  {
    v.Some? && v.value != Null && v.value != Str("")
  }

  /** `@IsNumber()`: a number (never NaN or an infinity, which integers cannot be). */
  predicate IsNumber(v: Option<Value>)
  {
    v.Some? && v.value.Num?
  }

  /** `@Min(m)`: a number no smaller than `m`. */
  predicate Min(v: Option<Value>, m: int)
  {
    v.Some? && v.value.Num? && v.value.n >= m
  }

  /** `@IsBoolean()`. */
  predicate IsBoolean(v: Option<Value>)
  {
    v.Some? && v.value.Bool?
  }

  /** `@IsArray()`. */
  predicate IsArray(v: Option<Value>)
  {
    v.Some? && v.value.Arr?
  }

  /** `@IsString({ each: true })` on an array: every element is a string. */
  predicate EachString(v: Option<Value>)
  {
    v.Some? && v.value.Arr? && forall i :: 0 <= i < |v.value.items| ==> v.value.items[i].Str?
  }

  /** `@IsEnum(E)`: one of the enum's string values. */
  predicate IsEnum(v: Option<Value>, values: set<string>)
  {
    v.Some? && v.value.Str? && v.value.s in values
  }

  /** `@MinLength(m)`: a string of at least `m` characters. */
  predicate MinLength(v: Option<Value>, m: nat)
  {
    v.Some? && v.value.Str? && |v.value.s| >= m
  }

  /** `@IsEmail()`, with the address syntax check given as `isEmail`. */
  predicate IsEmail(v: Option<Value>, isEmail: string -> bool)
  {
    v.Some? && v.value.Str? && isEmail(v.value.s)
  }

  /** The body holding, for each property of `props`, the value `values` gives it (absent when `None`). */
  function BodyOf<K(==)>(props: set<K>, values: K -> Option<Value>): Body<K>
  {
    map p | p in props && values(p).Some? :: values(p).value
  }

  /** Reading a property of `BodyOf(props, values)` gives back what `values` says. */
  lemma FieldOfBody<K>(props: set<K>, values: K -> Option<Value>)
    requires forall p :: p in props
    ensures forall p :: Field(BodyOf(props, values), p) == values(p)
  {
  }

  function OptionalStr(x: Option<string>): Option<Value>
  {
    if x.Some? then Some(Str(x.value)) else None
  }

  function OptionalNum(x: Option<int>): Option<Value>
  {
    if x.Some? then Some(Num(x.value)) else None
  }

  function OptionalBool(x: Option<bool>): Option<Value>
  {
    if x.Some? then Some(Bool(x.value)) else None
  }

  /** A list of strings as a JSON array. */
  function Strings(xs: seq<string>): (r: Value)
    ensures r.Arr? && |r.items| == |xs|
    ensures forall i :: 0 <= i < |xs| ==> r.items[i] == Str(xs[i])
  {
    Arr(seq(|xs|, i requires 0 <= i < |xs| => Str(xs[i])))
  }
}

=== FILE: kvstore.dfy ===
/**
 * The key-value server the cache service talks to, reduced to the commands it
 * issues: GET, SET, SETEX, DEL, EXISTS, INCR and PEXPIRE over string keys and
 * string values with an optional expiry time in milliseconds. An entry whose
 * expiry time has passed behaves as absent.
 */
module KeyValue {
  import opened Wrappers
  import Decimal

  datatype Entry = Entry(value: string, expireAt: Option<int>)

  /** The entry is still visible at time `now`. */
  predicate LiveAt(e: Entry, now: int)
  {
    e.expireAt.None? || now < e.expireAt.value
  }

  /** `a` and `b` agree on every key except `key`. */
  ghost predicate SameOutside(a: map<string, Entry>, b: map<string, Entry>, key: string)
  {
    forall k :: k != key ==> (k in a <==> k in b) && (k in a ==> a[k] == b[k])
  }

  class Store {
    var data: map<string, Entry>

    constructor ()
      ensures data == map[]
    {
      data := map[];
    }

    /** GET: the live value under `key`, or null. */
    function Get(key: string, now: int): (r: Option<string>)
      reads this
      ensures r.Some? <==> key in data && LiveAt(data[key], now)
      ensures r.Some? ==> r.value == data[key].value
    {
      if key in data && LiveAt(data[key], now) then Some(data[key].value) else None
    }

    /** EXISTS on one key, as the boolean `exists === 1`. */
    predicate Exists(key: string, now: int)
      reads this
    {
      Get(key, now).Some?
    }

    /** SET: stores the value and drops any expiry. */
    method Set(key: string, value: string)
      modifies this
      ensures data == old(data)[key := Entry(value, None)]
      ensures forall t :: Get(key, t) == Some(value)
    {
      data := data[key := Entry(value, None)];
    }

    /** SETEX: stores the value for `seconds` seconds; a non-positive time is refused and stores nothing. */
    method SetEx(key: string, seconds: int, value: string, now: int) returns (ok: bool)
      modifies this
      ensures ok <==> seconds > 0
      ensures !ok ==> data == old(data)
      ensures ok ==> data == old(data)[key := Entry(value, Some(now + seconds * 1000))]
      ensures ok ==> forall t :: t < now + seconds * 1000 ==> Get(key, t) == Some(value)
      ensures ok ==> forall t :: t >= now + seconds * 1000 ==> Get(key, t) == None
    {
      if seconds <= 0 {
        return false;
      }
      data := data[key := Entry(value, Some(now + seconds * 1000))];
      ok := true;
    }

    /** DEL: the key is gone. */
    method Del(key: string)
      modifies this
      ensures data == old(data) - {key}
      ensures forall t :: Get(key, t) == None
    {
      data := data - {key};
    }

    /**
     * INCR: an absent key counts as 0 and comes back as 1 with no expiry; a
     * live integer value goes up by one and keeps its expiry; anything else
     * is an error and changes nothing.
     */
    method Incr(key: string, now: int) returns (r: Result<int>)
      modifies this
      ensures old(Get(key, now)).None? ==> r == Ok(1) && data == old(data)[key := Entry("1", None)]
      ensures old(Get(key, now)).Some? && Decimal.ParseInt(old(Get(key, now)).value).Some? ==>
        var n := Decimal.ParseInt(old(Get(key, now)).value).value;
        r == Ok(n + 1) && data == old(data)[key := Entry(Decimal.IntToString(n + 1), old(data)[key].expireAt)]
      ensures old(Get(key, now)).Some? && Decimal.ParseInt(old(Get(key, now)).value).None? ==>
        r.Err? && data == old(data)
      ensures r.Ok? ==> Get(key, now).Some? && Decimal.ParseInt(Get(key, now).value) == Some(r.value)
      ensures r.Err? ==> r.error.kind == Internal
    {
      var current := Get(key, now);
      if current.None? {
        data := data[key := Entry("1", None)];
        Decimal.ParseIntRoundTrip(1);
        return Ok(1);
      }
      var n := Decimal.ParseInt(current.value);
      if n.None? {
        return Err(Error(Internal, "ERR value is not an integer or out of range"));
      }
      data := data[key := Entry(Decimal.IntToString(n.value + 1), data[key].expireAt)];
      Decimal.ParseIntRoundTrip(n.value + 1);
      r := Ok(n.value + 1);
    }

    /**
     * PEXPIRE: a live key gets an expiry `ms` milliseconds from now, or is
     * deleted at once when `ms` is not positive; an absent key is left alone.
     */
    method PExpire(key: string, ms: int, now: int) returns (armed: bool)
      modifies this
      ensures armed <==> old(Exists(key, now))
      ensures !armed ==> data == old(data)
      ensures armed && ms <= 0 ==> data == old(data) - {key}
      ensures armed && ms > 0 ==> data == old(data)[key := old(data)[key].(expireAt := Some(now + ms))]
    {
      if !Exists(key, now) {
        return false;
      }
      if ms <= 0 {
        data := data - {key};
      } else {
        data := data[key := data[key].(expireAt := Some(now + ms))];
      }
      armed := true;
    }
  }
}

=== FILE: listing_dto.dfy ===
/**
 * The validation rules of the listing request bodies: `CreateListingDto`,
 * `UpdateListingDto` and `ListingQueryDto`, each a predicate over the JSON
 * body, with the metal type enum given as the set of its values.
 */
module ListingDtos {
  import opened Wrappers
  import opened Json
  import Schema
  import Listings

  /** The properties the three listing DTOs declare. */
  datatype Prop =
    | Title | Description | MetalType | Grade | Price | IsNegotiable | Quantity | Unit
    | Location | ImageUrls | MinPrice | MaxPrice | SortBy | Page | Limit

  /** The JSON key of each property. */
  function Key(p: Prop): string
  {
    match p
    case Title => "title"
    case Description => "description"
    case MetalType => "metalType"
    case Grade => "grade"
    case Price => "price"
    case IsNegotiable => "isNegotiable"
    case Quantity => "quantity"
    case Unit => "unit"
    case Location => "location"
    case ImageUrls => "imageUrls"
    case MinPrice => "minPrice"
    case MaxPrice => "maxPrice"
    case SortBy => "sortBy"
    case Page => "page"
    case Limit => "limit"
  }

  /** `@IsString() @IsOptional()`. */
  predicate OptionalString(v: Option<Value>)
  {
    Skipped(v) || IsString(v)
  }

  /** `@IsNumber() @Min(0)`. */
  predicate NonNegativeNumber(v: Option<Value>)
  {
    IsNumber(v) && Min(v, 0)
  }

  /** `CreateListingDto`. The location is only checked to be present; its parts are not validated. */
  predicate ValidCreateListing(body: Body<Prop>, metalTypes: set<string>)
  {
    IsString(Field(body, Title)) && IsNotEmpty(Field(body, Title))
    && IsString(Field(body, Description)) && IsNotEmpty(Field(body, Description))
    && IsEnum(Field(body, MetalType), metalTypes)
    && OptionalString(Field(body, Grade))
    && NonNegativeNumber(Field(body, Price))
    && (Skipped(Field(body, IsNegotiable)) || IsBoolean(Field(body, IsNegotiable)))
    && NonNegativeNumber(Field(body, Quantity))
    && OptionalString(Field(body, Unit))
    && IsNotEmpty(Field(body, Location))
    && (Skipped(Field(body, ImageUrls)) || (IsArray(Field(body, ImageUrls)) && EachString(Field(body, ImageUrls))))
  }

  /** `UpdateListingDto`: every property optional; the location carries no rule at all. */
  predicate ValidUpdateListing(body: Body<Prop>, metalTypes: set<string>)
  {
    OptionalString(Field(body, Title))
    && OptionalString(Field(body, Description))
    && (Skipped(Field(body, MetalType)) || IsEnum(Field(body, MetalType), metalTypes))
    && OptionalString(Field(body, Grade))
    && (Skipped(Field(body, Price)) || NonNegativeNumber(Field(body, Price)))
    && (Skipped(Field(body, IsNegotiable)) || IsBoolean(Field(body, IsNegotiable)))
    && (Skipped(Field(body, Quantity)) || NonNegativeNumber(Field(body, Quantity)))
    && OptionalString(Field(body, Unit))
  }

  /** `ListingQueryDto`: every property optional; `sortBy` is only checked to be a string. */
  predicate ValidListingQuery(body: Body<Prop>, metalTypes: set<string>)
  {
    (Skipped(Field(body, MetalType)) || IsEnum(Field(body, MetalType), metalTypes))
    && (Skipped(Field(body, MinPrice)) || IsNumber(Field(body, MinPrice)))
    && (Skipped(Field(body, MaxPrice)) || IsNumber(Field(body, MaxPrice)))
    && OptionalString(Field(body, Location))
    && OptionalString(Field(body, SortBy))
    && (Skipped(Field(body, Page)) || IsNumber(Field(body, Page)))
    && (Skipped(Field(body, Limit)) || IsNumber(Field(body, Limit)))
  }

  /** The JSON object of a location. */
  function LocationValue(l: Schema.Location): Value
  {
    Obj(map["city" := Str(l.city), "state" := Str(l.state), "country" := Str(l.country)])
  }

  const AllProps: set<Prop> :=
    {Title, Description, MetalType, Grade, Price, IsNegotiable, Quantity, Unit,
     Location, ImageUrls, MinPrice, MaxPrice, SortBy, Page, Limit}

  /**
   * Every property is in `AllProps`, and no two properties share a JSON key,
   * so a body keyed by property is the same as one keyed by its JSON name.
   */
  lemma AllPropsListed()
    ensures forall p :: p in AllProps
    ensures forall p, q :: Key(p) == Key(q) ==> p == q
  {
    forall p: Prop
      ensures p in AllProps
    {
      match p
      case Title => case Description => case MetalType => case Grade => case Price =>
      case IsNegotiable => case Quantity => case Unit => case Location => case ImageUrls =>
      case MinPrice => case MaxPrice => case SortBy => case Page => case Limit =>
    }
  }

  /** What a client sends for each property of a create request. */
  function CreateValue(dto: Listings.CreateListingInput, p: Prop): Option<Value>
  {
    match p
    case Title => Some(Str(dto.title))
    case Description => Some(Str(dto.description))
    case MetalType => Some(Str(dto.metalType))
    case Grade => OptionalStr(dto.grade)
    case Price => Some(Num(dto.price))
    case IsNegotiable => OptionalBool(dto.isNegotiable)
    case Quantity => Some(Num(dto.quantity))
    case Unit => OptionalStr(dto.unit)
    case Location => Some(LocationValue(dto.location))
    case ImageUrls => if dto.imageUrls.Some? then Some(Strings(dto.imageUrls.value)) else None
    case _ => None
  }

  /** What a client sends for each property of an update request: only the fields it changes. */
  function UpdateValue(dto: Listings.UpdateListingInput, p: Prop): Option<Value>
  {
    match p
    case Title => OptionalStr(dto.title)
    case Description => OptionalStr(dto.description)
    case MetalType => OptionalStr(dto.metalType)
    case Grade => OptionalStr(dto.grade)
    case Price => OptionalNum(dto.price)
    case IsNegotiable => OptionalBool(dto.isNegotiable)
    case Quantity => OptionalNum(dto.quantity)
    case Unit => OptionalStr(dto.unit)
    case Location => if dto.location.Some? then Some(LocationValue(dto.location.value)) else None
    case _ => None
  }

  /** The body a client sends for a create request. */
  function CreateBody(dto: Listings.CreateListingInput): Body<Prop>
  {
    BodyOf(AllProps, p => CreateValue(dto, p))
  }

  /** The body a client sends for an update request. */
  function UpdateBody(dto: Listings.UpdateListingInput): Body<Prop>
  {
    BodyOf(AllProps, p => UpdateValue(dto, p))
  }

  /**
   * A well-typed create request passes validation exactly when its title and
   * description are non-empty, its metal type is a value of the enum and its
   * price and quantity are not negative.
   */
  lemma CreateBodyValid(dto: Listings.CreateListingInput, metalTypes: set<string>)
    ensures ValidCreateListing(CreateBody(dto), metalTypes) <==>
      dto.title != "" && dto.description != "" && dto.metalType in metalTypes
      && dto.price >= 0 && dto.quantity >= 0
  {
    AllPropsListed();
    FieldOfBody(AllProps, p => CreateValue(dto, p));
  }

  /**
   * A well-typed update request passes validation exactly when a given metal
   * type is a value of the enum and a given price or quantity is not negative.
   */
  lemma UpdateBodyValid(dto: Listings.UpdateListingInput, metalTypes: set<string>)
    ensures ValidUpdateListing(UpdateBody(dto), metalTypes) <==>
      (dto.metalType.Some? ==> dto.metalType.value in metalTypes)
      && (dto.price.Some? ==> dto.price.value >= 0)
      && (dto.quantity.Some? ==> dto.quantity.value >= 0)
  {
    AllPropsListed();
    FieldOfBody(AllProps, p => UpdateValue(dto, p));
  }

  /** Every body a create accepts is also accepted as an update. */
  lemma CreateValidIsUpdateValid(body: Body<Prop>, metalTypes: set<string>)
    requires ValidCreateListing(body, metalTypes)
    ensures ValidUpdateListing(body, metalTypes)
  {
  }

  /**
   * An empty body is refused for a create and accepted for an update and a
   * query, and a query accepts any string as `sortBy`, not only the three
   * orders the service knows.
   */
  lemma QueryRulesAreLoose(body: Body<Prop>, metalTypes: set<string>, sortBy: string)
    requires ValidListingQuery(body, metalTypes)
    ensures ValidListingQuery(body[SortBy := Str(sortBy)], metalTypes)
    ensures !ValidCreateListing(map[], metalTypes)
    ensures ValidUpdateListing(map[], metalTypes) && ValidListingQuery(map[], metalTypes)
  {
  }
}

=== FILE: listings.dfy ===
/**
 * The listing lifecycle: creation under the FREE-plan quota, the public
 * search with its filters, orders and pages, owner-only edits that send an
 * approved listing back to review, deletion, and the seller's own list.
 */
module Listings {
  import opened Wrappers
  import opened Schema
  import Seqs
  import Text
  import Memberships

  /** The number of PENDING or APPROVED listings a seller on the FREE plan may hold. */
  const FreeListingQuota: nat := 3

  const QuotaMessage := "Free plan allows maximum 3 listings. Upgrade to create more."
  const NotFoundMessage := "Listing not found"

  /** The fields of a create request that the service reads. */
  datatype CreateListingInput = CreateListingInput(
    title: string,
    description: string,
    metalType: string,
    listingRole: Option<string>,
    listingType: Option<string>,
    premiumStatus: Option<string>,
    industries: Option<seq<string>>,
    capabilities: Option<seq<string>>,
    metals: Option<seq<string>>,
    grade: Option<string>,
    price: int,
    isNegotiable: Option<bool>,
    quantity: int,
    unit: Option<string>,
    location: Location,
    imageUrls: Option<seq<string>>)

  /** `x ?? d`. */
  function OrElse<T>(x: Option<T>, d: T): T
  {
    if x.Some? then x.value else d
  }

  /** A listing that counts towards the quota of seller `u`. */
  predicate CountsTowardQuota(l: Listing, u: Id)
  {
    l.sellerId == u && (l.status == ListingStatus.Pending || l.status == ListingStatus.Approved)
  }

  /** `listing.count({ sellerId: u, status: { in: [PENDING, APPROVED] } })`. */
  function QuotaCount(ls: map<Id, Listing>, u: Id): nat
  {
    |QuotaKeys(ls, u)|
  }

  function QuotaKeys(ls: map<Id, Listing>, u: Id): set<Id>
  {
    set k | k in ls && CountsTowardQuota(ls[k], u)
  }

  /**
   * `create` refuses when the newest ACTIVE membership is absent or FREE and
   * the seller already holds three counted listings. The end date of the
   * membership plays no part.
   */
  predicate QuotaExceeded(ms: map<Id, Membership>, n: nat, ls: map<Id, Listing>, u: Id)
  {
    var m := Memberships.NewestActive(ms, n, u);
    (m.None? || m.value.plan == Plan.Free) && QuotaCount(ls, u) >= FreeListingQuota
  }

  /** The listing row `create` inserts. */
  function NewListing(id: Id, u: Id, dto: CreateListingInput, now: int): Listing
  {
    Listing(
      id, u, dto.title, dto.description, dto.metalType,
      dto.listingRole, dto.listingType, dto.premiumStatus, Some(dto.location.country),
      OrElse(dto.industries, []), OrElse(dto.capabilities, []), OrElse(dto.metals, []),
      dto.grade, dto.price, OrElse(dto.isNegotiable, false), dto.quantity,
      if Truthy(dto.unit) then dto.unit.value else "MT",
      dto.location, ListingStatus.Pending, false, None, now)
  }

  /** The image URLs of a create request, none when absent. */
  function ImageUrls(dto: CreateListingInput): seq<string>
  {
    OrElse(dto.imageUrls, [])
  }

  /** The rows `createMany` inserts: one per URL, in order, with ids from `n` on. */
  function ImageRows(n: nat, listingId: Id, urls: seq<string>, now: int): (r: map<Id, ListingImage>)
    ensures forall k :: k in r <==> n <= k < n + |urls|
    ensures forall k :: k in r ==> r[k] == ListingImage(k, listingId, urls[k - n], false, now)
    decreases |urls|
  {
    if urls == [] then map[]
    else
      var last := |urls| - 1;
      ImageRows(n, listingId, urls[..last], now)[n + last := ListingImage(n + last, listingId, urls[last], false, now)]
  }

  /** A created listing is PENDING, owned by the caller, and takes the documented defaults. */
  lemma NewListingDefaults(id: Id, u: Id, dto: CreateListingInput, now: int)
    ensures var l := NewListing(id, u, dto, now);
      l.status == ListingStatus.Pending && l.sellerId == u && !l.isFeatured
      && (dto.isNegotiable.None? ==> !l.isNegotiable)
      && (!Truthy(dto.unit) ==> l.unit == "MT")
      && (dto.industries.None? ==> l.industries == [])
      && (dto.capabilities.None? ==> l.capabilities == [])
      && (dto.metals.None? ==> l.metals == [])
      && CountsTowardQuota(l, u)
  {
  }

  /** A REJECTED listing never changes the quota count. */
  lemma RejectedDoesNotCount(ls: map<Id, Listing>, u: Id, k: Id, l: Listing)
    requires k !in ls && l.status == ListingStatus.Rejected
    ensures QuotaCount(ls[k := l], u) == QuotaCount(ls, u)
  {
    assert QuotaKeys(ls[k := l], u) == QuotaKeys(ls, u);
  }

  /** A new PENDING listing of `u` raises the quota count by one. */
  lemma NewListingCounts(ls: map<Id, Listing>, u: Id, l: Listing)
    requires l.id !in ls && CountsTowardQuota(l, u)
    ensures QuotaCount(ls[l.id := l], u) == QuotaCount(ls, u) + 1
  {
    assert QuotaKeys(ls[l.id := l], u) == QuotaKeys(ls, u) + {l.id};
  }

  /**
   * A seller whose newest ACTIVE membership is absent or FREE never ends up
   * with more than three counted listings through `create`.
   */
  lemma FreeSellerStaysWithinQuota(ms: map<Id, Membership>, n: nat, ls: map<Id, Listing>, u: Id, dto: CreateListingInput, now: int)
    requires n !in ls
    requires var m := Memberships.NewestActive(ms, n, u); m.None? || m.value.plan == Plan.Free
    requires !QuotaExceeded(ms, n, ls, u)
    ensures QuotaCount(ls[n := NewListing(n, u, dto, now)], u) <= FreeListingQuota
  {
    NewListingCounts(ls, u, NewListing(n, u, dto, now));
  }

  /**
   * The quota never looks at end dates: a seller whose newest ACTIVE row is a
   * paid plan is never limited, even when that row has lapsed.
   */
  lemma PaidPlanNeverLimited(ms: map<Id, Membership>, n: nat, ls: map<Id, Listing>, u: Id, m: Membership)
    requires Memberships.NewestActive(ms, n, u) == Some(m) && m.plan != Plan.Free
    ensures !QuotaExceeded(ms, n, ls, u)
  {
  }

  /** The quota constant agrees with the FREE row of the limits table. */
  lemma QuotaMatchesLimits()
    ensures Memberships.LimitsFor(Plan.Free).maxListings == Memberships.Finite(FreeListingQuota)
  {
  }

  /**
   * `create(u, dto)`: the quota check, then the PENDING listing and one image
   * row per URL; the created listing is returned.
   */
  method Create(db: Db, u: Id, dto: CreateListingInput, now: int) returns (r: Result<Listing>)
    requires db.Valid()
    modifies db`listings, db`images, db`nextId
    ensures db.Valid()
    ensures QuotaExceeded(old(db.memberships), old(db.nextId), old(db.listings), u) ==>
      r == Err(Error(Forbidden, QuotaMessage))
      && db.listings == old(db.listings) && db.images == old(db.images) && db.nextId == old(db.nextId)
    ensures !QuotaExceeded(old(db.memberships), old(db.nextId), old(db.listings), u) ==>
      r == Ok(NewListing(old(db.nextId), u, dto, now)) && db.listings == old(db.listings)[old(db.nextId) := r.value]
    ensures !QuotaExceeded(old(db.memberships), old(db.nextId), old(db.listings), u) ==>
      db.images == old(db.images) + ImageRows(old(db.nextId) + 1, old(db.nextId), ImageUrls(dto), now)
      && db.nextId == old(db.nextId) + 1 + |ImageUrls(dto)|
  {
    if QuotaExceeded(db.memberships, db.nextId, db.listings, u) {
      return Err(Error(Forbidden, QuotaMessage));
    }
    r := Insert(db, u, dto, now);
  }

  /** The two inserts of `create`: the listing, then its images when there are any. */
  method Insert(db: Db, u: Id, dto: CreateListingInput, now: int) returns (r: Result<Listing>)
    requires db.Valid()
    modifies db`listings, db`images, db`nextId
    ensures db.Valid()
    ensures r == Ok(NewListing(old(db.nextId), u, dto, now)) && db.listings == old(db.listings)[old(db.nextId) := r.value]
    ensures db.images == old(db.images) + ImageRows(old(db.nextId) + 1, old(db.nextId), ImageUrls(dto), now)
    ensures db.nextId == old(db.nextId) + 1 + |ImageUrls(dto)|
  {
    var urls := ImageUrls(dto);
    var rows := ImageRows(db.nextId + 1, db.nextId, urls, now);
    var id := db.NewIds(1 + |urls|);
    var listing := NewListing(id, u, dto, now);
    SaveListing(db, listing);
    SaveImages(db, rows, |urls|);
    r := Ok(listing);
  }

  /** Stores a listing under its id. */
  method SaveListing(db: Db, l: Listing)
    requires db.Valid() && l.id < db.nextId
    modifies db`listings
    ensures db.Valid() && db.listings == old(db.listings)[l.id := l]
  {
    db.SetListings(db.listings[l.id := l]);
  }

  /** The `createMany` of image rows, skipped when there is no URL; their ids are already handed out. */
  method SaveImages(db: Db, rows: map<Id, ListingImage>, urlCount: nat)
    requires db.Valid() && forall k :: k in rows ==> k < db.nextId && rows[k].id == k
    requires urlCount == 0 ==> rows == map[]
    modifies db`images
    ensures db.Valid()
    ensures db.images == old(db.images) + rows
  {
    if urlCount > 0 {
      db.SetImages(db.images + rows);
    } else {
      assert db.images + rows == db.images;
    }
  }

  /** The search query: paging, order, and the filters. */
  datatype ListingQuery = ListingQuery(page: Option<int>, limit: Option<int>, sortBy: Option<string>, filters: Filters)

  /** The filtering fields of the search query. */
  datatype Filters = Filters(
    kind: Option<string>,                // the `type` parameter: "buyers" or "suppliers"
    country: Option<seq<string>>,
    industry: Option<seq<string>>,
    capability: Option<seq<string>>,
    metal: Option<seq<string>>,
    premium: Option<string>,
    listingType: Option<string>,
    dateRange: Option<int>,              // days
    search: Option<string>,
    metalType: Option<string>,
    minPrice: Option<int>,
    maxPrice: Option<int>,
    location: Option<string>)

  /** A JavaScript truthiness test on an optional number: absent and 0 are both falsy. */
  predicate NonZero(x: Option<int>)
  {
    x.Some? && x.value != 0
  }

  /** An optional list that is present and non-empty. */
  predicate NonEmptyList(x: Option<seq<string>>)
  {
    x.Some? && |x.value| > 0
  }

  /** The two lists share a value (`hasSome`). */
  predicate Overlaps(xs: seq<string>, ys: seq<string>)
  {
    exists i :: 0 <= i < |xs| && xs[i] in ys
  }

  /**
   * The search filter as a reader of the query understands it: an APPROVED
   * listing that satisfies every supplied filter.
   */
  predicate Matches(f: Filters, l: Listing, now: int)
  {
    l.status == ListingStatus.Approved
    && (f.kind == Some("buyers") ==> l.listingRole == Some("BUYER"))
    && (f.kind == Some("suppliers") ==> l.listingRole == Some("SUPPLIER"))
    && (NonEmptyList(f.country) ==> l.country.Some? && l.country.value in f.country.value)
    && (NonEmptyList(f.industry) ==> Overlaps(l.industries, f.industry.value))
    && (NonEmptyList(f.capability) ==> Overlaps(l.capabilities, f.capability.value))
    && (NonEmptyList(f.metal) ==> Overlaps(l.metals, f.metal.value))
    && (Truthy(f.premium) ==> l.premiumStatus == f.premium)
    && (Truthy(f.listingType) ==> l.listingType == f.listingType)
    && (NonZero(f.dateRange) ==> l.createdAt >= now - f.dateRange.value * DayMs)
    && (Truthy(f.search) ==>
          Text.ContainsInsensitive(l.title, f.search.value) || Text.ContainsInsensitive(l.description, f.search.value))
    && (Truthy(f.metalType) ==> l.metalType == f.metalType.value)
    && (NonZero(f.minPrice) ==> l.price >= f.minPrice.value)
    && (NonZero(f.maxPrice) ==> l.price <= f.maxPrice.value)
    && (Truthy(f.location) ==>
          Text.Contains(l.location.city, f.location.value) || Text.Contains(l.location.state, f.location.value))
  }

  /** A column of the listings table that the search's `where` object names. */
  datatype Column =
    | StatusColumn | ListingRoleColumn | CountryColumn | IndustriesColumn | CapabilitiesColumn
    | MetalsColumn | PremiumStatusColumn | ListingTypeColumn | CreatedAtColumn | TitleColumn
    | DescriptionColumn | MetalTypeColumn | PriceColumn | LocationColumn

  /** A column's value in one row, as the database holds it: text (nullable), a number, a text array or a JSON object. */
  datatype Value = Str(text: Option<string>) | Num(number: int) | StrList(texts: seq<string>) | Json(fields: map<string, string>)

  function StatusName(s: ListingStatus): string
  {
    match s
    case Pending => "PENDING"
    case Approved => "APPROVED"
    case Rejected => "REJECTED"
  }

  /** The value of column `c` in listing `l`. */
  function ColumnValue(l: Listing, c: Column): Value
  {
    match c
    case StatusColumn => Str(Some(StatusName(l.status)))
    case ListingRoleColumn => Str(l.listingRole)
    case CountryColumn => Str(l.country)
    case IndustriesColumn => StrList(l.industries)
    case CapabilitiesColumn => StrList(l.capabilities)
    case MetalsColumn => StrList(l.metals)
    case PremiumStatusColumn => Str(l.premiumStatus)
    case ListingTypeColumn => Str(l.listingType)
    case CreatedAtColumn => Num(l.createdAt)
    case TitleColumn => Str(Some(l.title))
    case DescriptionColumn => Str(Some(l.description))
    case MetalTypeColumn => Str(Some(l.metalType))
    case PriceColumn => Num(l.price)
    case LocationColumn => Json(map["city" := l.location.city, "state" := l.location.state, "country" := l.location.country])
  }

  /** The condition of one `where` entry. */
  datatype Operator =
    | EqualTo(value: string)                        // `column: value`
    | InList(values: seq<string>)                   // `{ in: values }`
    | HasSome(values: seq<string>)                  // `{ hasSome: values }`
    | Between(gte: Option<int>, lte: Option<int>)   // `{ gte, lte }`, either bound optional
    | ContainsAnyCase(sub: string)                  // `{ contains: sub, mode: 'insensitive' }`
    | PathContains(path: seq<string>, sub: string)  // `{ path, string_contains: sub }`

  datatype Entry = Entry(column: Column, op: Operator)

  /** A `where` object: entries that must all hold, and an optional `OR` list of which one must hold. */
  datatype Where = Where(entries: seq<Entry>, anyOf: Option<seq<Entry>>)

  /** How the ORM applies one operator to a column value; a null column satisfies none of them. */
  predicate Holds(v: Value, op: Operator)
  {
    match op
    case EqualTo(x) => v == Str(Some(x))
    case InList(xs) => v.Str? && v.text.Some? && v.text.value in xs
    case HasSome(xs) => v.StrList? && Overlaps(v.texts, xs)
    case Between(lo, hi) => v.Num? && (lo.Some? ==> v.number >= lo.value) && (hi.Some? ==> v.number <= hi.value)
    case ContainsAnyCase(sub) => v.Str? && v.text.Some? && Text.ContainsInsensitive(v.text.value, sub)
    case PathContains(path, sub) =>
      v.Json? && exists i :: 0 <= i < |path| && path[i] in v.fields && Text.Contains(v.fields[path[i]], sub)
  }

  predicate EntryHolds(l: Listing, e: Entry)
  {
    Holds(ColumnValue(l, e.column), e.op)
  }

  /** Every entry holds for the row. */
  predicate AllHold(l: Listing, es: seq<Entry>)
  {
    if es == [] then true else EntryHolds(l, es[0]) && AllHold(l, es[1..])
  }

  /** Entries joined one after another hold exactly when both groups hold. */
  lemma {:induction false} AllHoldJoin(l: Listing, a: seq<Entry>, b: seq<Entry>)
    ensures AllHold(l, a + b) == (AllHold(l, a) && AllHold(l, b))
  {
    if a != [] {
      assert (a + b)[1..] == a[1..] + b;
      AllHoldJoin(l, a[1..], b);
    } else {
      assert a + b == b;
    }
  }

  /** How the ORM evaluates a `where` object against a row: every entry, and one of the `OR` entries when there are any. */
  predicate EvalWhere(w: Where, l: Listing)
  {
    AllHold(l, w.entries)
    && (w.anyOf.Some? ==> exists i :: 0 <= i < |w.anyOf.value| && EntryHolds(l, w.anyOf.value[i]))
  }

  /** The list a filter supplies, or the empty list. */
  function Listed(x: Option<seq<string>>): seq<string> { if x.Some? then x.value else [] }

  /** The text a filter supplies, or "". */
  function TextOf(x: Option<string>): string { if x.Some? then x.value else "" }

  /** The number a filter supplies, or 0. */
  function NumberOf(x: Option<int>): int { if x.Some? then x.value else 0 }

  /** A `where` entry that is set only when its filter is supplied. */
  function Optional(c: bool, e: Entry): seq<Entry> { if c then [e] else [] }

  /** `listingRole` from the `type` parameter: BUYER for "buyers", SUPPLIER for "suppliers", otherwise no entry. */
  function RoleEntry(f: Filters): seq<Entry>
  {
    if f.kind == Some("buyers") then [Entry(ListingRoleColumn, EqualTo("BUYER"))]
    else if f.kind == Some("suppliers") then [Entry(ListingRoleColumn, EqualTo("SUPPLIER"))]
    else []
  }

  /** The first group of `where` entries: status, role, the list filters and the two exact text filters. */
  function WhereHead(f: Filters): seq<Entry>
  {
    [Entry(StatusColumn, EqualTo("APPROVED"))]
    + RoleEntry(f)
    + Optional(NonEmptyList(f.country), Entry(CountryColumn, InList(Listed(f.country))))
    + Optional(NonEmptyList(f.industry), Entry(IndustriesColumn, HasSome(Listed(f.industry))))
    + Optional(NonEmptyList(f.capability), Entry(CapabilitiesColumn, HasSome(Listed(f.capability))))
    + Optional(NonEmptyList(f.metal), Entry(MetalsColumn, HasSome(Listed(f.metal))))
    + Optional(Truthy(f.premium), Entry(PremiumStatusColumn, EqualTo(TextOf(f.premium))))
    + Optional(Truthy(f.listingType), Entry(ListingTypeColumn, EqualTo(TextOf(f.listingType))))
  }

  /** The `price` entry: one range holding whichever bounds are supplied. */
  function PriceEntry(f: Filters): Entry
  {
    Entry(PriceColumn, Between(if NonZero(f.minPrice) then f.minPrice else None,
                               if NonZero(f.maxPrice) then f.maxPrice else None))
  }

  /** The second group: the date cut-off, the metal type, the price range and the location. */
  function WhereTail(f: Filters, now: int): seq<Entry>
  {
    Optional(NonZero(f.dateRange), Entry(CreatedAtColumn, Between(Some(now - NumberOf(f.dateRange) * DayMs), None)))
    + Optional(Truthy(f.metalType), Entry(MetalTypeColumn, EqualTo(TextOf(f.metalType))))
    + Optional(NonZero(f.minPrice) || NonZero(f.maxPrice), PriceEntry(f))
    + Optional(Truthy(f.location), Entry(LocationColumn, PathContains(["city", "state"], TextOf(f.location))))
  }

  /**
   * The `where` object `findAll` builds: one entry per supplied filter, both
   * price bounds in one `price` entry present when either is given, and an
   * `OR` of title and description when there is a search text.
   */
  function WhereOf(f: Filters, now: int): Where
  {
    Where(WhereHead(f) + WhereTail(f, now),
          if Truthy(f.search)
          then Some([Entry(TitleColumn, ContainsAnyCase(f.search.value)), Entry(DescriptionColumn, ContainsAnyCase(f.search.value))])
          else None)
  }

  /** Appending an entry that is set only under `c` adds exactly the condition `c ==> entry`. */
  lemma StepHolds(l: Listing, es: seq<Entry>, c: bool, e: Entry)
    ensures AllHold(l, es + Optional(c, e)) <==> AllHold(l, es) && (c ==> EntryHolds(l, e))
  {
    AllHoldJoin(l, es, Optional(c, e));
  }

  /** The status and role entries hold exactly for an APPROVED listing of the requested role. */
  lemma StatusRoleHolds(f: Filters, l: Listing)
    ensures AllHold(l, [Entry(StatusColumn, EqualTo("APPROVED"))] + RoleEntry(f)) <==>
      l.status == ListingStatus.Approved
      && (f.kind == Some("buyers") ==> l.listingRole == Some("BUYER"))
      && (f.kind == Some("suppliers") ==> l.listingRole == Some("SUPPLIER"))
  {
    var s := [Entry(StatusColumn, EqualTo("APPROVED"))];
    assert AllHold(l, s) <==> l.status == ListingStatus.Approved by {
      assert StatusName(l.status) == "APPROVED" <==> l.status == ListingStatus.Approved;
    }
    AllHoldJoin(l, s, RoleEntry(f));
  }

  /** The status and list entries hold exactly when the listing satisfies those filters. */
  lemma WhereHeadHolds(f: Filters, l: Listing)
    ensures AllHold(l, WhereHead(f)) <==>
      l.status == ListingStatus.Approved
      && (f.kind == Some("buyers") ==> l.listingRole == Some("BUYER"))
      && (f.kind == Some("suppliers") ==> l.listingRole == Some("SUPPLIER"))
      && (NonEmptyList(f.country) ==> l.country.Some? && l.country.value in f.country.value)
      && (NonEmptyList(f.industry) ==> Overlaps(l.industries, f.industry.value))
      && (NonEmptyList(f.capability) ==> Overlaps(l.capabilities, f.capability.value))
      && (NonEmptyList(f.metal) ==> Overlaps(l.metals, f.metal.value))
      && (Truthy(f.premium) ==> l.premiumStatus == f.premium)
      && (Truthy(f.listingType) ==> l.listingType == f.listingType)
  {
    var s1 := [Entry(StatusColumn, EqualTo("APPROVED"))] + RoleEntry(f);
    StatusRoleHolds(f, l);
    var country := Entry(CountryColumn, InList(Listed(f.country)));
    StepHolds(l, s1, NonEmptyList(f.country), country);
    var s2 := s1 + Optional(NonEmptyList(f.country), country);
    var industry := Entry(IndustriesColumn, HasSome(Listed(f.industry)));
    StepHolds(l, s2, NonEmptyList(f.industry), industry);
    var s3 := s2 + Optional(NonEmptyList(f.industry), industry);
    var capability := Entry(CapabilitiesColumn, HasSome(Listed(f.capability)));
    StepHolds(l, s3, NonEmptyList(f.capability), capability);
    var s4 := s3 + Optional(NonEmptyList(f.capability), capability);
    var metal := Entry(MetalsColumn, HasSome(Listed(f.metal)));
    StepHolds(l, s4, NonEmptyList(f.metal), metal);
    var s5 := s4 + Optional(NonEmptyList(f.metal), metal);
    var premium := Entry(PremiumStatusColumn, EqualTo(TextOf(f.premium)));
    StepHolds(l, s5, Truthy(f.premium), premium);
    var s6 := s5 + Optional(Truthy(f.premium), premium);
    var kind := Entry(ListingTypeColumn, EqualTo(TextOf(f.listingType)));
    StepHolds(l, s6, Truthy(f.listingType), kind);
  }

  /** The date, metal type, price and location entries hold exactly when the listing satisfies those filters. */
  lemma WhereTailHolds(f: Filters, now: int, l: Listing)
    ensures AllHold(l, WhereTail(f, now)) <==>
      (NonZero(f.dateRange) ==> l.createdAt >= now - f.dateRange.value * DayMs)
      && (Truthy(f.metalType) ==> l.metalType == f.metalType.value)
      && (NonZero(f.minPrice) ==> l.price >= f.minPrice.value)
      && (NonZero(f.maxPrice) ==> l.price <= f.maxPrice.value)
      && (Truthy(f.location) ==>
            Text.Contains(l.location.city, f.location.value) || Text.Contains(l.location.state, f.location.value))
  {
    var date := Entry(CreatedAtColumn, Between(Some(now - NumberOf(f.dateRange) * DayMs), None));
    var d := Optional(NonZero(f.dateRange), date);
    assert AllHold(l, d) <==> (NonZero(f.dateRange) ==> EntryHolds(l, date));
    var metalType := Entry(MetalTypeColumn, EqualTo(TextOf(f.metalType)));
    StepHolds(l, d, Truthy(f.metalType), metalType);
    var s2 := d + Optional(Truthy(f.metalType), metalType);
    StepHolds(l, s2, NonZero(f.minPrice) || NonZero(f.maxPrice), PriceEntry(f));
    var s3 := s2 + Optional(NonZero(f.minPrice) || NonZero(f.maxPrice), PriceEntry(f));
    var place := Entry(LocationColumn, PathContains(["city", "state"], TextOf(f.location)));
    StepHolds(l, s3, Truthy(f.location), place);
    PriceHolds(f, l);
    LocationHolds(l, TextOf(f.location));
  }

  /** The `price` range holds exactly when the price is within each supplied bound. */
  lemma PriceHolds(f: Filters, l: Listing)
    ensures EntryHolds(l, PriceEntry(f)) <==>
      (NonZero(f.minPrice) ==> l.price >= f.minPrice.value) && (NonZero(f.maxPrice) ==> l.price <= f.maxPrice.value)
  {
  }

  /** The location entry holds exactly when the city or the state contains the text. */
  lemma LocationHolds(l: Listing, sub: string)
    ensures EntryHolds(l, Entry(LocationColumn, PathContains(["city", "state"], sub))) <==>
      Text.Contains(l.location.city, sub) || Text.Contains(l.location.state, sub)
  {
    var v := ColumnValue(l, LocationColumn);
    var path := ["city", "state"];
    assert v.fields["city"] == l.location.city && v.fields["state"] == l.location.state;
    assert path[0] == "city" && path[1] == "state";
  }

  /** The `OR` of title and description holds exactly when either contains the search text, ignoring case. */
  lemma SearchOrHolds(l: Listing, sub: string)
    ensures var o := [Entry(TitleColumn, ContainsAnyCase(sub)), Entry(DescriptionColumn, ContainsAnyCase(sub))];
      (exists i :: 0 <= i < |o| && EntryHolds(l, o[i])) <==>
        Text.ContainsInsensitive(l.title, sub) || Text.ContainsInsensitive(l.description, sub)
  {
    var o := [Entry(TitleColumn, ContainsAnyCase(sub)), Entry(DescriptionColumn, ContainsAnyCase(sub))];
    assert (exists i :: 0 <= i < |o| && EntryHolds(l, o[i])) <==> EntryHolds(l, o[0]) || EntryHolds(l, o[1]);
  }

  /** The `where` object, evaluated entry by entry, holds for a listing exactly when it matches the query. */
  lemma WhereHoldsIffMatches(f: Filters, now: int, l: Listing)
    ensures EvalWhere(WhereOf(f, now), l) <==> Matches(f, l, now)
  {
    AllHoldJoin(l, WhereHead(f), WhereTail(f, now));
    WhereHeadHolds(f, l);
    WhereTailHolds(f, now, l);
    if Truthy(f.search) {
      SearchOrHolds(l, f.search.value);
    }
  }

  /** The `where` object selects exactly the listings that match the query. */
  lemma WhereSelectsMatches(f: Filters, now: int)
    ensures forall l :: EvalWhere(WhereOf(f, now), l) <==> Matches(f, l, now)
  {
    forall l: Listing
      ensures EvalWhere(WhereOf(f, now), l) <==> Matches(f, l, now)
    {
      WhereHoldsIffMatches(f, now, l);
    }
  }

  /** The three result orders of the search. */
  datatype Order = PriceAscending | PriceDescending | NewestFirst

  /** `price-low`, `price-high`, and anything else (or nothing) for newest first. */
  function OrderOf(sortBy: Option<string>): Order
  {
    if sortBy == Some("price-low") then PriceAscending
    else if sortBy == Some("price-high") then PriceDescending
    else NewestFirst
  }

  function OrderKey(o: Order): Listing -> int
  {
    if o == NewestFirst then (l: Listing) => l.createdAt else (l: Listing) => l.price
  }

  function OrderDescending(o: Order): bool
  {
    o != PriceAscending
  }

  /** `query.page || 1`: any number the query carries, with an absent or zero page read as 1. */
  function PageOf(q: ListingQuery): (p: int)
    ensures q.page.Some? && q.page.value != 0 ==> p == q.page.value
    ensures (q.page.None? || q.page.value == 0) ==> p == 1
  {
    Seqs.OrDefault(q.page, 1)
  }

  /** `query.limit || 20`: never zero, and negative when the query asks for a negative limit. */
  function LimitOf(q: ListingQuery): (l: int)
    ensures l != 0
    ensures q.limit.Some? && q.limit.value != 0 ==> l == q.limit.value
    ensures (q.limit.None? || q.limit.value == 0) ==> l == 20
  {
    Seqs.OrDefault(q.limit, 20)
  }

  /** The search filter as a row predicate. */
  function SearchFilter(f: Filters, now: int): Listing -> bool
  {
    (l: Listing) => Matches(f, l, now)
  }

  /** The page `findAll` returns: the matches in the requested order, cut to one page, or the error of a negative skip. */
  function Search(ls: map<Id, Listing>, n: nat, q: ListingQuery, now: int): Result<Seqs.Page<Listing>>
  {
    var o := OrderOf(q.sortBy);
    Seqs.Paginate(Seqs.Query(ls, n, SearchFilter(q.filters, now), OrderKey(o), OrderDescending(o)), PageOf(q), LimitOf(q))
  }

  /** `findAll(query)`: builds the filter and the order, then reads one page and the total. */
  method FindAll(db: Db, q: ListingQuery, now: int) returns (r: Result<Seqs.Page<Listing>>)
    ensures r == Search(db.listings, db.nextId, q, now)
  {
    var page := if q.page.Some? && q.page.value != 0 then q.page.value else 1;
    var limit := if q.limit.Some? && q.limit.value != 0 then q.limit.value else 20;
    var w := WhereOf(q.filters, now);
    WhereSelectsMatches(q.filters, now);
    var o := OrderOf(q.sortBy);
    var byWhere := (l: Listing) => EvalWhere(w, l);
    Seqs.SelectRowsCongruent(db.listings, db.nextId, byWhere, SearchFilter(q.filters, now));
    var rows := Seqs.Query(db.listings, db.nextId, byWhere, OrderKey(o), OrderDescending(o));
    r := Seqs.Paginate(rows, page, limit);
  }

  /**
   * A page below 1 with a positive limit, or above 1 with a negative one, makes
   * the skip negative and the search fails. Otherwise every listing on the page
   * is stored, APPROVED and satisfies every supplied filter; the page is in the
   * requested order and holds at most |limit| rows; `total` counts all matches
   * and `totalPages` is `Math.ceil(total / limit)`.
   */
  lemma SearchPageSound(ls: map<Id, Listing>, n: nat, q: ListingQuery, now: int)
    ensures var r := Search(ls, n, q, now); var o := OrderOf(q.sortBy);
      (r.Err? <==> (PageOf(q) < 1 && LimitOf(q) > 0) || (PageOf(q) > 1 && LimitOf(q) < 0))
      && (r.Err? ==> r.error == Seqs.NegativeSkip)
      && (r.Ok? ==>
            (forall i :: 0 <= i < |r.value.items| ==>
               r.value.items[i].status == ListingStatus.Approved && Matches(q.filters, r.value.items[i], now)
               && exists k :: k in ls && k < n && ls[k] == r.value.items[i])
            && Seqs.SortedByKey(r.value.items, OrderKey(o), OrderDescending(o))
            && |r.value.items| <= Seqs.Abs(LimitOf(q))
            && r.value.total == |Seqs.KeysWhere(ls, n, SearchFilter(q.filters, now))|
            && r.value.totalPages == Seqs.JsCeilDiv(r.value.total, LimitOf(q)))
  {
    var o := OrderOf(q.sortBy);
    Seqs.NegativeSkipCases(PageOf(q), LimitOf(q));
    Seqs.PageOfQuery(ls, n, SearchFilter(q.filters, now), OrderKey(o), OrderDescending(o), PageOf(q), LimitOf(q));
  }

  /**
   * The pages are complete for a positive limit: every matching listing appears
   * on some page between 1 and `totalPages` for the same filters, order and limit.
   */
  lemma SearchFindsEveryMatch(ls: map<Id, Listing>, n: nat, q: ListingQuery, now: int, k: Id)
    requires k in ls && k < n && Matches(q.filters, ls[k], now)
    ensures LimitOf(q) > 0 ==> exists pg: nat ::
      Search(ls, n, q.(page := Some(pg)), now).Ok?
      && 1 <= pg <= Search(ls, n, q.(page := Some(pg)), now).value.totalPages
      && ls[k] in Search(ls, n, q.(page := Some(pg)), now).value.items
  {
    var limit := LimitOf(q);
    if limit > 0 {
      var o := OrderOf(q.sortBy);
      var all := Seqs.Query(ls, n, SearchFilter(q.filters, now), OrderKey(o), OrderDescending(o));
      Seqs.EveryMatchOnSomePage(ls, n, SearchFilter(q.filters, now), OrderKey(o), OrderDescending(o), limit, k);
      var pg: nat :| Seqs.Paginate(all, pg, limit).Ok? && 1 <= pg <= Seqs.Paginate(all, pg, limit).value.totalPages
                     && ls[k] in Seqs.Paginate(all, pg, limit).value.items;
      var q2 := q.(page := Some(pg));
      assert PageOf(q2) == pg && LimitOf(q2) == limit && OrderOf(q2.sortBy) == o;
      assert Search(ls, n, q2, now) == Seqs.Paginate(all, pg, limit);
    }
  }

  /** `price-low` sorts ascending by price, `price-high` descending, anything else newest first. */
  lemma OrderTable(sortBy: Option<string>)
    ensures sortBy == Some("price-low") ==> OrderKey(OrderOf(sortBy)) == ((l: Listing) => l.price) && !OrderDescending(OrderOf(sortBy))
    ensures sortBy == Some("price-high") ==> OrderKey(OrderOf(sortBy)) == ((l: Listing) => l.price) && OrderDescending(OrderOf(sortBy))
    ensures sortBy != Some("price-low") && sortBy != Some("price-high") ==>
      OrderKey(OrderOf(sortBy)) == ((l: Listing) => l.createdAt) && OrderDescending(OrderOf(sortBy))
  {
  }

  /** A price bound of 0 is falsy and imposes nothing. */
  lemma ZeroPriceIsNoBound(f: Filters, l: Listing, now: int)
    ensures Matches(f.(minPrice := Some(0)), l, now) == Matches(f.(minPrice := None), l, now)
    ensures Matches(f.(maxPrice := Some(0)), l, now) == Matches(f.(maxPrice := None), l, now)
  {
  }

  /** `findOne(id)`. */
  function FindOne(ls: map<Id, Listing>, id: Id): (r: Result<Listing>)
    ensures r.Ok? <==> id in ls
    ensures r.Ok? ==> r.value == ls[id]
    ensures r.Err? ==> r.error == Error(NotFound, NotFoundMessage)
  {
    if id in ls then Ok(ls[id]) else Err(Error(NotFound, NotFoundMessage))
  }

  /** The ownership check shared by `update` and `delete` (`verb` names the action in the message). */
  function Authorize(ls: map<Id, Listing>, id: Id, u: Id, verb: string): (r: Result<Listing>)
    ensures r.Ok? <==> id in ls && ls[id].sellerId == u
    ensures r.Ok? ==> r.value == ls[id]
    ensures r.Err? && r.error.kind == NotFound <==> id !in ls
    ensures r.Err? && id in ls ==> r.error == Error(Forbidden, "You can only " + verb + " your own listings")
  {
    if id !in ls then Err(Error(NotFound, NotFoundMessage))
    else if ls[id].sellerId != u then Err(Error(Forbidden, "You can only " + verb + " your own listings"))
    else Ok(ls[id])
  }

  /** The fields of an update request; an absent field leaves the column as it is. */
  datatype UpdateListingInput = UpdateListingInput(
    title: Option<string>,
    description: Option<string>,
    metalType: Option<string>,
    grade: Option<string>,
    price: Option<int>,
    isNegotiable: Option<bool>,
    quantity: Option<int>,
    unit: Option<string>,
    location: Option<Location>)

  /** `update({ data: dto })`: writes the given fields; the `country` column is not among them. */
  function ApplyUpdate(l: Listing, dto: UpdateListingInput): Listing
  {
    l.(title := OrElse(dto.title, l.title),
       description := OrElse(dto.description, l.description),
       metalType := OrElse(dto.metalType, l.metalType),
       grade := if dto.grade.Some? then dto.grade else l.grade,
       price := OrElse(dto.price, l.price),
       isNegotiable := OrElse(dto.isNegotiable, l.isNegotiable),
       quantity := OrElse(dto.quantity, l.quantity),
       unit := OrElse(dto.unit, l.unit),
       location := OrElse(dto.location, l.location))
  }

  /** The listing after a successful `update`: the edit, and an APPROVED listing goes back to PENDING. */
  function Edited(l: Listing, dto: UpdateListingInput): (r: Listing)
    ensures l.status == ListingStatus.Approved ==> r.status == ListingStatus.Pending
    ensures l.status != ListingStatus.Approved ==> r.status == l.status
    ensures r.id == l.id && r.sellerId == l.sellerId && r.createdAt == l.createdAt
  {
    var e := ApplyUpdate(l, dto);
    if l.status == ListingStatus.Approved then e.(status := ListingStatus.Pending) else e
  }

  /**
   * An edit replaces exactly the supplied fields and leaves every other
   * column, including `country`, the tag lists and the featured flags, as it was.
   */
  lemma EditTouchesOnlySuppliedFields(l: Listing, dto: UpdateListingInput)
    ensures var r := Edited(l, dto);
      (dto.title.Some? ==> r.title == dto.title.value) && (dto.title.None? ==> r.title == l.title)
      && (dto.price.Some? ==> r.price == dto.price.value) && (dto.price.None? ==> r.price == l.price)
      && (dto.location.Some? ==> r.location == dto.location.value) && (dto.location.None? ==> r.location == l.location)
      && r.country == l.country && r.industries == l.industries && r.capabilities == l.capabilities
      && r.metals == l.metals && r.listingRole == l.listingRole && r.listingType == l.listingType
      && r.premiumStatus == l.premiumStatus && r.isFeatured == l.isFeatured && r.featuredUntil == l.featuredUntil
  {
  }

  /**
   * Moving a listing to another country through `update` leaves the `country`
   * column, which the search filters on, at the old value.
   */
  lemma EditLeavesCountryStale(l: Listing, loc: Location)
    requires l.country == Some(l.location.country) && loc.country != l.location.country
    ensures var r := Edited(l, UpdateListingInput(None, None, None, None, None, None, None, None, Some(loc)));
      r.location.country == loc.country && r.country != Some(r.location.country)
  {
  }

  /** `update(u, id, dto)`: NotFound, then Forbidden, else the edit is stored and returned. */
  method Update(db: Db, u: Id, id: Id, dto: UpdateListingInput) returns (r: Result<Listing>)
    requires db.Valid()
    modifies db`listings
    ensures db.Valid()
    ensures Authorize(old(db.listings), id, u, "update").Err? ==>
      r == Err(Authorize(old(db.listings), id, u, "update").error) && db.listings == old(db.listings)
    ensures Authorize(old(db.listings), id, u, "update").Ok? ==>
      r == Ok(Edited(old(db.listings)[id], dto)) && db.listings == old(db.listings)[id := r.value]
  {
    var found := Authorize(db.listings, id, u, "update");
    if found.Err? {
      return Err(found.error);
    }
    var listing := found.value;
    var edited := ApplyUpdate(listing, dto);
    if listing.status == ListingStatus.Approved {
      edited := edited.(status := ListingStatus.Pending);
    }
    db.SetListings(db.listings[id := edited]);
    r := Ok(edited);
  }

  /** `delete(u, id)`: NotFound, then Forbidden, else exactly that listing is removed. */
  method Delete(db: Db, u: Id, id: Id) returns (r: Result<string>)
    requires db.Valid()
    modifies db`listings
    ensures db.Valid()
    ensures Authorize(old(db.listings), id, u, "delete").Err? ==>
      r == Err(Authorize(old(db.listings), id, u, "delete").error) && db.listings == old(db.listings)
    ensures Authorize(old(db.listings), id, u, "delete").Ok? ==>
      r == Ok("Listing deleted successfully") && db.listings == old(db.listings) - {id}
  {
    var found := Authorize(db.listings, id, u, "delete");
    if found.Err? {
      return Err(found.error);
    }
    db.SetListings(db.listings - {id});
    r := Ok("Listing deleted successfully");
  }

  /** `getMyListings(u)`: exactly the seller's listings, whatever their status, newest first. */
  function MyListings(ls: map<Id, Listing>, n: nat, u: Id): (r: seq<Listing>)
    ensures forall i :: 0 <= i < |r| ==> r[i].sellerId == u && exists k :: k in ls && k < n && ls[k] == r[i]
    ensures forall k :: k in ls && k < n && ls[k].sellerId == u ==> ls[k] in r
    ensures Seqs.SortedByKey(r, (l: Listing) => l.createdAt, true)
    ensures |r| == |set k | k in ls && k < n && ls[k].sellerId == u|
  {
    var mine := (l: Listing) => l.sellerId == u;
    assert Seqs.KeysWhere(ls, n, mine) == set k | k in ls && k < n && ls[k].sellerId == u;
    Seqs.Query(ls, n, mine, (l: Listing) => l.createdAt, true)
  }
}

=== FILE: listings_page.dfy ===
/**
 * The browse page's client-side filtering and sorting of its listings: a
 * filter over the metal type, an inclusive price range and a
 * case-insensitive location match, then a sort of a copy by price or date.
 */
module ListingsPage {
  import opened Wrappers
  import Text
  import Decimal
  import Seqs

  /** A listing as the page holds it; `createdAt` is the creation date as a timestamp. */
  datatype Listing = Listing(
    id: string,
    title: string,
    metalType: string,
    price: int,
    quantity: int,
    unit: string,
    location: string,
    createdAt: int)

  /** The filter form's fields, each as the text the user entered. */
  datatype PageFilters = PageFilters(
    metalType: string,
    minPrice: string,
    maxPrice: string,
    location: string,
    sortBy: string)

  /** The filters the page starts with. */
  const InitialFilters: PageFilters := PageFilters("All", "", "", "", "newest")

  /** The metal type test: "All" lets everything through. */
  predicate MetalOk(f: PageFilters, l: Listing)
  {
    f.metalType == "All" || l.metalType == f.metalType
  }

  /** `price < Number(minPrice)` for a non-empty bound; a NaN bound excludes nothing. */
  predicate BelowMin(f: PageFilters, l: Listing)
  {
    var bound := Decimal.JsNumber(f.minPrice);
    f.minPrice != "" && bound.Some? && l.price < bound.value
  }

  /** `price > Number(maxPrice)` for a non-empty bound; a NaN bound excludes nothing. */
  predicate AboveMax(f: PageFilters, l: Listing)
  {
    var bound := Decimal.JsNumber(f.maxPrice);
    f.maxPrice != "" && bound.Some? && l.price > bound.value
  }

  /** The location test: a non-empty filter must occur in the location, ignoring case. */
  predicate LocationOk(f: PageFilters, l: Listing)
  {
    f.location == "" || Text.ContainsInsensitive(l.location, f.location)
  }

  /** The filter callback: each test that fails drops the listing. */
  predicate Matches(f: PageFilters, l: Listing)
  {
    if !MetalOk(f, l) then false
    else if BelowMin(f, l) then false
    else if AboveMax(f, l) then false
    else if !LocationOk(f, l) then false
    else true
  }

  /** `filteredListings`. */
  function Filtered(ls: seq<Listing>, f: PageFilters): seq<Listing>
  {
    Seqs.Filter(ls, l => Matches(f, l))
  }

  /**
   * A listing passes exactly when its metal type is the chosen one (or "All"
   * is chosen), its price lies inside both given bounds, both ends included,
   * and its location contains the given text ignoring case.
   */
  lemma MatchesRules(f: PageFilters, l: Listing)
    ensures Matches(f, l) <==>
      (f.metalType == "All" || l.metalType == f.metalType)
      && (f.minPrice == "" || Decimal.JsNumber(f.minPrice).None? || Decimal.JsNumber(f.minPrice).value <= l.price)
      && (f.maxPrice == "" || Decimal.JsNumber(f.maxPrice).None? || l.price <= Decimal.JsNumber(f.maxPrice).value)
      && (f.location == "" || Text.ContainsInsensitive(l.location, f.location))
  {
    assert MetalOk(f, l) <==> f.metalType == "All" || l.metalType == f.metalType;
    assert !BelowMin(f, l) <==>
      f.minPrice == "" || Decimal.JsNumber(f.minPrice).None? || Decimal.JsNumber(f.minPrice).value <= l.price;
    assert !AboveMax(f, l) <==>
      f.maxPrice == "" || Decimal.JsNumber(f.maxPrice).None? || l.price <= Decimal.JsNumber(f.maxPrice).value;
    assert LocationOk(f, l) <==> f.location == "" || Text.ContainsInsensitive(l.location, f.location);
    assert Matches(f, l) <==> MetalOk(f, l) && !BelowMin(f, l) && !AboveMax(f, l) && LocationOk(f, l);
  }

  /**
   * The filtered list keeps the order of the listings and only drops some;
   * every listing in it passes, and every listing that passes is in it.
   */
  lemma FilteredIsSubsequence(ls: seq<Listing>, f: PageFilters)
    ensures Seqs.IsSubsequence(Filtered(ls, f), ls)
    ensures forall l :: l in Filtered(ls, f) <==> l in ls && Matches(f, l)
  {
    Seqs.FilterIsSubsequence(ls, l => Matches(f, l));
  }

  /** The empty string occurs in every string. */
  lemma ContainsEmpty(s: string)
    ensures Text.Contains(s, "")
  {
    assert Text.OccursAt(s, "", 0);
  }

  lemma {:induction false} FilterAllPass<T>(s: seq<T>, p: T -> bool)
    requires forall i :: 0 <= i < |s| ==> p(s[i])
    ensures Seqs.Filter(s, p) == s
  {
    if s != [] {
      FilterAllPass(s[1..], p);
      assert s == [s[0]] + s[1..];
    }
  }

  /** With the filters the page starts with, every listing is shown. */
  lemma InitialFiltersShowAll(ls: seq<Listing>)
    ensures Filtered(ls, InitialFilters) == ls
  {
    forall i | 0 <= i < |ls|
      ensures Matches(InitialFilters, ls[i])
    {
      assert InitialFilters.location == "";
    }
    FilterAllPass(ls, l => Matches(InitialFilters, l));
  }

  /** The key the comparator compares: the price for the two price orders, else the date. */
  function SortKey(sortBy: string): Listing -> int
  {
    if sortBy == "price-low" || sortBy == "price-high" then (l: Listing) => l.price
    else (l: Listing) => l.createdAt
  }

  /** Whether the comparator puts larger keys first: all orders but "price-low". */
  function Descending(sortBy: string): bool
  {
    sortBy != "price-low"
  }

  /** `sortedListings`: a stable sort of a copy of the filtered list. */
  function Sorted(filtered: seq<Listing>, sortBy: string): seq<Listing>
  {
    Seqs.SortByKey(filtered, SortKey(sortBy), Descending(sortBy))
  }

  /**
   * The sorted list holds the same listings as the filtered one, the same
   * number of times; "price-low" orders by ascending price, "price-high" by
   * descending price and every other value, "newest" included, by
   * descending date.
   */
  lemma SortedOrder(filtered: seq<Listing>, sortBy: string)
    ensures multiset(Sorted(filtered, sortBy)) == multiset(filtered)
    ensures sortBy == "price-low" ==>
      forall i, j :: 0 <= i < j < |Sorted(filtered, sortBy)| ==> Sorted(filtered, sortBy)[i].price <= Sorted(filtered, sortBy)[j].price
    ensures sortBy == "price-high" ==>
      forall i, j :: 0 <= i < j < |Sorted(filtered, sortBy)| ==> Sorted(filtered, sortBy)[i].price >= Sorted(filtered, sortBy)[j].price
    ensures sortBy != "price-low" && sortBy != "price-high" ==>
      forall i, j :: 0 <= i < j < |Sorted(filtered, sortBy)| ==> Sorted(filtered, sortBy)[i].createdAt >= Sorted(filtered, sortBy)[j].createdAt
  {
    var r := Sorted(filtered, sortBy);
    assert Seqs.SortedByKey(r, SortKey(sortBy), Descending(sortBy));
  }

  /** What the page shows: the filtered listings, sorted, each of them a listing that passes. */
  lemma ShownListings(ls: seq<Listing>, f: PageFilters)
    ensures forall l :: l in Sorted(Filtered(ls, f), f.sortBy) <==> l in ls && Matches(f, l)
    ensures |Sorted(Filtered(ls, f), f.sortBy)| <= |ls|
  {
    var filtered := Filtered(ls, f);
    FilteredIsSubsequence(ls, f);
    SortedOrder(filtered, f.sortBy);
    forall l
      ensures l in Sorted(filtered, f.sortBy) <==> l in filtered
    {
      assert l in Sorted(filtered, f.sortBy) <==> l in multiset(Sorted(filtered, f.sortBy));
      assert l in filtered <==> l in multiset(filtered);
    }
  }
}

=== FILE: membership.dfy ===
/**
 * The membership ledger: the lazily self-healing current membership, the
 * upgrade that cancels every ACTIVE row before inserting the new one, and
 * the table of limits per plan.
 */
module Memberships {
  import opened Wrappers
  import opened Schema
  import Seqs

  predicate IsActiveOf(m: Membership, u: Id)
  {
    m.userId == u && m.status == MembershipStatus.Active
  }

  /** Every row is stored under its own id, and every id is below the counter `n`. */
  predicate Keyed(ms: map<Id, Membership>, n: nat)
  {
    forall k :: k in ms ==> k < n && ms[k].id == k
  }

  /** The ACTIVE memberships of `u`, in id order. */
  function ActiveOf(ms: map<Id, Membership>, n: nat, u: Id): seq<Membership>
  {
    Seqs.SelectRows(ms, n, (m: Membership) => IsActiveOf(m, u))
  }

  /** `findFirst({ userId, status: ACTIVE }, orderBy: { createdAt: desc })`. */
  function NewestActive(ms: map<Id, Membership>, n: nat, u: Id): (r: Option<Membership>)
    ensures r.None? <==> forall k :: k in ms && k < n ==> !IsActiveOf(ms[k], u)
    ensures r.Some? ==> IsActiveOf(r.value, u) && exists k :: k in ms && k < n && ms[k] == r.value
    ensures r.Some? ==> forall k :: k in ms && k < n && IsActiveOf(ms[k], u) ==> ms[k].createdAt <= r.value.createdAt
  {
    var s := ActiveOf(ms, n, u);
    Seqs.SelectRowsSound(ms, n, (m: Membership) => IsActiveOf(m, u));
    var r := Seqs.FindFirst(s, (m: Membership) => m.createdAt, true);
    assert r.Some? ==> r.value in s;
    assert r.Some? ==> forall k :: k in ms && k < n && IsActiveOf(ms[k], u) ==> ms[k].createdAt <= r.value.createdAt by {
      if r.Some? {
        forall k | k in ms && k < n && IsActiveOf(ms[k], u)
          ensures ms[k].createdAt <= r.value.createdAt
        {
          assert ms[k] in s;
          var i :| 0 <= i < |s| && s[i] == ms[k];
        }
      }
    }
    r
  }

  /** A FREE membership row with no end date, as the service creates it. */
  function FreeMembership(id: Id, u: Id, now: int): Membership
  {
    Membership(id, u, Plan.Free, MembershipStatus.Active, None, now)
  }

  /** The membership has an end date and `now` is past it. */
  predicate Lapsed(m: Membership, now: int)
  {
    m.endDate.Some? && now > m.endDate.value
  }

  /** The membership table and id counter after `getCurrentMembership`, and the membership it returns. */
  datatype Healed = Healed(memberships: map<Id, Membership>, nextId: nat, current: Membership)

  /**
   * `getCurrentMembership(u)` at time `now`: the newest ACTIVE membership if it
   * has not lapsed; otherwise that row is marked EXPIRED (if there is one) and
   * a new FREE membership is created and returned.
   */
  function CurrentMembership(ms: map<Id, Membership>, n: nat, u: Id, now: int): (h: Healed)
    requires Keyed(ms, n)
    ensures IsActiveOf(h.current, u) && !Lapsed(h.current, now)
    ensures h.current.id in h.memberships && h.memberships[h.current.id] == h.current
    ensures Keyed(h.memberships, h.nextId) && n <= h.nextId <= n + 1
  {
    match NewestActive(ms, n, u)
    case None =>
      var m := FreeMembership(n, u, now);
      KeyedInsert(ms, n, m);
      Healed(ms[n := m], n + 1, m)
    case Some(m) =>
      NewestIsStored(ms, n, u, m);
      if Lapsed(m, now) then
        var f := FreeMembership(n, u, now);
        var expired := ms[m.id := m.(status := MembershipStatus.Expired)];
        assert Keyed(expired, n);
        KeyedInsert(expired, n, f);
        Healed(expired[n := f], n + 1, f)
      else
        Healed(ms, n, m)
  }

  /** A row stored under the next id keeps the table keyed under the next counter. */
  lemma KeyedInsert(ms: map<Id, Membership>, n: nat, m: Membership)
    requires Keyed(ms, n) && m.id == n
    ensures Keyed(ms[n := m], n + 1)
  {
  }

  /** The newest ACTIVE membership is the row stored under its own id. */
  lemma NewestIsStored(ms: map<Id, Membership>, n: nat, u: Id, m: Membership)
    requires Keyed(ms, n) && NewestActive(ms, n, u) == Some(m)
    ensures m.id in ms && ms[m.id] == m && m.id < n && IsActiveOf(m, u)
  {
    var k :| k in ms && k < n && ms[k] == m;
  }

  /** With no ACTIVE membership, a FREE membership without end date is created and returned. */
  lemma NoneActiveCreatesFree(ms: map<Id, Membership>, n: nat, u: Id, now: int)
    requires Keyed(ms, n)
    requires forall k :: k in ms ==> !IsActiveOf(ms[k], u)
    ensures var h := CurrentMembership(ms, n, u, now);
      h.current.plan == Plan.Free && h.current.endDate.None? && h.current.id == n
      && h.memberships == ms[n := h.current] && h.nextId == n + 1
  {
    assert NewestActive(ms, n, u).None?;
  }

  /**
   * When the newest ACTIVE membership has lapsed, it becomes EXPIRED and a new
   * FREE membership without end date is created and returned.
   */
  lemma LapsedExpires(ms: map<Id, Membership>, n: nat, u: Id, now: int, m: Membership)
    requires Keyed(ms, n)
    requires NewestActive(ms, n, u) == Some(m) && Lapsed(m, now)
    ensures var h := CurrentMembership(ms, n, u, now);
      m.id in ms && h.memberships[m.id] == m.(status := MembershipStatus.Expired)
      && h.current == FreeMembership(n, u, now) && h.memberships[n] == h.current
      && (forall k :: k in ms && k != m.id ==> h.memberships[k] == ms[k])
      && h.memberships.Keys == ms.Keys + {n}
  {
    var k :| k in ms && k < n && ms[k] == m;
    assert m.id == k;
  }

  /** A newest ACTIVE membership that has not lapsed is returned as it is and nothing is written. */
  lemma UnlapsedReturnedAsIs(ms: map<Id, Membership>, n: nat, u: Id, now: int, m: Membership)
    requires Keyed(ms, n)
    requires NewestActive(ms, n, u) == Some(m) && (m.endDate.None? || now <= m.endDate.value)
    ensures CurrentMembership(ms, n, u, now) == Healed(ms, n, m)
  {
  }

  /**
   * `getCurrentMembership(u)` only touches rows of `u`: every other row is
   * kept as it is, and every added or changed row belongs to `u`.
   */
  lemma CurrentMembershipOthersUnchanged(ms: map<Id, Membership>, n: nat, u: Id, now: int)
    requires Keyed(ms, n)
    ensures var h := CurrentMembership(ms, n, u, now);
      (forall k :: k in ms ==> k in h.memberships && (ms[k].userId != u ==> h.memberships[k] == ms[k]))
      && (forall k :: k in h.memberships ==> h.memberships[k].userId == u || (k in ms && h.memberships[k] == ms[k]))
  {
    var h := CurrentMembership(ms, n, u, now);
    match NewestActive(ms, n, u)
    case None =>
      assert h.memberships == ms[n := h.current] && h.current.userId == u;
    case Some(m) =>
      if Lapsed(m, now) {
        LapsedExpires(ms, n, u, now, m);
        assert m.userId == u;
      } else {
        assert h.memberships == ms;
      }
  }

  /** Adding an ACTIVE row for a user with no ACTIVE row keeps one ACTIVE row per user. */
  lemma InsertActiveKeepsOne(ms: map<Id, Membership>, n: Id, row: Membership)
    requires OneActivePerUser(ms) && n !in ms
    requires forall k :: k in ms ==> !IsActiveOf(ms[k], row.userId)
    ensures OneActivePerUser(ms[n := row])
  {
    var ms2 := ms[n := row];
    forall a, b | a in ms2 && b in ms2
      && ms2[a].status == MembershipStatus.Active && ms2[b].status == MembershipStatus.Active
      && ms2[a].userId == ms2[b].userId
      ensures a == b
    {
      if a != n && b != n {
        assert ms2[a] == ms[a] && ms2[b] == ms[b];
      }
    }
  }

  /**
   * Marking the only ACTIVE row of a user EXPIRED keeps one ACTIVE row per
   * user and leaves that user with none.
   */
  lemma ExpireOnlyActive(ms: map<Id, Membership>, j: Id)
    requires OneActivePerUser(ms) && j in ms && ms[j].status == MembershipStatus.Active
    ensures var ms1 := ms[j := ms[j].(status := MembershipStatus.Expired)];
      OneActivePerUser(ms1) && forall k :: k in ms1 ==> !IsActiveOf(ms1[k], ms[j].userId)
  {
    var ms1 := ms[j := ms[j].(status := MembershipStatus.Expired)];
    forall k | k in ms1
      ensures !IsActiveOf(ms1[k], ms[j].userId)
    {
      if k != j {
        assert ms1[k] == ms[k];
      }
    }
    forall a, b | a in ms1 && b in ms1
      && ms1[a].status == MembershipStatus.Active && ms1[b].status == MembershipStatus.Active
      && ms1[a].userId == ms1[b].userId
      ensures a == b
    {
      assert a != j && b != j;
      assert ms1[a] == ms[a] && ms1[b] == ms[b];
    }
  }

  /** `getCurrentMembership` keeps at most one ACTIVE membership per user. */
  lemma CurrentMembershipKeepsOneActive(ms: map<Id, Membership>, n: nat, u: Id, now: int)
    requires Keyed(ms, n) && OneActivePerUser(ms)
    ensures OneActivePerUser(CurrentMembership(ms, n, u, now).memberships)
  {
    var h := CurrentMembership(ms, n, u, now);
    var f := FreeMembership(n, u, now);
    match NewestActive(ms, n, u)
    case None =>
      InsertActiveKeepsOne(ms, n, f);
      assert h.memberships == ms[n := f];
    case Some(m) =>
      NewestIsStored(ms, n, u, m);
      if Lapsed(m, now) {
        ExpireOnlyActive(ms, m.id);
        var ms1 := ms[m.id := m.(status := MembershipStatus.Expired)];
        InsertActiveKeepsOne(ms1, n, f);
        assert h.memberships == ms1[n := f];
      } else {
        assert h.memberships == ms;
      }
  }

  /**
   * Two consecutive calls with the same clock create at most one row: the
   * second returns what the first returned and writes nothing.
   */
  lemma CurrentMembershipIdempotent(ms: map<Id, Membership>, n: nat, u: Id, now: int)
    requires Keyed(ms, n) && OneActivePerUser(ms)
    ensures var h := CurrentMembership(ms, n, u, now);
      CurrentMembership(h.memberships, h.nextId, u, now) == h
  {
    var h := CurrentMembership(ms, n, u, now);
    CurrentMembershipKeepsOneActive(ms, n, u, now);
    var ms2, n2, c := h.memberships, h.nextId, h.current;
    assert c.id < n2;
    var r := NewestActive(ms2, n2, u);
    assert r.Some?;
    var k :| k in ms2 && k < n2 && ms2[k] == r.value;
    assert ms2[k].status == MembershipStatus.Active && ms2[c.id].status == MembershipStatus.Active;
    assert ms2[k].userId == ms2[c.id].userId;
    assert k == c.id;
  }

  /** Every ACTIVE membership of `u` becomes CANCELLED; all other rows stay as they are. */
  function CancelActive(ms: map<Id, Membership>, u: Id): map<Id, Membership>
  {
    map k | k in ms :: if IsActiveOf(ms[k], u) then ms[k].(status := MembershipStatus.Cancelled) else ms[k]
  }

  /** The membership row `upgradeMembership` inserts. */
  function PaidMembership(id: Id, u: Id, plan: Plan, endDate: int, now: int): Membership
  {
    Membership(id, u, plan, MembershipStatus.Active, Some(endDate), now)
  }

  /** The membership table after `upgradeMembership(u, plan, endDate)`. */
  function Upgraded(ms: map<Id, Membership>, n: nat, u: Id, plan: Plan, endDate: int, now: int): map<Id, Membership>
  {
    CancelActive(ms, u)[n := PaidMembership(n, u, plan, endDate, now)]
  }

  /**
   * After an upgrade every previously ACTIVE membership of `u` is CANCELLED,
   * every other existing row is unchanged, and the new row is the only ACTIVE
   * membership of `u`, with the given plan and end date.
   */
  lemma UpgradeEffect(ms: map<Id, Membership>, n: nat, u: Id, plan: Plan, endDate: int, now: int)
    requires Keyed(ms, n)
    ensures var r := Upgraded(ms, n, u, plan, endDate, now);
      r.Keys == ms.Keys + {n}
      && (forall k :: k in ms && IsActiveOf(ms[k], u) ==> r[k] == ms[k].(status := MembershipStatus.Cancelled))
      && (forall k :: k in ms && !IsActiveOf(ms[k], u) ==> r[k] == ms[k])
      && (forall k :: k in r && IsActiveOf(r[k], u) <==> k == n)
      && r[n].plan == plan && r[n].endDate == Some(endDate)
  {
    var r := Upgraded(ms, n, u, plan, endDate, now);
    assert n !in ms;
    forall k | k in r
      ensures IsActiveOf(r[k], u) <==> k == n
    {
      if k != n {
        assert r[k] == CancelActive(ms, u)[k];
      }
    }
  }

  /** An upgrade keeps at most one ACTIVE membership per user. */
  lemma UpgradeKeepsOneActive(ms: map<Id, Membership>, n: nat, u: Id, plan: Plan, endDate: int, now: int)
    requires Keyed(ms, n) && OneActivePerUser(ms)
    ensures OneActivePerUser(Upgraded(ms, n, u, plan, endDate, now))
    ensures Keyed(Upgraded(ms, n, u, plan, endDate, now), n + 1)
  {
    UpgradeEffect(ms, n, u, plan, endDate, now);
    var r := Upgraded(ms, n, u, plan, endDate, now);
    forall a, b | a in r && b in r
      && r[a].status == MembershipStatus.Active && r[b].status == MembershipStatus.Active
      && r[a].userId == r[b].userId
      ensures a == b
    {
      if r[a].userId != u {
        assert a != n && b != n;
        assert r[a] == ms[a] && r[b] == ms[b];
      }
    }
  }

  /** A limit that is either a number or `Infinity`. */
  datatype Bound = Finite(n: nat) | Unbounded

  predicate AtMost(a: Bound, b: Bound)
  {
    b.Unbounded? || (a.Finite? && a.n <= b.n)
  }

  /** One row of the limits table; `featuredCount` is absent when the plan cannot feature. */
  datatype Limits = Limits(
    maxListings: Bound,
    canFeature: bool,
    featuredCount: Option<Bound>,
    canNegotiate: bool,
    maxImagesPerListing: nat)

  /** The limits table of `checkMembershipLimits`. */
  function LimitsFor(plan: Plan): (l: Limits)
    ensures l.canNegotiate
    ensures l.canFeature <==> l.featuredCount.Some?
    ensures l.maxListings.Finite? <==> plan == Plan.Free
  {
    match plan
    case Free => Limits(Finite(3), false, None, true, 3)
    case Silver => Limits(Unbounded, true, Some(Finite(1)), true, 5)
    case Gold => Limits(Unbounded, true, Some(Unbounded), true, 10)
  }

  /** The order of the plans, from FREE to GOLD. */
  function Rank(plan: Plan): nat
  {
    match plan
    case Free => 0
    case Silver => 1
    case Gold => 2
  }

  /** A higher plan allows strictly more images per listing and never fewer listings. */
  lemma LimitsMonotone(p: Plan, q: Plan)
    requires Rank(p) < Rank(q)
    ensures LimitsFor(p).maxImagesPerListing < LimitsFor(q).maxImagesPerListing
    ensures AtMost(LimitsFor(p).maxListings, LimitsFor(q).maxListings)
  {
  }

  /** The healed table still satisfies the membership table's constraints. */
  lemma HealedRowsOk(ms: map<Id, Membership>, n: nat, u: Id, now: int, users: map<Id, User>)
    requires Keyed(ms, n) && OneActivePerUser(ms) && u in users
    requires forall k :: k in ms ==> ms[k].userId in users
    ensures var h := CurrentMembership(ms, n, u, now);
      OneActivePerUser(h.memberships)
      && forall k :: k in h.memberships ==> k < h.nextId && h.memberships[k].id == k && h.memberships[k].userId in users
  {
    CurrentMembershipKeepsOneActive(ms, n, u, now);
    CurrentMembershipOthersUnchanged(ms, n, u, now);
  }

  /** `getCurrentMembership(u)`: heals the ledger as `CurrentMembership` says and returns the current row. */
  method GetCurrentMembership(db: Db, u: Id, now: int) returns (m: Membership)
    requires db.Valid() && u in db.users
    modifies db`memberships, db`nextId
    ensures db.Valid()
    ensures var h := CurrentMembership(old(db.memberships), old(db.nextId), u, now);
      db.memberships == h.memberships && db.nextId == h.nextId && m == h.current
  {
    ghost var h := CurrentMembership(db.memberships, db.nextId, u, now);
    HealedRowsOk(db.memberships, db.nextId, u, now, db.users);
    var ms := db.memberships;
    var newest := NewestActive(ms, db.nextId, u);
    if newest.None? {
      var id := db.NewId();
      m := FreeMembership(id, u, now);
      ms := ms[id := m];
    } else if Lapsed(newest.value, now) {
      var row := newest.value;
      ms := ms[row.id := row.(status := MembershipStatus.Expired)];
      var id := db.NewId();
      m := FreeMembership(id, u, now);
      ms := ms[id := m];
    } else {
      m := newest.value;
    }
    assert ms == h.memberships && m == h.current && db.nextId == h.nextId;
    db.SetMemberships(ms);
  }

  /** `upgradeMembership(u, plan, endDate)`: cancels every ACTIVE row of `u`, inserts the new one and returns it. */
  method UpgradeMembership(db: Db, u: Id, plan: Plan, endDate: int, now: int) returns (m: Membership)
    requires db.Valid() && u in db.users
    modifies db`memberships, db`nextId
    ensures db.Valid()
    ensures db.memberships == Upgraded(old(db.memberships), old(db.nextId), u, plan, endDate, now)
    ensures db.nextId == old(db.nextId) + 1 && m == db.memberships[old(db.nextId)]
  {
    UpgradeKeepsOneActive(db.memberships, db.nextId, u, plan, endDate, now);
    UpgradeEffect(db.memberships, db.nextId, u, plan, endDate, now);
    var cancelled := CancelActive(db.memberships, u);
    var id := db.NewId();
    m := PaidMembership(id, u, plan, endDate, now);
    db.SetMemberships(cancelled[id := m]);
  }

  /** `checkMembershipLimits(u)`: the limits of the plan of the (healed) current membership. */
  method CheckMembershipLimits(db: Db, u: Id, now: int) returns (l: Limits)
    requires db.Valid() && u in db.users
    modifies db`memberships, db`nextId
    ensures db.Valid()
    ensures var h := CurrentMembership(old(db.memberships), old(db.nextId), u, now);
      db.memberships == h.memberships && db.nextId == h.nextId && l == LimitsFor(h.current.plan)
  {
    var m := GetCurrentMembership(db, u, now);
    l := LimitsFor(m.plan);
  }
}

=== FILE: offers.dfy ===
/**
 * Offer negotiation: a buyer places a PENDING offer on an approved,
 * negotiable listing of someone else; the listing's seller accepts one offer,
 * which rejects its still-pending siblings, or rejects a single offer.
 */
module Offers {
  import opened Wrappers
  import opened Schema
  import Seqs

  const ListingNotFound := "Listing not found"
  const OfferNotFound := "Offer not found"

  /** The guard chain of `createOffer`, in the order the service checks it. */
  function CheckOfferTarget(ls: map<Id, Listing>, listingId: Id, u: Id): (r: Result<Listing>)
    ensures r.Ok? <==> listingId in ls && ls[listingId].status == ListingStatus.Approved
                       && ls[listingId].sellerId != u && ls[listingId].isNegotiable
    ensures r.Ok? ==> r.value == ls[listingId]
    ensures listingId !in ls ==> r == Err(Error(NotFound, ListingNotFound))
    ensures listingId in ls && ls[listingId].status != ListingStatus.Approved ==>
      r == Err(Error(BadRequest, "Listing is not available for offers"))
    ensures listingId in ls && ls[listingId].status == ListingStatus.Approved && ls[listingId].sellerId == u ==>
      r == Err(Error(BadRequest, "Cannot make offer on your own listing"))
  {
    if listingId !in ls then Err(Error(NotFound, ListingNotFound))
    else
      var l := ls[listingId];
      if l.status != ListingStatus.Approved then Err(Error(BadRequest, "Listing is not available for offers"))
      else if l.sellerId == u then Err(Error(BadRequest, "Cannot make offer on your own listing"))
      else if !l.isNegotiable then Err(Error(BadRequest, "This listing does not accept offers"))
      else Ok(l)
  }

  /**
   * `createOffer(u, listingId, {offerPrice})`: the guard chain, then exactly
   * one PENDING offer from the caller. The price is at least 0, as the request
   * body's validation demands.
   */
  method CreateOffer(db: Db, u: Id, listingId: Id, offerPrice: int, now: int) returns (r: Result<Offer>)
    requires db.Valid() && offerPrice >= 0
    modifies db`offers, db`nextId
    ensures db.Valid()
    ensures CheckOfferTarget(old(db.listings), listingId, u).Err? ==>
      r == Err(CheckOfferTarget(old(db.listings), listingId, u).error)
      && db.offers == old(db.offers) && db.nextId == old(db.nextId)
    ensures CheckOfferTarget(old(db.listings), listingId, u).Ok? ==>
      r == Ok(Offer(old(db.nextId), listingId, u, offerPrice, OfferStatus.Pending, now))
      && db.offers == old(db.offers)[old(db.nextId) := r.value] && db.nextId == old(db.nextId) + 1
  {
    var target := CheckOfferTarget(db.listings, listingId, u);
    if target.Err? {
      return Err(target.error);
    }
    var id := db.NewId();
    var offer := Offer(id, listingId, u, offerPrice, OfferStatus.Pending, now);
    db.SetOffers(db.offers[id := offer]);
    r := Ok(offer);
  }

  /**
   * Existing offers play no part in `createOffer`: a new PENDING offer can be
   * placed on a listing that already has an ACCEPTED one.
   */
  lemma OfferAfterAcceptance(ls: map<Id, Listing>, os: map<Id, Offer>, listingId: Id, u: Id, a: Id, id: Id, price: int, now: int)
    requires CheckOfferTarget(ls, listingId, u).Ok?
    requires a in os && os[a].listingId == listingId && os[a].status == OfferStatus.Accepted && id !in os
    ensures var os2 := os[id := Offer(id, listingId, u, price, OfferStatus.Pending, now)];
      os2[a].status == OfferStatus.Accepted && os2[id].status == OfferStatus.Pending && os2[id].listingId == listingId
  {
  }

  /** `getListingOffers(listingId, u)`: the seller's view of one listing's offers, newest first. */
  function ListingOffers(ls: map<Id, Listing>, os: map<Id, Offer>, n: nat, listingId: Id, u: Id): (r: Result<seq<Offer>>)
    ensures r.Ok? <==> listingId in ls && ls[listingId].sellerId == u
    ensures listingId !in ls ==> r == Err(Error(NotFound, ListingNotFound))
    ensures listingId in ls && ls[listingId].sellerId != u ==> r == Err(Error(Forbidden, "Access denied"))
    ensures r.Ok? ==>
      (forall i :: 0 <= i < |r.value| ==> r.value[i].listingId == listingId && exists k :: k in os && k < n && os[k] == r.value[i])
      && (forall k :: k in os && k < n && os[k].listingId == listingId ==> os[k] in r.value)
      && Seqs.SortedByKey(r.value, (o: Offer) => o.createdAt, true)
      && |r.value| == |set k | k in os && k < n && os[k].listingId == listingId|
  {
    if listingId !in ls then Err(Error(NotFound, ListingNotFound))
    else if ls[listingId].sellerId != u then Err(Error(Forbidden, "Access denied"))
    else
      var onListing := (o: Offer) => o.listingId == listingId;
      assert Seqs.KeysWhere(os, n, onListing) == set k | k in os && k < n && os[k].listingId == listingId;
      Ok(Seqs.Query(os, n, onListing, (o: Offer) => o.createdAt, true))
  }

  /** `getMyOffers(u)`: exactly the caller's offers, newest first. */
  function MyOffers(os: map<Id, Offer>, n: nat, u: Id): (r: seq<Offer>)
    ensures forall i :: 0 <= i < |r| ==> r[i].buyerId == u && exists k :: k in os && k < n && os[k] == r[i]
    ensures forall k :: k in os && k < n && os[k].buyerId == u ==> os[k] in r
    ensures Seqs.SortedByKey(r, (o: Offer) => o.createdAt, true)
    ensures |r| == |set k | k in os && k < n && os[k].buyerId == u|
  {
    var mine := (o: Offer) => o.buyerId == u;
    assert Seqs.KeysWhere(os, n, mine) == set k | k in os && k < n && os[k].buyerId == u;
    Seqs.Query(os, n, mine, (o: Offer) => o.createdAt, true)
  }

  /**
   * The checks `acceptOffer` and `rejectOffer` share: the offer exists and the
   * caller owns its listing (`verb` names the action in the message). An offer
   * whose listing row is gone cannot be judged and fails as an internal error.
   */
  function CheckOfferOwner(ls: map<Id, Listing>, os: map<Id, Offer>, offerId: Id, u: Id, verb: string): (r: Result<Offer>)
    ensures r.Ok? <==> offerId in os && os[offerId].listingId in ls && ls[os[offerId].listingId].sellerId == u
    ensures r.Ok? ==> r.value == os[offerId]
    ensures offerId !in os ==> r == Err(Error(NotFound, OfferNotFound))
    ensures offerId in os && os[offerId].listingId in ls && ls[os[offerId].listingId].sellerId != u ==>
      r == Err(Error(Forbidden, "Only listing owner can " + verb + " offers"))
  {
    if offerId !in os then Err(Error(NotFound, OfferNotFound))
    else
      var o := os[offerId];
      if o.listingId !in ls then Err(Error(Internal, "Offer has no listing"))
      else if ls[o.listingId].sellerId != u then Err(Error(Forbidden, "Only listing owner can " + verb + " offers"))
      else Ok(o)
  }

  /** The guard chain of `acceptOffer`: the shared checks, then the offer must be PENDING. */
  function CheckAccept(ls: map<Id, Listing>, os: map<Id, Offer>, offerId: Id, u: Id): (r: Result<Offer>)
    ensures r.Ok? <==> CheckOfferOwner(ls, os, offerId, u, "accept").Ok? && os[offerId].status == OfferStatus.Pending
    ensures CheckOfferOwner(ls, os, offerId, u, "accept").Err? ==> r == CheckOfferOwner(ls, os, offerId, u, "accept")
    ensures CheckOfferOwner(ls, os, offerId, u, "accept").Ok? && os[offerId].status != OfferStatus.Pending ==>
      r == Err(Error(BadRequest, "Offer is not pending"))
  {
    var owned := CheckOfferOwner(ls, os, offerId, u, "accept");
    if owned.Err? then owned
    else if owned.value.status != OfferStatus.Pending then Err(Error(BadRequest, "Offer is not pending"))
    else owned
  }

  /** `updateMany` that rejects the PENDING offers on `listingId` other than `except`. */
  function RejectPendingSiblings(os: map<Id, Offer>, listingId: Id, except: Id): (r: map<Id, Offer>)
    ensures r.Keys == os.Keys
  {
    map k | k in os ::
      if os[k].listingId == listingId && k != except && os[k].status == OfferStatus.Pending
      then os[k].(status := OfferStatus.Rejected)
      else os[k]
  }

  /** The offer table after a successful `acceptOffer`: the target accepted, then the siblings cascade. */
  function AfterAccept(os: map<Id, Offer>, offerId: Id): map<Id, Offer>
    requires offerId in os
  {
    var accepted := os[offerId].(status := OfferStatus.Accepted);
    RejectPendingSiblings(os[offerId := accepted], accepted.listingId, offerId)
  }

  /**
   * What accepting a PENDING offer does to the table: the target is ACCEPTED,
   * every other PENDING offer on its listing is REJECTED, every other offer is
   * unchanged, and no offer on that listing is left PENDING.
   */
  lemma AcceptEffect(os: map<Id, Offer>, offerId: Id)
    requires offerId in os && os[offerId].status == OfferStatus.Pending
    ensures var r := AfterAccept(os, offerId); var lid := os[offerId].listingId;
      r.Keys == os.Keys
      && r[offerId] == os[offerId].(status := OfferStatus.Accepted)
      && (forall k :: k in os && k != offerId && os[k].listingId == lid && os[k].status == OfferStatus.Pending ==>
            r[k] == os[k].(status := OfferStatus.Rejected))
      && (forall k :: k in os && k != offerId && (os[k].listingId != lid || os[k].status != OfferStatus.Pending) ==>
            r[k] == os[k])
      && (forall k :: k in r && r[k].listingId == lid ==> r[k].status != OfferStatus.Pending)
  {
    var r := AfterAccept(os, offerId);
    var lid := os[offerId].listingId;
    var accepted := os[offerId].(status := OfferStatus.Accepted);
    var os1 := os[offerId := accepted];
    assert r == RejectPendingSiblings(os1, lid, offerId);
    forall k | k in r && r[k].listingId == lid
      ensures r[k].status != OfferStatus.Pending
    {
      if k != offerId {
        assert os1[k] == os[k];
      }
    }
  }

  /** Accepting changes only offers that were PENDING, so ACCEPTED and REJECTED stay terminal under it. */
  lemma AcceptKeepsTerminal(os: map<Id, Offer>, offerId: Id, k: Id)
    requires offerId in os && os[offerId].status == OfferStatus.Pending
    requires k in os && os[k].status != OfferStatus.Pending
    ensures AfterAccept(os, offerId)[k] == os[k]
  {
    AcceptEffect(os, offerId);
  }

  /**
   * `acceptOffer(offerId, u)`: the guard chain, then the target is updated
   * and the pending siblings are rejected; nothing changes on failure.
   */
  method AcceptOffer(db: Db, offerId: Id, u: Id) returns (r: Result<string>)
    requires db.Valid()
    modifies db`offers
    ensures db.Valid()
    ensures CheckAccept(old(db.listings), old(db.offers), offerId, u).Err? ==>
      r == Err(CheckAccept(old(db.listings), old(db.offers), offerId, u).error) && db.offers == old(db.offers)
    ensures CheckAccept(old(db.listings), old(db.offers), offerId, u).Ok? ==>
      r == Ok("Offer accepted successfully") && db.offers == AfterAccept(old(db.offers), offerId)
  {
    var checked := CheckAccept(db.listings, db.offers, offerId, u);
    if checked.Err? {
      return Err(checked.error);
    }
    var offer := checked.value;
    var accepted := offer.(status := OfferStatus.Accepted);
    db.SetOffers(db.offers[offerId := accepted]);
    db.SetOffers(RejectPendingSiblings(db.offers, offer.listingId, offerId));
    r := Ok("Offer accepted successfully");
  }

  /**
   * `rejectOffer(offerId, u)`: only existence and ownership are checked; the
   * offer becomes REJECTED whatever its status, and no other offer changes.
   */
  method RejectOffer(db: Db, offerId: Id, u: Id) returns (r: Result<string>)
    requires db.Valid()
    modifies db`offers
    ensures db.Valid()
    ensures CheckOfferOwner(old(db.listings), old(db.offers), offerId, u, "reject").Err? ==>
      r == Err(CheckOfferOwner(old(db.listings), old(db.offers), offerId, u, "reject").error) && db.offers == old(db.offers)
    ensures CheckOfferOwner(old(db.listings), old(db.offers), offerId, u, "reject").Ok? ==>
      r == Ok("Offer rejected")
      && db.offers == old(db.offers)[offerId := old(db.offers)[offerId].(status := OfferStatus.Rejected)]
  {
    var owned := CheckOfferOwner(db.listings, db.offers, offerId, u, "reject");
    if owned.Err? {
      return Err(owned.error);
    }
    db.SetOffers(db.offers[offerId := owned.value.(status := OfferStatus.Rejected)]);
    r := Ok("Offer rejected");
  }

  /**
   * Without a PENDING check, the owner can reject an offer already ACCEPTED,
   * so ACCEPTED is not terminal under `rejectOffer`.
   */
  lemma RejectOverturnsAcceptance(ls: map<Id, Listing>, os: map<Id, Offer>, offerId: Id, u: Id)
    requires offerId in os && os[offerId].status == OfferStatus.Accepted
    requires os[offerId].listingId in ls && ls[os[offerId].listingId].sellerId == u
    ensures CheckOfferOwner(ls, os, offerId, u, "reject").Ok?
    ensures CheckAccept(ls, os, offerId, u).Err?
  {
  }

  /**
   * Because `createOffer` ignores accepted offers and `acceptOffer` only looks
   * at the target, accepting a later offer leaves two ACCEPTED offers on one
   * listing.
   */
  lemma TwoAcceptedOffers(os: map<Id, Offer>, first: Id, second: Id)
    requires first in os && second in os && first != second
    requires os[first].status == OfferStatus.Accepted && os[second].status == OfferStatus.Pending
    requires os[first].listingId == os[second].listingId
    ensures var r := AfterAccept(os, second);
      r[first].status == OfferStatus.Accepted && r[second].status == OfferStatus.Accepted
      && r[first].listingId == r[second].listingId
  {
    AcceptEffect(os, second);
  }
}

=== FILE: payment.dfy ===
/**
 * Paid memberships through the payment gateway: an order for a paid plan is
 * recorded as a CREATED payment, and the gateway's webhook moves it to
 * SUCCESS (swapping the user's membership for the paid plan) or to FAILED.
 */
module Payments {
  import opened Wrappers
  import opened Schema
  import Memberships
  import Seqs

  /** The price of each plan in paise, as sent to the gateway. */
  function PlanPrice(plan: Plan): (paise: nat)
    ensures paise == 0 <==> plan == Free
    ensures paise % 100 == 0
  {
    match plan
    case Free => 0
    case Silver => 99900
    case Gold => 249900
  }

  /** The stored amount is the price in rupees, and the conversion loses nothing. */
  lemma RupeesExact(plan: Plan)
    ensures PlanPrice(plan) / 100 * 100 == PlanPrice(plan)
    ensures plan == Silver ==> PlanPrice(plan) / 100 == 999
    ensures plan == Gold ==> PlanPrice(plan) / 100 == 2499
  {
  }

  /** How long a paid membership lasts from the capture. */
  const PaidDays: int := 30

  /** What `createOrder` returns to the client. */
  datatype Order = Order(orderId: string, amount: nat, currency: string, paymentId: Id)

  /** The payment with the given gateway order id, if any: `findUnique({razorpayOrderId})`. */
  function FindPayment(payments: map<Id, Payment>, n: nat, orderId: string): (r: Option<Payment>)
    ensures r.Some? <==> exists k :: k in payments && k < n && payments[k].razorpayOrderId == orderId
    ensures r.Some? ==> r.value.razorpayOrderId == orderId && exists k :: k in payments && k < n && payments[k] == r.value
  {
    Seqs.FindRow(payments, n, (p: Payment) => p.razorpayOrderId == orderId)
  }

  /** Order ids are unique, so the lookup finds the one payment of that order. */
  lemma FindPaymentUnique(payments: map<Id, Payment>, n: nat, orderId: string)
    requires UniqueOrders(payments) && forall k :: k in payments ==> k < n && payments[k].id == k
    ensures forall k :: k in payments && payments[k].razorpayOrderId == orderId ==>
      FindPayment(payments, n, orderId) == Some(payments[k])
  {
  }

  /** Changing a payment's status or gateway payment id keeps order ids unique. */
  lemma UpdateKeepsOrders(payments: map<Id, Payment>, p: Payment)
    requires UniqueOrders(payments) && p.id in payments && p.razorpayOrderId == payments[p.id].razorpayOrderId
    ensures UniqueOrders(payments[p.id := p])
  {
    var t := payments[p.id := p];
    assert forall k :: k in t ==> t[k].razorpayOrderId == payments[k].razorpayOrderId;
  }

  /**
   * `createOrder(u, plan)`: the free plan needs no payment; otherwise the
   * gateway's order (whose id arrives as `orderId`) is recorded as a CREATED
   * payment of the price in rupees. An order id already on record breaks the
   * table's uniqueness constraint and records nothing.
   */
  method CreateOrder(db: Db, u: Id, plan: Plan, orderId: string, now: int) returns (r: Result<Order>)
    requires db.Valid() && u in db.users
    modifies db`payments, db`nextId
    ensures db.Valid()
    ensures plan == Free ==>
      r == Err(Error(BadRequest, "Free plan does not require payment"))
      && db.payments == old(db.payments) && db.nextId == old(db.nextId)
    ensures plan != Free && FindPayment(old(db.payments), old(db.nextId), orderId).Some? ==>
      r.Err? && r.error.kind == Internal && db.payments == old(db.payments) && db.nextId == old(db.nextId)
    ensures plan != Free && FindPayment(old(db.payments), old(db.nextId), orderId).None? ==>
      r == Ok(Order(orderId, PlanPrice(plan), "INR", old(db.nextId)))
      && db.payments == old(db.payments)[old(db.nextId) :=
           Payment(old(db.nextId), u, orderId, None, PlanPrice(plan) / 100, "INR", PaymentStatus.Created, plan, now)]
      && db.nextId == old(db.nextId) + 1
  {
    var amount := PlanPrice(plan);
    if amount == 0 {
      return Err(Error(BadRequest, "Free plan does not require payment"));
    }
    if FindPayment(db.payments, db.nextId, orderId).Some? {
      return Err(Error(Internal, "Unique constraint failed on razorpayOrderId"));
    }
    var id := db.NewId();
    var payment := Payment(id, u, orderId, None, amount / 100, "INR", PaymentStatus.Created, plan, now);
    db.SetPayments(db.payments[id := payment]);
    r := Ok(Order(orderId, amount, "INR", id));
  }

  /**
   * The `payment.captured` branch: the payment becomes SUCCESS with the
   * gateway's payment id, then the user's memberships are swapped for one
   * ACTIVE membership of the paid plan ending 30 days from now.
   */
  method Capture(db: Db, ev: WebhookEvent, now: int) returns (r: Result<string>)
    requires db.Valid()
    modifies db`payments, db`memberships, db`nextId
    ensures db.Valid()
    ensures FindPayment(old(db.payments), old(db.nextId), ev.orderId).None? ==>
      r == Err(Error(NotFound, "Payment not found"))
      && db.payments == old(db.payments) && db.memberships == old(db.memberships) && db.nextId == old(db.nextId)
    ensures FindPayment(old(db.payments), old(db.nextId), ev.orderId).Some? ==>
      var p := FindPayment(old(db.payments), old(db.nextId), ev.orderId).value;
      r == Ok("Payment processed successfully")
      && db.payments == old(db.payments)[p.id := p.(razorpayPaymentId := Some(ev.paymentId), status := PaymentStatus.Success)]
      && db.memberships == Memberships.Upgraded(old(db.memberships), old(db.nextId), p.userId, p.plan, now + PaidDays * DayMs, now)
      && db.nextId == old(db.nextId) + 1
  {
    var found := FindPayment(db.payments, db.nextId, ev.orderId);
    if found.None? {
      return Err(Error(NotFound, "Payment not found"));
    }
    var p := found.value;
    var paid := p.(razorpayPaymentId := Some(ev.paymentId), status := PaymentStatus.Success);
    UpdateKeepsOrders(db.payments, paid);
    db.SetPayments(db.payments[p.id := paid]);
    var m := Memberships.UpgradeMembership(db, p.userId, p.plan, now + PaidDays * DayMs, now);
    r := Ok("Payment processed successfully");
  }

  /** The `payment.failed` branch: a known order's payment becomes FAILED, an unknown one is ignored. */
  method Fail(db: Db, ev: WebhookEvent) returns (r: Result<string>)
    requires db.Valid()
    modifies db`payments
    ensures db.Valid()
    ensures r == Ok("Webhook processed")
    ensures FindPayment(old(db.payments), old(db.nextId), ev.orderId).None? ==> db.payments == old(db.payments)
    ensures FindPayment(old(db.payments), old(db.nextId), ev.orderId).Some? ==>
      var p := FindPayment(old(db.payments), old(db.nextId), ev.orderId).value;
      db.payments == old(db.payments)[p.id := p.(status := PaymentStatus.Failed)]
  {
    var found := FindPayment(db.payments, db.nextId, ev.orderId);
    if found.Some? {
      var p := found.value;
      UpdateKeepsOrders(db.payments, p.(status := PaymentStatus.Failed));
      db.SetPayments(db.payments[p.id := p.(status := PaymentStatus.Failed)]);
    }
    r := Ok("Webhook processed");
  }

  /**
   * `handleWebhook(event)`: the event is logged before anything else, so it
   * stays logged even when the capture fails; then the event type picks the
   * branch, and any other type changes nothing more.
   */
  method HandleWebhook(db: Db, ev: WebhookEvent, now: int) returns (r: Result<string>)
    requires db.Valid()
    modifies db`events, db`payments, db`memberships, db`nextId
    ensures db.Valid()
    ensures db.events == old(db.events) + [RazorpayEvent(ev.event, ev)]
    ensures ev.event == "payment.captured" ==>
      (FindPayment(old(db.payments), old(db.nextId), ev.orderId).None? ==>
         r == Err(Error(NotFound, "Payment not found"))
         && db.payments == old(db.payments) && db.memberships == old(db.memberships) && db.nextId == old(db.nextId))
      && (FindPayment(old(db.payments), old(db.nextId), ev.orderId).Some? ==>
         var p := FindPayment(old(db.payments), old(db.nextId), ev.orderId).value;
         r == Ok("Payment processed successfully")
         && db.payments == old(db.payments)[p.id := p.(razorpayPaymentId := Some(ev.paymentId), status := PaymentStatus.Success)]
         && db.memberships == Memberships.Upgraded(old(db.memberships), old(db.nextId), p.userId, p.plan, now + PaidDays * DayMs, now)
         && db.nextId == old(db.nextId) + 1)
    ensures ev.event == "payment.failed" ==>
      r == Ok("Webhook processed") && db.memberships == old(db.memberships) && db.nextId == old(db.nextId)
      && (FindPayment(old(db.payments), old(db.nextId), ev.orderId).None? ==> db.payments == old(db.payments))
      && (FindPayment(old(db.payments), old(db.nextId), ev.orderId).Some? ==>
           var p := FindPayment(old(db.payments), old(db.nextId), ev.orderId).value;
           db.payments == old(db.payments)[p.id := p.(status := PaymentStatus.Failed)])
    ensures ev.event != "payment.captured" && ev.event != "payment.failed" ==>
      r == Ok("Webhook processed")
      && db.payments == old(db.payments) && db.memberships == old(db.memberships) && db.nextId == old(db.nextId)
  {
    db.AppendEvent(RazorpayEvent(ev.event, ev));
    assert db.payments == old(db.payments) && db.memberships == old(db.memberships) && db.nextId == old(db.nextId);
    if ev.event == "payment.captured" {
      r := Capture(db, ev, now);
    } else if ev.event == "payment.failed" {
      r := Fail(db, ev);
    } else {
      r := Ok("Webhook processed");
    }
  }

  /**
   * After a capture the paying user has exactly one ACTIVE membership, the
   * new one, and a redelivered capture leaves exactly one again (the newer).
   */
  lemma CaptureLeavesOneActive(ms: map<Id, Membership>, n: nat, u: Id, plan: Plan, endDate: int, now: int)
    requires Memberships.Keyed(ms, n) && OneActivePerUser(ms)
    ensures var once := Memberships.Upgraded(ms, n, u, plan, endDate, now);
      (forall k :: k in once && Memberships.IsActiveOf(once[k], u) <==> k == n)
      && var twice := Memberships.Upgraded(once, n + 1, u, plan, endDate, now);
         (forall k :: k in twice && Memberships.IsActiveOf(twice[k], u) <==> k == n + 1)
         && OneActivePerUser(twice)
  {
    Memberships.UpgradeEffect(ms, n, u, plan, endDate, now);
    Memberships.UpgradeKeepsOneActive(ms, n, u, plan, endDate, now);
    var once := Memberships.Upgraded(ms, n, u, plan, endDate, now);
    Memberships.UpgradeEffect(once, n + 1, u, plan, endDate, now);
    Memberships.UpgradeKeepsOneActive(once, n + 1, u, plan, endDate, now);
  }
}

=== FILE: ratelimit.dfy ===
/**
 * The per-IP request limiter in front of every route: each request bumps a
 * counter that lives for one window, and requests beyond the maximum are
 * answered with 429 instead of reaching the handler.
 */
module RateLimit {
  import opened Wrappers
  import Decimal
  import Cache
  import opened KeyValue

  /** The limiter's answer; `None` stands for the NaN a non-numeric maximum produces. */
  datatype Outcome =
    | TooManyRequests
    | Allowed(limit: Option<int>, remaining: Option<int>)

  /** `req.ip || req.socket.remoteAddress || 'unknown'`. */
  function ClientIp(ip: Option<string>, remoteAddress: Option<string>): (r: string)
    ensures Truthy(ip) ==> r == ip.value
    ensures !Truthy(ip) && Truthy(remoteAddress) ==> r == remoteAddress.value
    ensures !Truthy(ip) && !Truthy(remoteAddress) ==> r == "unknown"
  {
    if Truthy(ip) then ip.value else if Truthy(remoteAddress) then remoteAddress.value else "unknown"
  }

  function RateKey(ip: string): string { "rate_limit:" + ip }

  /** The limiter's key is in none of the cache service's namespaces. */
  lemma RateKeyOwnNamespace(ip: string, other: string)
    ensures RateKey(ip) != Cache.OtpKey(other) && RateKey(ip) != Cache.LoginKey(other)
    ensures RateKey(ip) != Cache.TrialKey(other) && RateKey(ip) != Cache.BlacklistKey(other)
  {
    assert RateKey(ip)[0] == 'r';
    assert Cache.OtpKey(other)[0] == 'o' && Cache.LoginKey(other)[0] == 'l';
    assert Cache.TrialKey(other)[0] == 't' && Cache.BlacklistKey(other)[0] == 's';
  }

  /** The default window: 15 minutes. */
  const DefaultWindowMs: int := 900000
  /** The default maximum number of requests per window. */
  const DefaultMaxRequests: int := 100

  /**
   * The verdict for the `count`-th request of the window: 429 once the count
   * passes the maximum, otherwise the limit and `max(0, max - count)` as
   * headers. A NaN maximum never rejects and reports NaN remaining.
   */
  function Decide(count: int, max: Option<int>): (o: Outcome)
    ensures o.TooManyRequests? <==> max.Some? && count > max.value
    ensures o.Allowed? ==> o.limit == max
    ensures o.Allowed? && max.Some? ==> o.remaining == Some(if max.value - count > 0 then max.value - count else 0)
    ensures o.Allowed? && max.None? ==> o.remaining.None?
  {
    if max.Some? && count > max.value then TooManyRequests
    else if max.None? then Allowed(None, None)
    else Allowed(max, Some(if 0 >= max.value - count then 0 else max.value - count))
  }

  /**
   * The request that brings the count exactly to the maximum still passes,
   * the next one is rejected, and on every allowed request the remaining
   * count is never negative and is exactly `max - count`.
   */
  lemma DecideBoundary(max: int, count: int)
    ensures Decide(max, Some(max)) == Allowed(Some(max), Some(0))
    ensures Decide(max + 1, Some(max)).TooManyRequests?
    ensures Decide(count, Some(max)).Allowed? ==>
      Decide(count, Some(max)).remaining == Some(max - count) && max - count >= 0
  {
  }

  /**
   * `use(req, res, next)`: one increment of the caller's counter, the window
   * armed on the first hit, then the verdict. A store error ends the request
   * without reaching the handler: a stored value that is not an integer, or a
   * window setting that is not a number on the first hit of a window.
   */
  method Use(s: Store, ip: Option<string>, remoteAddress: Option<string>,
             windowEnv: Option<string>, maxEnv: Option<string>, now: int) returns (r: Result<Outcome>)
    modifies s
    ensures var key := RateKey(ClientIp(ip, remoteAddress));
      var c := old(Cache.Counter(s, key, now));
      var w := Decimal.Setting(windowEnv, DefaultWindowMs);
      (c.None? ==> r.Err? && s.data == old(s.data))
      && (c.Some? && (c.value + 1 != 1 || w.Some?) ==>
            r == Ok(Decide(c.value + 1, Decimal.Setting(maxEnv, DefaultMaxRequests))))
      && (c.Some? && c.value + 1 == 1 && w.None? ==> r.Err?)
      && (c.Some? && (c.value + 1 != 1 || (w.Some? && w.value > 0)) ==> Cache.Counter(s, key, now) == Some(c.value + 1))
      && (c.Some? && c.value + 1 == 1 && w.Some? && w.value > 0 ==>
            key in s.data && s.data[key].expireAt == Some(now + w.value))
      && (c.Some? && c.value + 1 == 1 && w.Some? && w.value <= 0 ==> key !in s.data)
      && SameOutside(old(s.data), s.data, key)
  {
    var key := RateKey(ClientIp(ip, remoteAddress));
    var window := Decimal.Setting(windowEnv, DefaultWindowMs);
    var count := Cache.CountHit(s, key, window, now);
    if count.Err? {
      return Err(count.error);
    }
    Decimal.ParseIntRoundTrip(count.value);
    r := Ok(Decide(count.value, Decimal.Setting(maxEnv, DefaultMaxRequests)));
  }
}

=== FILE: redis.dfy ===
/**
 * The cache service: one-time passwords, login-attempt counters, the
 * free-trial flag per device, the session blacklist and generic access, each
 * kept under its own key prefix in the key-value store.
 */
module Cache {
  import opened Wrappers
  import Decimal
  import opened KeyValue

  function OtpKey(phone: string): string { "otp:" + phone }
  function LoginKey(ip: string): string { "login_attempts:" + ip }
  function TrialKey(device: string): string { "trial_used:" + device }
  function BlacklistKey(token: string): string { "session_blacklist:" + token }

  /** The default login-attempt window: 15 minutes. */
  const LoginWindowMs: int := 900000

  /**
   * The four prefixes start with different letters, so no key of one
   * namespace is a key of another and an operation in one namespace never
   * touches another.
   */
  lemma NamespacesDisjoint(a: string, b: string)
    ensures OtpKey(a) != LoginKey(b) && OtpKey(a) != TrialKey(b) && OtpKey(a) != BlacklistKey(b)
    ensures LoginKey(a) != TrialKey(b) && LoginKey(a) != BlacklistKey(b)
    ensures TrialKey(a) != BlacklistKey(b)
  {
    assert OtpKey(a)[0] == 'o' && LoginKey(b)[0] == 'l' && TrialKey(b)[0] == 't' && BlacklistKey(b)[0] == 's';
    assert LoginKey(a)[0] == 'l' && TrialKey(a)[0] == 't';
  }

  /** Within one namespace, different names give different keys. */
  lemma KeysInjective(a: string, b: string)
    requires a != b
    ensures OtpKey(a) != OtpKey(b) && LoginKey(a) != LoginKey(b)
    ensures TrialKey(a) != TrialKey(b) && BlacklistKey(a) != BlacklistKey(b)
  {
    assert OtpKey(a)[4..] == a && OtpKey(b)[4..] == b;
    assert LoginKey(a)[15..] == a && LoginKey(b)[15..] == b;
    assert TrialKey(a)[11..] == a && TrialKey(b)[11..] == b;
    assert BlacklistKey(a)[18..] == a && BlacklistKey(b)[18..] == b;
  }

  /** The counter under `key` as INCR sees it: absent is 0, a non-integer is unreadable. */
  function Counter(s: Store, key: string, now: int): (r: Option<int>)
    reads s
    ensures s.Get(key, now).None? ==> r == Some(0)
  {
    var v := s.Get(key, now);
    if v.None? then Some(0) else Decimal.ParseInt(v.value)
  }

  /**
   * INCR, then PEXPIRE only when the new count is 1: the shared shape of the
   * login-attempt counter and the rate limiter. A window that is not a number
   * makes PEXPIRE fail after the increment has happened.
   */
  method CountHit(s: Store, key: string, windowMs: Option<int>, now: int) returns (r: Result<int>)
    modifies s
    ensures SameOutside(old(s.data), s.data, key)
    ensures r.Err? ==> r.error.kind == Internal
    ensures old(Counter(s, key, now)).None? ==> r.Err? && s.data == old(s.data)
    ensures old(Counter(s, key, now)).Some? ==>
      var count := old(Counter(s, key, now)).value + 1;
      var stored := Decimal.IntToString(count);
      var kept := if old(s.Get(key, now)).None? then None else old(s.data)[key].expireAt;
      (count != 1 ==>
         r == Ok(count) && s.data == old(s.data)[key := Entry(stored, kept)])
      && (count == 1 && windowMs.None? ==>
         r.Err? && s.data == old(s.data)[key := Entry(stored, kept)])
      && (count == 1 && windowMs.Some? && windowMs.value > 0 ==>
         r == Ok(1) && s.data == old(s.data)[key := Entry(stored, Some(now + windowMs.value))])
      && (count == 1 && windowMs.Some? && windowMs.value <= 0 ==>
         r == Ok(1) && s.data == old(s.data) - {key})
  {
    ghost var before := s.data;
    ghost var counter := Counter(s, key, now);
    ghost var kept := if s.Get(key, now).None? then None else s.data[key].expireAt;
    var count := s.Incr(key, now);
    if count.Err? {
      return count;
    }
    assert counter.Some? && count.value == counter.value + 1;
    ghost var stored := Decimal.IntToString(count.value);
    assert s.data == before[key := Entry(stored, kept)];
    if count.value == 1 {
      if windowMs.None? {
        return Err(Error(Internal, "ERR value is not an integer or out of range"));
      }
      assert s.Exists(key, now) by {
        assert key in s.data && LiveAt(s.data[key], now);
      }
      var armed := s.PExpire(key, windowMs.value, now);
      if windowMs.value > 0 {
        assert s.data == before[key := Entry(stored, Some(now + windowMs.value))];
      } else {
        assert s.data == before - {key};
      }
    }
    r := count;
  }

  /** `setOTP(phone, otp, minutes)`: stored for `minutes` minutes (10 by default). */
  method SetOtp(s: Store, phone: string, otp: string, minutes: int, now: int) returns (r: Result<()>)
    modifies s
    ensures minutes > 0 ==> r.Ok? && s.data == old(s.data)[OtpKey(phone) := Entry(otp, Some(now + minutes * 60 * 1000))]
    ensures minutes <= 0 ==> r.Err? && r.error.kind == Internal && s.data == old(s.data)
    ensures r.Ok? ==> forall t :: t < now + minutes * 60000 ==> GetOtp(s, phone, t) == Some(otp)
  {
    var ok := s.SetEx(OtpKey(phone), minutes * 60, otp, now);
    r := if ok then Ok(()) else Err(Error(Internal, "ERR invalid expire time"));
  }

  /** `getOTP(phone)`. */
  function GetOtp(s: Store, phone: string, now: int): Option<string>
    reads s
  {
    s.Get(OtpKey(phone), now)
  }

  /** `deleteOTP(phone)`: afterwards no code is stored for that phone. */
  method DeleteOtp(s: Store, phone: string)
    modifies s
    ensures s.data == old(s.data) - {OtpKey(phone)}
    ensures forall t :: GetOtp(s, phone, t) == None
  {
    s.Del(OtpKey(phone));
  }

  /**
   * `incrementLoginAttempts(ip, windowMs)`: the previous count plus one, with
   * the window armed only on the first attempt.
   */
  method IncrementLoginAttempts(s: Store, ip: string, windowMs: int, now: int) returns (r: Result<int>)
    modifies s
    ensures old(Counter(s, LoginKey(ip), now)).Some? ==> r == Ok(old(Counter(s, LoginKey(ip), now)).value + 1)
    ensures old(Counter(s, LoginKey(ip), now)).None? ==> r.Err? && r.error.kind == Internal && s.data == old(s.data)
    ensures r.Ok? && r.value == 1 && windowMs > 0 ==>
      LoginKey(ip) in s.data && s.data[LoginKey(ip)].expireAt == Some(now + windowMs)
    ensures r.Ok? && r.value != 1 ==>
      LoginKey(ip) in old(s.data) && LoginKey(ip) in s.data
      && s.data[LoginKey(ip)].expireAt == old(s.data)[LoginKey(ip)].expireAt
    ensures r.Ok? && windowMs > 0 ==> GetLoginAttempts(s, ip, now) == Some(r.value)
    ensures SameOutside(old(s.data), s.data, LoginKey(ip))
  {
    var key := LoginKey(ip);
    ghost var before := s.data;
    ghost var counter := Counter(s, key, now);
    ghost var kept := if s.Get(key, now).None? then None else s.data[key].expireAt;
    r := CountHit(s, key, Some(windowMs), now);
    if counter.Some? && (counter.value != 0 || windowMs > 0) {
      ghost var count := counter.value + 1;
      ghost var stored := Decimal.IntToString(count);
      if count != 1 {
        assert r == Ok(count) && s.data == before[key := Entry(stored, kept)];
        assert kept == before[key].expireAt;
      } else {
        assert r == Ok(1) && s.data == before[key := Entry(stored, Some(now + windowMs))];
      }
      assert s.Get(key, now) == Some(stored) by {
        assert key in s.data && LiveAt(s.data[key], now);
      }
      Decimal.JsParseIntRoundTrip(count);
    }
  }

  /** `getLoginAttempts(ip)`: `count ? parseInt(count, 10) : 0`, where `None` stands for NaN. */
  function GetLoginAttempts(s: Store, ip: string, now: int): (r: Option<int>)
    reads s
    ensures s.Get(LoginKey(ip), now).None? || s.Get(LoginKey(ip), now).value == "" ==> r == Some(0)
  {
    var v := s.Get(LoginKey(ip), now);
    if v.None? || v.value == "" then Some(0) else Decimal.JsParseInt(v.value)
  }

  /** `resetLoginAttempts(ip)`: afterwards the count reads 0. */
  method ResetLoginAttempts(s: Store, ip: string)
    modifies s
    ensures s.data == old(s.data) - {LoginKey(ip)}
    ensures forall t :: GetLoginAttempts(s, ip, t) == Some(0)
  {
    s.Del(LoginKey(ip));
  }

  /** `setTrialUsed(device)`: a persistent flag. */
  method SetTrialUsed(s: Store, device: string)
    modifies s
    ensures s.data == old(s.data)[TrialKey(device) := Entry("1", None)]
    ensures forall t :: HasTrialBeenUsed(s, device, t)
  {
    s.Set(TrialKey(device), "1");
  }

  /** `hasTrialBeenUsed(device)`. */
  predicate HasTrialBeenUsed(s: Store, device: string, now: int)
    reads s
  {
    s.Exists(TrialKey(device), now)
  }

  /** Setting one device's flag leaves every other device's answer as it was. */
  lemma TrialFlagsIndependent(data: map<string, Entry>, d: string, e: string, now: int)
    requires d != e
    ensures var after := data[TrialKey(d) := Entry("1", None)];
      (TrialKey(e) in after && LiveAt(after[TrialKey(e)], now)) == (TrialKey(e) in data && LiveAt(data[TrialKey(e)], now))
  {
    KeysInjective(d, e);
  }

  /** `blacklistToken(token, seconds)`. */
  method BlacklistToken(s: Store, token: string, seconds: int, now: int) returns (r: Result<()>)
    modifies s
    ensures seconds > 0 ==> r.Ok? && s.data == old(s.data)[BlacklistKey(token) := Entry("1", Some(now + seconds * 1000))]
    ensures seconds <= 0 ==> r.Err? && s.data == old(s.data)
    ensures r.Ok? ==> forall t :: t < now + seconds * 1000 ==> IsTokenBlacklisted(s, token, t)
  {
    var ok := s.SetEx(BlacklistKey(token), seconds, "1", now);
    r := if ok then Ok(()) else Err(Error(Internal, "ERR invalid expire time"));
  }

  /** `isTokenBlacklisted(token)`. */
  predicate IsTokenBlacklisted(s: Store, token: string, now: int)
    reads s
  {
    s.Exists(BlacklistKey(token), now)
  }

  /** Generic `set(key, value, seconds)`: a TTL when `seconds` is truthy, a persistent value otherwise. */
  method Put(s: Store, key: string, value: string, seconds: Option<int>, now: int) returns (r: Result<()>)
    modifies s
    ensures seconds.None? || seconds.value == 0 ==> r.Ok? && s.data == old(s.data)[key := Entry(value, None)]
    ensures seconds.Some? && seconds.value > 0 ==>
      r.Ok? && s.data == old(s.data)[key := Entry(value, Some(now + seconds.value * 1000))]
    ensures seconds.Some? && seconds.value < 0 ==> r.Err? && s.data == old(s.data)
    ensures r.Ok? ==> s.Get(key, now) == Some(value)
  {
    if seconds.Some? && seconds.value != 0 {
      var ok := s.SetEx(key, seconds.value, value, now);
      r := if ok then Ok(()) else Err(Error(Internal, "ERR invalid expire time"));
    } else {
      s.Set(key, value);
      r := Ok(());
    }
  }
}

=== FILE: schema.dfy ===
/**
 * The relational tables the backend services read and write, as an in-memory
 * database: one map from id to row per table, one append-only sequence per
 * log table, and a single id counter shared by every insert.
 */
module Schema {
  import opened Wrappers

  type Id = nat

  /** Milliseconds in a day; every date is a millisecond timestamp. */
  const DayMs: int := 86400000

  datatype UserRole = Buyer | Seller | Admin
  datatype UserStatus = Active | Suspended | Banned

  datatype User = User(
    id: Id,
    email: Option<string>,
    phone: Option<string>,
    passwordHash: Option<string>,
    role: UserRole,
    status: UserStatus,
    emailVerified: bool,
    phoneVerified: bool,
    createdAt: int)

  datatype Profile = Profile(id: Id, userId: Id, fullName: Option<string>)

  datatype Plan = Free | Silver | Gold
  datatype MembershipStatus = Active | Expired | Cancelled

  /** A membership row; `endDate` is absent for a membership that never lapses. */
  datatype Membership = Membership(
    id: Id,
    userId: Id,
    plan: Plan,
    status: MembershipStatus,
    endDate: Option<int>,
    createdAt: int)

  datatype ListingStatus = Pending | Approved | Rejected

  /** The JSON `location` column of a listing. */
  datatype Location = Location(city: string, state: string, country: string)

  datatype Listing = Listing(
    id: Id,
    sellerId: Id,
    title: string,
    description: string,
    metalType: string,
    listingRole: Option<string>,
    listingType: Option<string>,
    premiumStatus: Option<string>,
    country: Option<string>,
    industries: seq<string>,
    capabilities: seq<string>,
    metals: seq<string>,
    grade: Option<string>,
    price: int,
    isNegotiable: bool,
    quantity: int,
    unit: string,
    location: Location,
    status: ListingStatus,
    isFeatured: bool,
    featuredUntil: Option<int>,
    createdAt: int)

  datatype ListingImage = ListingImage(id: Id, listingId: Id, imageUrl: string, mlVerified: bool, uploadedAt: int)

  datatype OfferStatus = Pending | Accepted | Rejected

  datatype Offer = Offer(id: Id, listingId: Id, buyerId: Id, offerPrice: int, status: OfferStatus, createdAt: int)

  datatype Chat = Chat(id: Id, listingId: Id, buyerId: Id, sellerId: Id, lastMessageAt: int, createdAt: int)

  datatype Message = Message(id: Id, chatId: Id, senderId: Id, message: string, createdAt: int)

  datatype PaymentStatus = Created | Success | Failed

  /** A payment row; `amount` is in rupees, the gateway order id is unique. */
  datatype Payment = Payment(
    id: Id,
    userId: Id,
    razorpayOrderId: string,
    razorpayPaymentId: Option<string>,
    amount: int,
    currency: string,
    status: PaymentStatus,
    plan: Plan,
    createdAt: int)

  /** The parts of a payment gateway webhook body the service reads. */
  datatype WebhookEvent = WebhookEvent(event: string, paymentId: string, orderId: string)

  datatype RazorpayEvent = RazorpayEvent(eventType: string, payload: WebhookEvent)

  datatype AdminAction = BanUser | SuspendUser | ApproveListing | RejectListing | FeatureListing
  {
    /** The action name written to the audit log. */
    function Code(): string
    {
      match this
      case BanUser => "BAN_USER"
      case SuspendUser => "SUSPEND_USER"
      case ApproveListing => "APPROVE_LISTING"
      case RejectListing => "REJECT_LISTING"
      case FeatureListing => "FEATURE_LISTING"
    }
  }

  /** The JSON metadata of an audit log entry: none, `{reason}` or `{days}`. */
  datatype LogMetadata = NoMetadata | Reason(reason: Option<string>) | Days(days: int)

  datatype AdminLog = AdminLog(adminId: Id, action: AdminAction, targetId: Id, metadata: LogMetadata)

  datatype LoginActivity = LoginActivity(userId: Id, ipAddress: string, deviceFingerprint: Option<string>, success: bool)

  /*
   * Each table stores every row under its own id, below the shared counter `n`.
   */

  predicate UsersKeyed(t: map<Id, User>, n: nat) { forall k :: k in t ==> k < n && t[k].id == k }
  predicate ProfilesKeyed(t: map<Id, Profile>, n: nat) { forall k :: k in t ==> k < n && t[k].id == k }
  predicate MembershipsKeyed(t: map<Id, Membership>, n: nat) { forall k :: k in t ==> k < n && t[k].id == k }
  predicate ListingsKeyed(t: map<Id, Listing>, n: nat) { forall k :: k in t ==> k < n && t[k].id == k }
  predicate ImagesKeyed(t: map<Id, ListingImage>, n: nat) { forall k :: k in t ==> k < n && t[k].id == k }
  predicate OffersKeyed(t: map<Id, Offer>, n: nat) { forall k :: k in t ==> k < n && t[k].id == k }
  predicate ChatsKeyed(t: map<Id, Chat>, n: nat) { forall k :: k in t ==> k < n && t[k].id == k }
  predicate MessagesKeyed(t: map<Id, Message>, n: nat) { forall k :: k in t ==> k < n && t[k].id == k }
  predicate PaymentsKeyed(t: map<Id, Payment>, n: nat) { forall k :: k in t ==> k < n && t[k].id == k }

  /* Rows that belong to a user point at a stored user. */

  predicate ProfilesOwned(t: map<Id, Profile>, users: set<Id>) { forall k :: k in t ==> t[k].userId in users }
  predicate MembershipsOwned(t: map<Id, Membership>, users: set<Id>) { forall k :: k in t ==> t[k].userId in users }
  predicate PaymentsOwned(t: map<Id, Payment>, users: set<Id>) { forall k :: k in t ==> t[k].userId in users }

  /** At most one user holds any given email, and at most one any given phone. */
  predicate UniqueContacts(users: map<Id, User>)
  {
    (forall a, b :: a in users && b in users && users[a].email.Some? && users[a].email == users[b].email ==> a == b)
    && (forall a, b :: a in users && b in users && users[a].phone.Some? && users[a].phone == users[b].phone ==> a == b)
  }

  /** Replacing a user row by one with the same email and phone keeps contacts unique. */
  lemma ContactsKept(users: map<Id, User>, u: Id, row: User)
    requires u in users && UniqueContacts(users)
    requires row.email == users[u].email && row.phone == users[u].phone
    ensures UniqueContacts(users[u := row])
  {
    var t := users[u := row];
    assert forall k :: k in t ==> t[k].email == users[k].email && t[k].phone == users[k].phone;
  }

  /** At most one ACTIVE membership per user. */
  predicate OneActivePerUser(memberships: map<Id, Membership>)
  {
    forall a, b ::
      a in memberships && b in memberships
      && memberships[a].status == MembershipStatus.Active && memberships[b].status == MembershipStatus.Active
      && memberships[a].userId == memberships[b].userId
      ==> a == b
  }

  /** At most one chat per (listing, buyer) pair. */
  predicate OneChatPerBuyer(chats: map<Id, Chat>)
  {
    forall a, b ::
      a in chats && b in chats && chats[a].listingId == chats[b].listingId && chats[a].buyerId == chats[b].buyerId
      ==> a == b
  }

  /** At most one payment per gateway order id. */
  predicate UniqueOrders(payments: map<Id, Payment>)
  {
    forall a, b :: a in payments && b in payments && payments[a].razorpayOrderId == payments[b].razorpayOrderId ==> a == b
  }

  class Db {
    var users: map<Id, User>
    var profiles: map<Id, Profile>
    var memberships: map<Id, Membership>
    var listings: map<Id, Listing>
    var images: map<Id, ListingImage>
    var offers: map<Id, Offer>
    var chats: map<Id, Chat>
    var messages: map<Id, Message>
    var payments: map<Id, Payment>
    var events: seq<RazorpayEvent>
    var adminLogs: seq<AdminLog>
    var loginActivity: seq<LoginActivity>
    var nextId: nat

    /**
     * Every row is stored under its own id, every id is below the counter,
     * and the uniqueness constraints of the tables hold.
     */
    predicate Valid()
      reads this
    {
      UsersKeyed(users, nextId) && ProfilesKeyed(profiles, nextId) && MembershipsKeyed(memberships, nextId)
      && ListingsKeyed(listings, nextId) && ImagesKeyed(images, nextId) && OffersKeyed(offers, nextId)
      && ChatsKeyed(chats, nextId) && MessagesKeyed(messages, nextId) && PaymentsKeyed(payments, nextId)
      && ProfilesOwned(profiles, users.Keys) && MembershipsOwned(memberships, users.Keys)
      && PaymentsOwned(payments, users.Keys)
      && UniqueContacts(users)
      && OneActivePerUser(memberships)
      && OneChatPerBuyer(chats)
      && UniqueOrders(payments)
    }

    constructor ()
      ensures Valid()
      ensures users == map[] && profiles == map[] && memberships == map[] && listings == map[]
      ensures images == map[] && offers == map[] && chats == map[] && messages == map[] && payments == map[]
      ensures events == [] && adminLogs == [] && loginActivity == [] && nextId == 0
    {
      users, profiles, memberships, listings := map[], map[], map[], map[];
      images, offers, chats, messages, payments := map[], map[], map[], map[], map[];
      events, adminLogs, loginActivity := [], [], [];
      nextId := 0;
    }

    /** Hands out the next unused id. */
    method NewId() returns (id: Id)
      requires Valid()
      modifies this`nextId
      ensures Valid()
      ensures id == old(nextId) && nextId == id + 1
    {
      id := nextId;
      nextId := nextId + 1;
    }

    /** Hands out `count` consecutive unused ids, the first of which is returned. */
    method NewIds(count: nat) returns (first: Id)
      requires Valid()
      modifies this`nextId
      ensures Valid()
      ensures first == old(nextId) && nextId == first + count
    {
      first := nextId;
      nextId := nextId + count;
    }

    /*
     * Table writes: each replaces one table and is allowed only when the new
     * contents keep that table's constraints, so every service method keeps
     * `Valid()` by construction.
     */

    method SetUsers(t: map<Id, User>)
      requires Valid()
      requires forall k :: k in t ==> k < nextId && t[k].id == k
      requires users.Keys <= t.Keys && UniqueContacts(t)
      modifies this`users
      ensures Valid() && users == t
    {
      users := t;
    }

    method SetProfiles(t: map<Id, Profile>)
      requires Valid()
      requires forall k :: k in t ==> k < nextId && t[k].id == k && t[k].userId in users
      modifies this`profiles
      ensures Valid() && profiles == t
    {
      profiles := t;
    }

    method SetMemberships(t: map<Id, Membership>)
      requires Valid()
      requires forall k :: k in t ==> k < nextId && t[k].id == k && t[k].userId in users
      requires OneActivePerUser(t)
      modifies this`memberships
      ensures Valid() && memberships == t
    {
      memberships := t;
    }

    method SetListings(t: map<Id, Listing>)
      requires Valid()
      requires forall k :: k in t ==> k < nextId && t[k].id == k
      modifies this`listings
      ensures Valid() && listings == t
    {
      listings := t;
    }

    method SetImages(t: map<Id, ListingImage>)
      requires Valid()
      requires forall k :: k in t ==> k < nextId && t[k].id == k
      modifies this`images
      ensures Valid() && images == t
    {
      images := t;
    }

    method SetOffers(t: map<Id, Offer>)
      requires Valid()
      requires forall k :: k in t ==> k < nextId && t[k].id == k
      modifies this`offers
      ensures Valid() && offers == t
    {
      offers := t;
    }

    method SetChats(t: map<Id, Chat>)
      requires Valid()
      requires forall k :: k in t ==> k < nextId && t[k].id == k
      requires OneChatPerBuyer(t)
      modifies this`chats
      ensures Valid() && chats == t
    {
      chats := t;
    }

    method SetMessages(t: map<Id, Message>)
      requires Valid()
      requires forall k :: k in t ==> k < nextId && t[k].id == k
      modifies this`messages
      ensures Valid() && messages == t
    {
      messages := t;
    }

    /** Appends one entry to the admin audit log. */
    method AppendAdminLog(e: AdminLog)
      requires Valid()
      modifies this`adminLogs
      ensures Valid() && adminLogs == old(adminLogs) + [e]
    {
      adminLogs := adminLogs + [e];
    }

    /** Appends one gateway event to the webhook event log. */
    method AppendEvent(e: RazorpayEvent)
      requires Valid()
      modifies this`events
      ensures Valid() && events == old(events) + [e]
    {
      events := events + [e];
    }

    /** Appends one record to the login activity log. */
    method AppendLoginActivity(e: LoginActivity)
      requires Valid()
      modifies this`loginActivity
      ensures Valid() && loginActivity == old(loginActivity) + [e]
    {
      loginActivity := loginActivity + [e];
    }

    method SetPayments(t: map<Id, Payment>)
      requires Valid()
      requires forall k :: k in t ==> k < nextId && t[k].id == k && t[k].userId in users
      requires UniqueOrders(t)
      modifies this`payments
      ensures Valid() && payments == t
    {
      payments := t;
    }
  }
}

=== FILE: search_client.dfy ===
/**
 * The search page's client logic: reading the filters from the URL's search
 * parameters, the title and the active-filter chips built from them, and the
 * handlers that write a parameter, toggle a country and step the page.
 */
module SearchClient {
  import opened Wrappers
  import Text
  import Decimal
  import Seqs
  import UrlParams

  /** The page kind. */
  datatype Mode = Directory | Buyers | Suppliers

  /** `searchParams.get(name) || ""`. */
  function OrEmpty(v: Option<string>): (r: string)
    ensures r == "" <==> !Truthy(v)
  {
    if Truthy(v) then v.value else ""
  }

  /** `parseCsv(value)`: no list for null or "", else the trimmed non-empty comma-separated pieces. */
  function ParseCsv(value: Option<string>): (r: seq<string>)
    ensures !Truthy(value) ==> r == []
    ensures forall i :: 0 <= i < |r| ==> Text.CsvSafe(r[i])
  {
    if !Truthy(value) then [] else Text.ParseCsv(value.value)
  }

  /** `toCsv(values)`. */
  function ToCsv(xs: seq<string>): string
  {
    Text.Join(xs, ",")
  }

  /** A join of non-empty strings is empty exactly when there is nothing to join. */
  lemma JoinEmpty(xs: seq<string>, sep: string)
    requires forall i :: 0 <= i < |xs| ==> xs[i] != ""
    ensures Text.Join(xs, sep) == "" <==> xs == []
  {
    if xs != [] {
      Text.JoinStartsWithFirst(xs, sep);
    }
  }

  /** `parseCsv(toCsv(xs)) == xs` for every list of non-empty, trimmed, comma-free strings, the empty list included. */
  lemma CsvRoundTrip(xs: seq<string>)
    requires forall i :: 0 <= i < |xs| ==> Text.CsvSafe(xs[i])
    ensures ParseCsv(Some(ToCsv(xs))) == xs
  {
    JoinEmpty(xs, ",");
    Text.CsvRoundTrip(xs);
  }

  /** The first words of the title. */
  function Base(mode: Mode): string
  {
    match mode
    case Buyers => "Find Verified Buyers"
    case Suppliers => "Find Verified Suppliers"
    case Directory => "Browse Listings"
  }

  /** The words of the title: the base, the search phrase if any, the countries if any. */
  function TitleParts(mode: Mode, search: Option<string>, countries: seq<string>): seq<string>
  {
    [Base(mode)]
      + (if Truthy(search) then ["for \"" + search.value + "\""] else [])
      + (if |countries| > 0 then ["in " + Text.Join(countries, ", ")] else [])
  }

  /** `buildTitle(mode, search, countries)`. */
  function BuildTitle(mode: Mode, search: Option<string>, countries: seq<string>): (t: string)
    ensures |t| >= |Base(mode)| && t[..|Base(mode)|] == Base(mode)
    ensures t == Base(mode) <==> !Truthy(search) && countries == []
  {
    var parts := TitleParts(mode, search, countries);
    Text.JoinStartsWithFirst(parts, " ");
    Text.Join(parts, " ")
  }

  /** The search phrase comes before the countries, each after one space. */
  lemma BuildTitleParts(mode: Mode, search: string, countries: seq<string>)
    requires search != "" && countries != []
    ensures BuildTitle(mode, Some(search), countries)
      == Base(mode) + " " + ("for \"" + search + "\"") + " " + ("in " + Text.Join(countries, ", "))
    ensures BuildTitle(mode, Some(search), []) == Base(mode) + " " + ("for \"" + search + "\"")
    ensures BuildTitle(mode, None, countries) == Base(mode) + " " + ("in " + Text.Join(countries, ", "))
  {
    var b := Base(mode);
    var f := "for \"" + search + "\"";
    var c := "in " + Text.Join(countries, ", ");
    assert TitleParts(mode, Some(search), countries) == [b, f, c];
    assert TitleParts(mode, Some(search), []) == [b, f];
    assert TitleParts(mode, None, countries) == [b, c];
    assert Text.Join([c], " ") == c && Text.Join([f], " ") == f;
    assert [b, f, c][1..] == [f, c] && [f, c][1..] == [c] && [b, f][1..] == [f] && [b, c][1..] == [c];
    assert Text.Join([f, c], " ") == f + " " + c;
    assert Text.Join([b, f, c], " ") == b + " " + (f + " " + c);
    assert b + " " + (f + " " + c) == b + " " + f + " " + c;
  }

  /** The filters the page reads from its search parameters. */
  datatype Filters = Filters(
    search: string,
    country: seq<string>,
    premium: string,
    listingType: string,
    dateRange: string,
    industry: string,
    capability: string,
    metal: string)

  /** The parameters behind the filters, in the order the chips are shown. */
  datatype FilterKey = Search | Country | Premium | ListingType | DateRange | Industry | Capability | Metal

  /** The parameter name of each filter. */
  function Name(k: FilterKey): string
  {
    match k
    case Search => "search"
    case Country => "country"
    case Premium => "premium"
    case ListingType => "listingType"
    case DateRange => "dateRange"
    case Industry => "industry"
    case Capability => "capability"
    case Metal => "metal"
  }

  /** The caption of each filter's chip. */
  function Caption(k: FilterKey): string
  {
    match k
    case Search => "Search"
    case Country => "Country"
    case Premium => "Premium"
    case ListingType => "Type"
    case DateRange => "Date"
    case Industry => "Industry"
    case Capability => "Capability"
    case Metal => "Metal"
  }

  /** Reads the filters from the parameters. */
  function FiltersOf(ps: seq<UrlParams.Pair>): (f: Filters)
    ensures forall i :: 0 <= i < |f.country| ==> Text.CsvSafe(f.country[i])
  {
    Filters(
      OrEmpty(UrlParams.Get(ps, Name(Search))),
      ParseCsv(UrlParams.Get(ps, Name(Country))),
      OrEmpty(UrlParams.Get(ps, Name(Premium))),
      OrEmpty(UrlParams.Get(ps, Name(ListingType))),
      OrEmpty(UrlParams.Get(ps, Name(DateRange))),
      OrEmpty(UrlParams.Get(ps, Name(Industry))),
      OrEmpty(UrlParams.Get(ps, Name(Capability))),
      OrEmpty(UrlParams.Get(ps, Name(Metal))))
  }

  /** The text a chip shows for a filter; the countries are joined with ", ". */
  function ChipValue(f: Filters, k: FilterKey): string
  {
    match k
    case Search => f.search
    case Country => Text.Join(f.country, ", ")
    case Premium => f.premium
    case ListingType => f.listingType
    case DateRange => f.dateRange
    case Industry => f.industry
    case Capability => f.capability
    case Metal => f.metal
  }

  /** A filter whose parameter is absent shows nothing. */
  lemma AbsentFilterIsEmpty(ps: seq<UrlParams.Pair>, k: FilterKey)
    requires UrlParams.Get(ps, Name(k)) == None
    ensures ChipValue(FiltersOf(ps), k) == ""
  {
  }

  /** A removable chip naming one active filter. */
  datatype Chip = Chip(key: FilterKey, caption: string, value: string)

  function ChipOf(f: Filters, k: FilterKey): Chip
  {
    Chip(k, Caption(k), ChipValue(f, k))
  }

  /** The filters in the order their chips are shown. */
  const Order: seq<FilterKey> := [Search, Country, Premium, ListingType, DateRange, Industry, Capability, Metal]

  /** One chip per key, whether its filter is set or not. */
  function AllChips(f: Filters, keys: seq<FilterKey>): (r: seq<Chip>)
    ensures |r| == |keys|
    ensures forall d :: d in r ==> d == ChipOf(f, d.key) && d.key in keys
  {
    if keys == [] then [] else [ChipOf(f, keys[0])] + AllChips(f, keys[1..])
  }

  function Pushed<T>(c: bool, x: T): seq<T>
  {
    if c then [x] else []
  }

  /** The test each chip is pushed under: a non-empty string, or a non-empty country list. */
  predicate IsSet(f: Filters, k: FilterKey)
  {
    if k == Country then |f.country| > 0 else ChipValue(f, k) != ""
  }

  /** The chips pushed for `keys`, in order. */
  function Chips(f: Filters, keys: seq<FilterKey>): (r: seq<Chip>)
    ensures |r| <= |keys|
  {
    if keys == [] then [] else Pushed(IsSet(f, keys[0]), ChipOf(f, keys[0])) + Chips(f, keys[1..])
  }

  /** `activeChips`: one chip pushed for each filter that is set, search first and metal last. */
  function ActiveChips(f: Filters): seq<Chip>
  {
    Chips(f, Order)
  }

  function HasValue(c: Chip): bool
  {
    c.value != ""
  }

  lemma FilterCons<T>(x: T, s: seq<T>, p: T -> bool)
    ensures Seqs.Filter([x] + s, p) == Pushed(p(x), x) + Seqs.Filter(s, p)
  {
    assert ([x] + s)[1..] == s;
  }

  lemma {:induction false} ChipsAreFiltered(f: Filters, keys: seq<FilterKey>)
    requires |f.country| > 0 <==> Text.Join(f.country, ", ") != ""
    ensures Chips(f, keys) == Seqs.Filter(AllChips(f, keys), HasValue)
  {
    if keys != [] {
      ChipsAreFiltered(f, keys[1..]);
      FilterCons(ChipOf(f, keys[0]), AllChips(f, keys[1..]), HasValue);
    }
  }

  /**
   * The chips are exactly the filters with a value, in the fixed order: the
   * list of all chips with the empty ones dropped. (A country list from
   * `parseCsv` has no empty element, so it is empty exactly when its join is.)
   */
  lemma ActiveChipsAreSetFilters(f: Filters)
    requires forall i :: 0 <= i < |f.country| ==> f.country[i] != ""
    ensures ActiveChips(f) == Seqs.Filter(AllChips(f, Order), HasValue)
    ensures forall d :: d in ActiveChips(f) ==> d.value != "" && d == ChipOf(f, d.key)
    ensures Seqs.IsSubsequence(ActiveChips(f), AllChips(f, Order))
  {
    JoinEmpty(f.country, ", ");
    ChipsAreFiltered(f, Order);
    Seqs.FilterIsSubsequence(AllChips(f, Order), HasValue);
  }

  /** The new parameter list `setParam(key, value)` produces. */
  function SetParamPairs(current: seq<UrlParams.Pair>, key: string, value: string): seq<UrlParams.Pair>
  {
    var written := if value == "" then UrlParams.Deleted(current, key) else UrlParams.SetIn(current, key, value);
    if key != "page" then UrlParams.Deleted(written, "page") else written
  }

  /**
   * `setParam(key, value)`: copies the current parameters, deletes the key
   * for an empty value and sets it otherwise, drops the page for any other
   * key, and gives the URL the router is sent to.
   */
  method SetParam(pathname: string, current: seq<UrlParams.Pair>, key: string, value: string)
    returns (next: seq<UrlParams.Pair>, url: string)
    ensures next == SetParamPairs(current, key, value)
    ensures url == pathname + "?" + UrlParams.Serialize(next)
  {
    var params := new UrlParams.Params(current);
    if value == "" {
      params.Delete(key);
    } else {
      params.Set(key, value);
    }
    if key != "page" {
      params.Delete("page");
    }
    next := params.pairs;
    url := pathname + "?" + params.ToString();
  }

  /**
   * After `setParam(key, value)` the key reads the value (or nothing for an
   * empty value), the page is gone unless it was the key, and every other
   * parameter reads as before.
   */
  lemma SetParamReads(current: seq<UrlParams.Pair>, key: string, value: string, other: string)
    ensures UrlParams.Get(SetParamPairs(current, key, value), key) == (if value == "" then None else Some(value))
    ensures key != "page" ==> UrlParams.Get(SetParamPairs(current, key, value), "page") == None
    ensures other != key && other != "page" ==>
      UrlParams.Get(SetParamPairs(current, key, value), other) == UrlParams.Get(current, other)
  {
    var written := if value == "" then UrlParams.Deleted(current, key) else UrlParams.SetIn(current, key, value);
    if value == "" {
      UrlParams.GetDeleted(current, key, other);
    } else {
      UrlParams.GetSetIn(current, key, value, other);
    }
    if key != "page" {
      UrlParams.GetDeleted(written, "page", key);
      UrlParams.GetDeleted(written, "page", other);
    }
  }

  /** Clearing a chip's parameter leaves no chip for that filter. */
  lemma ClearChipRemovesIt(current: seq<UrlParams.Pair>, k: FilterKey)
    ensures forall d :: d in ActiveChips(FiltersOf(SetParamPairs(current, Name(k), ""))) ==> d.key != k
  {
    var next := SetParamPairs(current, Name(k), "");
    var f := FiltersOf(next);
    SetParamReads(current, Name(k), "", "");
    AbsentFilterIsEmpty(next, k);
    ActiveChipsAreSetFilters(f);
  }

  /** No element occurs twice. */
  predicate NoDuplicates(s: seq<string>)
  {
    forall i, j :: 0 <= i < j < |s| ==> s[i] != s[j]
  }

  /** The distinct elements of `xs`, each where it first occurs: `Array.from(new Set(xs))`. */
  function Distinct(xs: seq<string>): (r: seq<string>)
    ensures forall x :: x in r <==> x in xs
    ensures NoDuplicates(r)
  {
    if xs == [] then []
    else
      var init := Distinct(xs[..|xs| - 1]);
      var last := xs[|xs| - 1];
      assert forall x :: x in xs <==> x in xs[..|xs| - 1] || x == last;
      if last in init then init else init + [last]
  }

  /** `new Set(xs)` built by adding the elements one at a time. */
  method ToSet(xs: seq<string>) returns (s: seq<string>)
    ensures s == Distinct(xs)
  {
    s := [];
    var i := 0;
    while i < |xs|
      invariant 0 <= i <= |xs|
      invariant s == Distinct(xs[..i])
    {
      assert xs[..i + 1][..i] == xs[..i];
      if xs[i] !in s {
        s := s + [xs[i]];
      }
      i := i + 1;
    }
    assert xs[..|xs|] == xs;
  }

  /** The test that keeps every element but `value`. */
  function Except(value: string): string -> bool
  {
    x => x != value
  }

  /** The set after `delete(value)` if it holds the value, else after `add(value)`. */
  function Toggle(s: seq<string>, value: string): seq<string>
  {
    if value in s then Seqs.Filter(s, Except(value)) else s + [value]
  }

  lemma FilterIn<T>(s: seq<T>, p: T -> bool, x: T)
    ensures x in Seqs.Filter(s, p) <==> x in s && p(x)
  {
    var r := Seqs.Filter(s, p);
    if x in r {
      var i :| 0 <= i < |r| && r[i] == x;
    }
    if x in s && p(x) {
      var i :| 0 <= i < |s| && s[i] == x;
    }
  }

  /** After a toggle the value is present exactly when it was absent, and every other element is as before. */
  lemma ToggleMembers(s: seq<string>, value: string, x: string)
    ensures x in Toggle(s, value) <==> (if x == value then value !in s else x in s)
  {
    if value in s {
      FilterIn(s, Except(value), x);
    }
  }

  /**
   * Toggling flips the value's membership, keeps every other element and
   * keeps the elements distinct; toggling the same value twice gives back
   * the same set.
   */
  lemma ToggleFlips(s: seq<string>, value: string, other: string)
    requires NoDuplicates(s)
    ensures value in Toggle(s, value) <==> value !in s
    ensures other != value ==> (other in Toggle(s, value) <==> other in s)
    ensures NoDuplicates(Toggle(s, value))
    ensures forall x :: x in Toggle(Toggle(s, value), value) <==> x in s
  {
    ToggleMembers(s, value, value);
    ToggleMembers(s, value, other);
    if value in s {
      FilterDistinct(s, Except(value));
    } else {
      var t := s + [value];
      forall i, j | 0 <= i < j < |t|
        ensures t[i] != t[j]
      {
        if j == |s| {
          assert t[i] == s[i];
        }
      }
    }
    var t := Toggle(s, value);
    forall x
      ensures x in Toggle(t, value) <==> x in s
    {
      ToggleMembers(t, value, x);
      ToggleMembers(s, value, x);
    }
  }

  lemma {:induction false} FilterDistinct(s: seq<string>, p: string -> bool)
    requires NoDuplicates(s)
    ensures NoDuplicates(Seqs.Filter(s, p))
  {
    if s != [] {
      var tail := s[1..];
      UnconsDistinct(s);
      FilterDistinct(tail, p);
      FilterIn(tail, p, s[0]);
      FilterCons(s[0], tail, p);
      assert s == [s[0]] + tail;
      if p(s[0]) {
        ConsDistinct(s[0], Seqs.Filter(tail, p));
      }
    }
  }

  /** A list without duplicates: its tail has none, and its head is not in the tail. */
  lemma UnconsDistinct(s: seq<string>)
    requires s != [] && NoDuplicates(s)
    ensures NoDuplicates(s[1..]) && s[0] !in s[1..]
  {
    var tail := s[1..];
    forall k | 0 <= k < |tail|
      ensures tail[k] != s[0]
    {
      assert tail[k] == s[k + 1];
    }
    forall i, j | 0 <= i < j < |tail|
      ensures tail[i] != tail[j]
    {
      assert tail[i] == s[i + 1] && tail[j] == s[j + 1];
    }
  }

  /** Putting a new element in front of a list without duplicates gives none. */
  lemma ConsDistinct(h: string, rest: seq<string>)
    requires NoDuplicates(rest) && h !in rest
    ensures NoDuplicates([h] + rest)
  {
    var r := [h] + rest;
    forall i, j | 0 <= i < j < |r|
      ensures r[i] != r[j]
    {
      assert r[j] == rest[j - 1];
      if i > 0 {
        assert r[i] == rest[i - 1];
      }
    }
  }

  /**
   * `toggleCountry(value)`: the countries read from the `country` parameter
   * go into a set, the value is removed if present and added otherwise, and
   * the parameter is written back as CSV, or cleared when no country is left.
   */
  method ToggleCountry(pathname: string, current: seq<UrlParams.Pair>, value: string)
    returns (next: seq<UrlParams.Pair>, url: string)
    ensures var after := Toggle(Distinct(ParseCsv(UrlParams.Get(current, "country"))), value);
      next == SetParamPairs(current, "country", if |after| > 0 then ToCsv(after) else "")
  {
    var country := ParseCsv(UrlParams.Get(current, "country"));
    var nextCountries := ToSet(country);
    if value in nextCountries {
      nextCountries := Seqs.Filter(nextCountries, Except(value));
    } else {
      nextCountries := nextCountries + [value];
    }
    next, url := SetParam(pathname, current, "country", if |nextCountries| > 0 then ToCsv(nextCountries) else "");
  }

  /** Writing a list of CSV-safe countries, or clearing the parameter for none, reads back the same list. */
  lemma CountriesReadBack(current: seq<UrlParams.Pair>, xs: seq<string>)
    requires forall i :: 0 <= i < |xs| ==> Text.CsvSafe(xs[i])
    ensures FiltersOf(SetParamPairs(current, "country", if |xs| > 0 then ToCsv(xs) else "")).country == xs
  {
    var csv := if |xs| > 0 then ToCsv(xs) else "";
    var next := SetParamPairs(current, "country", csv);
    JoinEmpty(xs, ",");
    SetParamReads(current, "country", csv, "");
    assert UrlParams.Get(next, Name(Country)) == (if csv == "" then None else Some(csv));
    if csv != "" {
      CsvRoundTrip(xs);
    }
  }

  /**
   * After a toggle with a country name that is safe in CSV, the page reads
   * back exactly the toggled set of countries.
   */
  lemma ToggleCountryReadsBack(current: seq<UrlParams.Pair>, value: string)
    requires Text.CsvSafe(value)
    ensures var after := Toggle(Distinct(ParseCsv(UrlParams.Get(current, "country"))), value);
      FiltersOf(SetParamPairs(current, "country", if |after| > 0 then ToCsv(after) else "")).country == after
  {
    var parsed := ParseCsv(UrlParams.Get(current, "country"));
    var before := Distinct(parsed);
    var after := Toggle(before, value);
    forall i | 0 <= i < |after|
      ensures Text.CsvSafe(after[i])
    {
      var x := after[i];
      ToggleMembers(before, value, x);
      if x != value {
        assert x in parsed;
        var k :| 0 <= k < |parsed| && parsed[k] == x;
      }
    }
    CountriesReadBack(current, after);
  }

  /** `Number(searchParams.get("page") || "1")`; `None` is NaN. */
  function PageOf(ps: seq<UrlParams.Pair>): Option<int>
  {
    var raw := UrlParams.Get(ps, "page");
    Decimal.JsNumber(if Truthy(raw) then raw.value else "1")
  }

  /** `String(n)`, with NaN written out. */
  function NumberText(n: Option<int>): string
  {
    if n.Some? then Decimal.IntToString(n.value) else "NaN"
  }

  /** The Previous button is disabled at or before the first page (never for NaN). */
  predicate PrevDisabled(page: Option<int>)
  {
    page.Some? && page.value <= 1
  }

  /** The page the Previous button asks for: `Math.max(1, page - 1)`. */
  function PrevTarget(page: Option<int>): Option<int>
  {
    if page.None? then None else if page.value - 1 > 1 then Some(page.value - 1) else Some(1)
  }

  /** The Next button is disabled once results are shown and the page is the last or beyond. */
  predicate NextDisabled(page: Option<int>, totalPages: Option<int>)
  {
    totalPages.Some? && page.Some? && page.value >= totalPages.value
  }

  /** The page the Next button asks for: `page + 1`. */
  function NextTarget(page: Option<int>): Option<int>
  {
    if page.None? then None else Some(page.value + 1)
  }

  /** A page without a `page` parameter is the first. */
  lemma FirstPageByDefault(current: seq<UrlParams.Pair>)
    requires UrlParams.Get(current, "page") == None
    ensures PageOf(current) == Some(1)
  {
    Decimal.JsNumberRoundTrip(1);
    assert Decimal.IntToString(1) == "1";
  }

  /**
   * Previous is disabled exactly at the first page and before, and when
   * enabled moves to the page before, never below 1; Previous after Next comes
   * back to the same page; Next is disabled exactly from the last page on once
   * results are shown.
   */
  lemma PagingLaws(p: int, totalPages: int)
    ensures PrevDisabled(Some(p)) <==> p <= 1
    ensures !PrevDisabled(Some(p)) ==> PrevTarget(Some(p)) == Some(p - 1)
    ensures PrevTarget(Some(p)).value >= 1
    ensures p >= 1 ==> PrevTarget(NextTarget(Some(p))) == Some(p)
    ensures NextDisabled(Some(p), Some(totalPages)) <==> p >= totalPages
    ensures !NextDisabled(None, Some(totalPages)) && !PrevDisabled(None)
  {
  }

  /** The page the Next button writes is the page read back. */
  lemma NextReadsBack(current: seq<UrlParams.Pair>, p: int)
    ensures PageOf(SetParamPairs(current, "page", NumberText(NextTarget(Some(p))))) == Some(p + 1)
  {
    var text := Decimal.IntToString(p + 1);
    assert NumberText(NextTarget(Some(p))) == text;
    var next := SetParamPairs(current, "page", text);
    SetParamReads(current, "page", text, "");
    assert UrlParams.Get(next, "page") == Some(text);
    Decimal.JsNumberRoundTrip(p + 1);
    assert PageOf(next) == Decimal.JsNumber(text);
  }
}

=== FILE: seo.dfy ===
/**
 * The search-engine metadata of the listing pages: reading the first value
 * of a search parameter, the canonical query string, and the page title and
 * description built from the filters.
 */
module Seo {
  import opened Wrappers
  import Text
  import UrlParams

  /** A search parameter as the page receives it: absent, one string, or repeated. */
  datatype Param = Undefined | One(s: string) | Many(xs: seq<string>)

  /** The page kind. */
  datatype Mode = Buyers | Suppliers | Directory

  /** `getFirst(value)`: the string, or the first of the array, or "" when there is none. */
  function GetFirst(v: Param): (r: string)
    ensures v.Undefined? ==> r == ""
    ensures v.One? ==> r == v.s
    ensures v.Many? ==> r == (if v.xs == [] then "" else v.xs[0])
  {
    match v
    case Undefined => ""
    case One(s) => if s == "" then "" else s
    case Many(xs) => if xs == [] || xs[0] == "" then "" else xs[0]
  }

  /** The entries of the parameter record, in order; a record has no name twice. */
  predicate DistinctNames(entries: seq<(string, Param)>)
  {
    forall i, j :: 0 <= i < j < |entries| ==> entries[i].0 != entries[j].0
  }

  function NamesOf(entries: seq<(string, Param)>): set<string>
  {
    set i | 0 <= i < |entries| :: entries[i].0
  }

  /** The non-empty items of `xs`, each paired with `name`. */
  function ItemPairs(name: string, xs: seq<string>): (r: seq<UrlParams.Pair>)
    ensures forall i :: 0 <= i < |r| ==> r[i].name == name && r[i].value != ""
  {
    if xs == [] then []
    else
      var last := xs[|xs| - 1];
      ItemPairs(name, xs[..|xs| - 1]) + (if last != "" then [UrlParams.Pair(name, last)] else [])
  }

  /** The pairs one entry contributes: nothing when undefined or empty, each non-empty array item, or the string. */
  function EntryPairs(name: string, v: Param): (r: seq<UrlParams.Pair>)
    ensures forall i :: 0 <= i < |r| ==> r[i].name == name && r[i].value != ""
  {
    match v
    case Undefined => []
    case One(s) => if s != "" then [UrlParams.Pair(name, s)] else []
    case Many(xs) => ItemPairs(name, xs)
  }

  /** The pairs of the canonical query, entry by entry. */
  function QueryPairs(entries: seq<(string, Param)>): (r: seq<UrlParams.Pair>)
    ensures forall i :: 0 <= i < |r| ==> r[i].name in NamesOf(entries) && r[i].value != ""
  {
    if entries == [] then []
    else
      var n := |entries| - 1;
      var r := QueryPairs(entries[..n]) + EntryPairs(entries[n].0, entries[n].1);
      assert forall k :: k in NamesOf(entries[..n]) ==> k in NamesOf(entries) by {
        forall k | k in NamesOf(entries[..n])
          ensures k in NamesOf(entries)
        {
          var i :| 0 <= i < n && entries[..n][i].0 == k;
          assert entries[i].0 == k;
        }
      }
      r
  }

  /** An entry that contributes nothing to the query. */
  predicate Blank(v: Param)
  {
    v.Undefined? || v == One("") || (v.Many? && forall i :: 0 <= i < |v.xs| ==> v.xs[i] == "")
  }

  lemma {:induction false} ItemPairsEmpty(name: string, xs: seq<string>)
    ensures ItemPairs(name, xs) == [] <==> forall i :: 0 <= i < |xs| ==> xs[i] == ""
  {
    if xs != [] {
      var n := |xs| - 1;
      ItemPairsEmpty(name, xs[..n]);
      assert forall i :: 0 <= i < n ==> xs[..n][i] == xs[i];
    }
  }

  lemma EntryPairsEmpty(name: string, v: Param)
    ensures EntryPairs(name, v) == [] <==> Blank(v)
  {
    if v.Many? {
      ItemPairsEmpty(name, v.xs);
    }
  }

  /** The query string is empty exactly when every entry is blank. */
  lemma {:induction false} QueryEmptyIffBlank(entries: seq<(string, Param)>)
    ensures QueryPairs(entries) == [] <==> forall i :: 0 <= i < |entries| ==> Blank(entries[i].1)
  {
    if entries != [] {
      var n := |entries| - 1;
      var init := entries[..n];
      QueryEmptyIffBlank(init);
      EntryPairsEmpty(entries[n].0, entries[n].1);
      assert QueryPairs(entries) == QueryPairs(init) + EntryPairs(entries[n].0, entries[n].1);
      assert forall i :: 0 <= i < n ==> init[i] == entries[i];
    }
  }

  /** A name of a record is not among the names before it. */
  lemma NotYetNamed(entries: seq<(string, Param)>, i: nat)
    requires DistinctNames(entries) && i < |entries|
    ensures entries[i].0 !in NamesOf(entries[..i])
  {
    assert forall e :: 0 <= e < i ==> entries[..i][e].0 != entries[i].0;
  }

  /** Adds one entry's pairs to `qs`; its name is not there yet, so `set` appends. */
  method AddEntry(qs: UrlParams.Params, k: string, v: Param)
    requires k !in UrlParams.Names(qs.pairs)
    modifies qs
    ensures qs.pairs == old(qs.pairs) + EntryPairs(k, v)
  {
    match v {
      case Undefined =>
      case Many(xs) =>
        var t := 0;
        while t < |xs|
          invariant 0 <= t <= |xs|
          invariant qs.pairs == old(qs.pairs) + ItemPairs(k, xs[..t])
        {
          assert xs[..t + 1][..t] == xs[..t];
          if xs[t] != "" {
            qs.Append(k, xs[t]);
          }
          t := t + 1;
        }
        assert xs[..|xs|] == xs;
      case One(str) =>
        if str != "" {
          qs.Set(k, str);
        }
    }
  }

  /** The loop of `buildQueryString`: a fresh parameter list filled entry by entry. */
  method CollectParams(entries: seq<(string, Param)>) returns (qs: UrlParams.Params)
    requires DistinctNames(entries)
    ensures fresh(qs) && qs.pairs == QueryPairs(entries)
  {
    qs := new UrlParams.Params([]);
    var i := 0;
    while i < |entries|
      invariant 0 <= i <= |entries|
      invariant qs.pairs == QueryPairs(entries[..i])
    {
      var (k, v) := entries[i];
      assert entries[..i + 1][..i] == entries[..i];
      NotYetNamed(entries, i);
      AddEntry(qs, k, v);
      i := i + 1;
    }
    assert entries[..|entries|] == entries;
  }

  /**
   * `buildQueryString(searchParams)`: skips undefined and empty values,
   * appends each non-empty array item, sets each non-empty string, and gives
   * "" when nothing was added and "?" and the pairs otherwise.
   */
  method BuildQueryString(entries: seq<(string, Param)>) returns (s: string)
    requires DistinctNames(entries)
    ensures s == (if QueryPairs(entries) == [] then "" else "?" + UrlParams.Serialize(QueryPairs(entries)))
    ensures s == "" <==> forall i :: 0 <= i < |entries| ==> Blank(entries[i].1)
  {
    var qs := CollectParams(entries);
    var str := qs.ToString();
    s := if str != "" then "?" + str else "";
    QueryEmptyIffBlank(entries);
  }

  /** The word naming what the page lists. */
  function RoleLabel(mode: Mode): string
  {
    match mode
    case Buyers => "Buyers"
    case Suppliers => "Suppliers"
    case Directory => "Listings"
  }

  /** The head of the title: the metal, else the capability, else the industry, before the label. */
  function Head(metal: string, capability: string, industry: string, noun: string): string
  {
    if metal != "" then metal + " " + noun
    else if capability != "" then capability + " " + noun
    else if industry != "" then industry + " " + noun
    else noun
  }

  /** The parts of the title, joined with spaces. */
  function TitleParts(head: string, countries: seq<string>, search: string): seq<string>
  {
    [head] + (if |countries| > 0 then ["in " + Text.Join(countries, ", ")] else [])
    + (if search != "" then ["for " + search] else [])
  }

  /** The site name every title ends with. */
  const Suffix: string := " | Metal Hub"

  /** The title of a listings page with the given filter values. */
  function Title(mode: Mode, search: string, countries: seq<string>, metal: string, industry: string, capability: string): (t: string)
    ensures |t| >= |Suffix| && t[|t| - |Suffix|..] == Suffix
    ensures |t| >= |Head(metal, capability, industry, RoleLabel(mode))|
    ensures t[..|Head(metal, capability, industry, RoleLabel(mode))|] == Head(metal, capability, industry, RoleLabel(mode))
  {
    var parts := TitleParts(Head(metal, capability, industry, RoleLabel(mode)), countries, search);
    Text.JoinStartsWithFirst(parts, " ");
    var j := Text.Join(parts, " ");
    assert (j + Suffix)[|j|..] == Suffix;
    j + Suffix
  }

  /**
   * The exact title: the head, then "in" and the countries joined with ", "
   * exactly when there are countries, then "for" and the search exactly when
   * it is non-empty, then the site name.
   */
  lemma TitleExact(mode: Mode, search: string, countries: seq<string>, metal: string, industry: string, capability: string)
    ensures |countries| > 0 && search != "" ==> (Title(mode, search, countries, metal, industry, capability)
      == Head(metal, capability, industry, RoleLabel(mode)) + " " + ("in " + Text.Join(countries, ", ")) + " " + ("for " + search) + Suffix)
    ensures |countries| > 0 && search == "" ==> (Title(mode, search, countries, metal, industry, capability)
      == Head(metal, capability, industry, RoleLabel(mode)) + " " + ("in " + Text.Join(countries, ", ")) + Suffix)
    ensures |countries| == 0 && search != "" ==> (Title(mode, search, countries, metal, industry, capability)
      == Head(metal, capability, industry, RoleLabel(mode)) + " " + ("for " + search) + Suffix)
    ensures |countries| == 0 && search == "" ==> (Title(mode, search, countries, metal, industry, capability)
      == Head(metal, capability, industry, RoleLabel(mode)) + Suffix)
  {
    if |countries| > 0 && search != "" {
      TitleWithBoth(mode, search, countries, metal, industry, capability);
    } else if |countries| > 0 {
      TitleWithCountries(mode, search, countries, metal, industry, capability);
    } else if search != "" {
      TitleWithSearch(mode, search, countries, metal, industry, capability);
    } else {
      TitleIsJoin(mode, search, countries, metal, industry, capability);
      assert TitleParts(Head(metal, capability, industry, RoleLabel(mode)), countries, search) == [Head(metal, capability, industry, RoleLabel(mode))];
    }
  }

  lemma TitleWithBoth(mode: Mode, search: string, countries: seq<string>, metal: string, industry: string, capability: string)
    requires |countries| > 0 && search != ""
    ensures Title(mode, search, countries, metal, industry, capability) == Head(metal, capability, industry, RoleLabel(mode)) + " " + ("in " + Text.Join(countries, ", ")) + " " + ("for " + search) + Suffix
  {
    var head := Head(metal, capability, industry, RoleLabel(mode));
    var c := "in " + Text.Join(countries, ", ");
    var f := "for " + search;
    TitleIsJoin(mode, search, countries, metal, industry, capability);
    assert TitleParts(head, countries, search) == [head, c, f];
    JoinOfThree(head, c, f);
  }

  lemma TitleWithCountries(mode: Mode, search: string, countries: seq<string>, metal: string, industry: string, capability: string)
    requires |countries| > 0 && search == ""
    ensures Title(mode, search, countries, metal, industry, capability) == Head(metal, capability, industry, RoleLabel(mode)) + " " + ("in " + Text.Join(countries, ", ")) + Suffix
  {
    var head := Head(metal, capability, industry, RoleLabel(mode));
    var c := "in " + Text.Join(countries, ", ");
    TitleIsJoin(mode, search, countries, metal, industry, capability);
    assert TitleParts(head, countries, search) == [head, c];
    JoinOfTwo(head, c);
  }

  lemma TitleWithSearch(mode: Mode, search: string, countries: seq<string>, metal: string, industry: string, capability: string)
    requires |countries| == 0 && search != ""
    ensures Title(mode, search, countries, metal, industry, capability) == Head(metal, capability, industry, RoleLabel(mode)) + " " + ("for " + search) + Suffix
  {
    var head := Head(metal, capability, industry, RoleLabel(mode));
    var f := "for " + search;
    TitleIsJoin(mode, search, countries, metal, industry, capability);
    assert TitleParts(head, countries, search) == [head, f];
    JoinOfTwo(head, f);
  }

  lemma TitleIsJoin(mode: Mode, search: string, countries: seq<string>, metal: string, industry: string, capability: string)
    ensures Title(mode, search, countries, metal, industry, capability)
      == Text.Join(TitleParts(Head(metal, capability, industry, RoleLabel(mode)), countries, search), " ") + Suffix
  {
  }

  lemma JoinOfTwo(a: string, b: string)
    ensures Text.Join([a, b], " ") == a + " " + b
  {
    assert [a, b][1..] == [b];
  }

  lemma JoinOfThree(a: string, b: string, c: string)
    ensures Text.Join([a, b, c], " ") == a + " " + b + " " + c
  {
    assert [a, b, c][1..] == [b, c];
    JoinOfTwo(b, c);
  }

  /**
   * With no filters the title is the label alone; a metal hides the
   * capability and industry, and a capability hides the industry.
   */
  lemma TitlePrecedence(mode: Mode, metal: string, capability: string, industry: string, c2: string, i2: string)
    ensures Title(mode, "", [], "", "", "") == RoleLabel(mode) + Suffix
    ensures metal != "" ==> Head(metal, capability, industry, RoleLabel(mode)) == Head(metal, c2, i2, RoleLabel(mode))
    ensures metal == "" && capability != "" ==>
      Head(metal, capability, industry, RoleLabel(mode)) == Head(metal, capability, i2, RoleLabel(mode))
  {
    assert TitleParts(RoleLabel(mode), [], "") == [RoleLabel(mode)];
  }

  /** The title of a page, read from its parameters; the countries come from the comma-separated `country`. */
  function ListingsTitle(mode: Mode, search: Param, country: Param, metal: Param, industry: Param, capability: Param): (t: string)
    ensures t == Title(mode, GetFirst(search), Text.ParseCsv(GetFirst(country)), GetFirst(metal), GetFirst(industry), GetFirst(capability))
  {
    var countryRaw := GetFirst(country);
    var countries := if countryRaw != "" then Text.ParseCsv(countryRaw) else [];
    assert countryRaw == "" ==> Text.ParseCsv(countryRaw) == [] by {
      if countryRaw == "" {
        assert Text.Split("", ',') == [""];
        assert Text.Trim("") == "";
      }
    }
    Title(mode, GetFirst(search), countries, GetFirst(metal), GetFirst(industry), GetFirst(capability))
  }

  /** The fixed text after the page kind in the description. */
  const DescriptionTail: string := " with structured filters and verified marketplace profiles."

  /** The page description. */
  function Description(mode: Mode): string
  {
    "Browse " + Text.ToLower(RoleLabel(mode)) + DescriptionTail
  }

  /** The description names the page kind in lower case, so different kinds get different descriptions. */
  lemma DescriptionNamesMode(a: Mode, b: Mode)
    ensures Description(a)[7..7 + |RoleLabel(a)|] == Text.ToLower(RoleLabel(a))
    ensures a != b ==> Description(a) != Description(b)
  {
    var la := Text.ToLower(RoleLabel(a));
    var lb := Text.ToLower(RoleLabel(b));
    assert ("Browse " + la + DescriptionTail)[7..7 + |la|] == la;
    assert |la| == |RoleLabel(a)| && |lb| == |RoleLabel(b)|;
    assert a != b ==> |RoleLabel(a)| != |RoleLabel(b)|;
  }
}

=== FILE: seqs.dfy ===
/**
 * Sequence helpers shared by the query paths: filtering, reading the rows of an
 * id-keyed table in id order, a stable sort on an integer key, and the
 * skip/take pagination the ORM performs.
 */
module Seqs {
  import opened Wrappers

  /** `r` can be obtained from `s` by dropping elements, keeping the order. */
  ghost predicate IsSubsequence<T>(r: seq<T>, s: seq<T>)
    decreases |s|
  {
    if r == [] then true
    else if s == [] then false
    else if r[0] == s[0] then IsSubsequence(r[1..], s[1..])
    else IsSubsequence(r, s[1..])
  }

  /** The elements of `s` that satisfy `p`, in their original order (Array.prototype.filter). */
  function Filter<T>(s: seq<T>, p: T -> bool): (r: seq<T>)
    ensures |r| <= |s|
    ensures forall i :: 0 <= i < |r| ==> r[i] in s && p(r[i])
    ensures forall i :: 0 <= i < |s| && p(s[i]) ==> s[i] in r
    ensures multiset(r) <= multiset(s)
  {
    if s == [] then []
    else
      assert s == [s[0]] + s[1..];
      if p(s[0]) then [s[0]] + Filter(s[1..], p) else Filter(s[1..], p)
  }

  lemma {:induction false} FilterIsSubsequence<T>(s: seq<T>, p: T -> bool)
    ensures IsSubsequence(Filter(s, p), s)
  {
    if s != [] {
      FilterIsSubsequence(s[1..], p);
      var rest := Filter(s[1..], p);
      if p(s[0]) {
        assert Filter(s, p) == [s[0]] + rest;
        assert ([s[0]] + rest)[1..] == rest;
      } else {
        assert Filter(s, p) == rest;
        if rest != [] {
          assert p(rest[0]) && rest[0] != s[0];
        }
      }
    }
  }

  /**
   * The values of the rows of `m` with an id below `n` that satisfy `p`, in id
   * order: a `findMany` with a `where` clause over a table keyed by id.
   */
  function SelectRows<T(==)>(m: map<nat, T>, n: nat, p: T -> bool): (r: seq<T>)
    ensures |r| <= n
    decreases n
  {
    if n == 0 then []
    else SelectRows(m, n - 1, p) + (if n - 1 in m && p(m[n - 1]) then [m[n - 1]] else [])
  }

  /** The selection holds exactly the matching rows below `n`. */
  lemma {:induction false} SelectRowsSound<T>(m: map<nat, T>, n: nat, p: T -> bool)
    ensures forall i :: 0 <= i < |SelectRows(m, n, p)| ==>
      p(SelectRows(m, n, p)[i]) && exists k :: k in m && k < n && m[k] == SelectRows(m, n, p)[i]
    ensures forall k :: k in m && k < n && p(m[k]) ==> m[k] in SelectRows(m, n, p)
  {
    if n > 0 {
      SelectRowsSound(m, n - 1, p);
      var before := SelectRows(m, n - 1, p);
      var r := SelectRows(m, n, p);
      forall i | 0 <= i < |r|
        ensures p(r[i]) && exists k :: k in m && k < n && m[k] == r[i]
      {
        if i < |before| {
          assert r[i] == before[i];
        } else {
          assert r[i] == m[n - 1];
        }
      }
      forall k | k in m && k < n && p(m[k])
        ensures m[k] in r
      {
        if k < n - 1 {
          var i :| 0 <= i < |before| && before[i] == m[k];
          assert r[i] == m[k];
        } else {
          assert r[|r| - 1] == m[k];
        }
      }
    }
  }

  /** `findUnique`/`findFirst` on a non-key column: the first matching row in id order, if any. */
  function FindRow<T(==)>(m: map<nat, T>, n: nat, p: T -> bool): (r: Option<T>)
    ensures r.Some? <==> exists k :: k in m && k < n && p(m[k])
    ensures r.Some? ==> p(r.value) && exists k :: k in m && k < n && m[k] == r.value
  {
    var found := SelectRows(m, n, p);
    SelectRowsSound(m, n, p);
    if |found| == 0 then
      assert forall k :: k in m && k < n && p(m[k]) ==> m[k] in found;
      None
    else
      assert p(found[0]) && exists k :: k in m && k < n && m[k] == found[0];
      Some(found[0])
  }

  /** Two filters that agree on every row select the same rows. */
  lemma {:induction false} SelectRowsCongruent<T>(m: map<nat, T>, n: nat, p: T -> bool, q: T -> bool)
    requires forall k :: k in m ==> p(m[k]) == q(m[k])
    ensures SelectRows(m, n, p) == SelectRows(m, n, q)
  {
    if n > 0 {
      SelectRowsCongruent(m, n - 1, p, q);
    }
  }

  /** The ids of the rows of `m` below `n` that satisfy `p`. */
  function KeysWhere<T>(m: map<nat, T>, n: nat, p: T -> bool): set<nat>
  {
    set k | k in m && k < n && p(m[k])
  }

  /** A `findMany` returns one element per matching row, so its length is the `count` of the same query. */
  lemma {:induction false} SelectRowsCount<T>(m: map<nat, T>, n: nat, p: T -> bool)
    ensures |SelectRows(m, n, p)| == |KeysWhere(m, n, p)|
  {
    if n == 0 {
      assert KeysWhere(m, n, p) == {};
    } else {
      SelectRowsCount(m, n - 1, p);
      var before := KeysWhere(m, n - 1, p);
      var hit := n - 1 in m && p(m[n - 1]);
      var added: set<nat> := if hit then {n - 1} else {};
      assert KeysWhere(m, n, p) == before + added by {
        forall k
          ensures k in KeysWhere(m, n, p) <==> k in before + added
        {
        }
      }
      assert before !! added;
      assert |SelectRows(m, n, p)| == |SelectRows(m, n - 1, p)| + |added|;
    }
  }

  /** `a` may precede `b` in a list sorted ascending (or descending when `desc`). */
  predicate InOrder(a: int, b: int, desc: bool)
  {
    if desc then a >= b else a <= b
  }

  predicate SortedByKey<T>(s: seq<T>, key: T -> int, desc: bool)
  {
    forall i, j :: 0 <= i < j < |s| ==> InOrder(key(s[i]), key(s[j]), desc)
  }

  /** Inserts `x` before the first element it may precede; equal keys keep `x` first. */
  function Insert<T>(x: T, s: seq<T>, key: T -> int, desc: bool): (r: seq<T>)
    ensures multiset(r) == multiset(s) + multiset{x}
  {
    if s == [] || InOrder(key(x), key(s[0]), desc) then [x] + s
    else
      assert s == [s[0]] + s[1..];
      [s[0]] + Insert(x, s[1..], key, desc)
  }

  /** Putting in front an element that may precede every element of a sorted list keeps it sorted. */
  lemma ConsSorted<T>(h: T, rest: seq<T>, key: T -> int, desc: bool)
    requires SortedByKey(rest, key, desc)
    requires forall k :: 0 <= k < |rest| ==> InOrder(key(h), key(rest[k]), desc)
    ensures SortedByKey([h] + rest, key, desc)
  {
    var r := [h] + rest;
    forall i, j | 0 <= i < j < |r|
      ensures InOrder(key(r[i]), key(r[j]), desc)
    {
      assert r[j] == rest[j - 1];
      if i > 0 {
        assert r[i] == rest[i - 1];
      }
    }
  }

  /** Every element of an insertion is the inserted one or an element of the list. */
  lemma {:induction false} InsertMembers<T>(x: T, s: seq<T>, key: T -> int, desc: bool, y: T)
    requires y in Insert(x, s, key, desc)
    ensures y == x || y in s
  {
    if s != [] && !InOrder(key(x), key(s[0]), desc) && y != s[0] {
      assert y in Insert(x, s[1..], key, desc);
      InsertMembers(x, s[1..], key, desc, y);
    }
  }

  /** Inserting into a sorted list keeps it sorted. */
  lemma {:induction false} InsertSorted<T>(x: T, s: seq<T>, key: T -> int, desc: bool)
    requires SortedByKey(s, key, desc)
    ensures SortedByKey(Insert(x, s, key, desc), key, desc)
  {
    if s == [] || InOrder(key(x), key(s[0]), desc) {
      forall k | 0 <= k < |s|
        ensures InOrder(key(x), key(s[k]), desc)
      {
        if k > 0 {
          assert InOrder(key(s[0]), key(s[k]), desc);
        }
      }
      ConsSorted(x, s, key, desc);
    } else {
      var tail := s[1..];
      assert SortedByKey(tail, key, desc) by {
        forall i, j | 0 <= i < j < |tail|
          ensures InOrder(key(tail[i]), key(tail[j]), desc)
        {
          assert tail[i] == s[i + 1] && tail[j] == s[j + 1];
        }
      }
      InsertSorted(x, tail, key, desc);
      var rest := Insert(x, tail, key, desc);
      forall k | 0 <= k < |rest|
        ensures InOrder(key(s[0]), key(rest[k]), desc)
      {
        var y := rest[k];
        InsertMembers(x, tail, key, desc, y);
        if y != x {
          var t :| 0 <= t < |tail| && tail[t] == y;
          assert s[t + 1] == y;
        }
      }
      ConsSorted(s[0], rest, key, desc);
    }
  }

  /**
   * A stable sort on an integer key: the ORM's `orderBy` and the browser's
   * `Array.prototype.sort` with a key-difference comparator.
   */
  function SortByKey<T>(s: seq<T>, key: T -> int, desc: bool): (r: seq<T>)
    ensures multiset(r) == multiset(s)
    ensures |r| == |s|
    ensures SortedByKey(r, key, desc)
  {
    if s == [] then []
    else
      assert s == [s[0]] + s[1..];
      var sorted := SortByKey(s[1..], key, desc);
      InsertSorted(s[0], sorted, key, desc);
      Insert(s[0], sorted, key, desc)
  }

  /**
   * `findFirst` with an `orderBy`: the first element of the sorted result,
   * one whose key is extremal among all of `s`.
   */
  function FindFirst<T>(s: seq<T>, key: T -> int, desc: bool): (r: Option<T>)
    ensures r.None? <==> s == []
    ensures r.Some? ==> r.value in s && forall i :: 0 <= i < |s| ==> InOrder(key(r.value), key(s[i]), desc)
  {
    var sorted := SortByKey(s, key, desc);
    if sorted == [] then None
    else
      SortedHeadExtremal(s, sorted, key, desc);
      Some(sorted[0])
  }

  lemma SortedHeadExtremal<T>(s: seq<T>, sorted: seq<T>, key: T -> int, desc: bool)
    requires sorted != [] && multiset(sorted) == multiset(s) && SortedByKey(sorted, key, desc)
    ensures sorted[0] in s
    ensures forall i :: 0 <= i < |s| ==> InOrder(key(sorted[0]), key(s[i]), desc)
  {
    assert sorted[0] in multiset(sorted);
    forall i | 0 <= i < |s|
      ensures InOrder(key(sorted[0]), key(s[i]), desc)
    {
      assert s[i] in multiset(s);
      assert s[i] in sorted;
      var j :| 0 <= j < |sorted| && sorted[j] == s[i];
      if j > 0 {
        assert InOrder(key(sorted[0]), key(sorted[j]), desc);
      }
    }
  }

  function Min(a: int, b: int): int { if a <= b then a else b }

  function Max(a: int, b: int): int { if a >= b then a else b }

  /** `skip`/`take` as the ORM applies them to an ordered result. */
  function Slice<T>(s: seq<T>, skip: nat, take: nat): (r: seq<T>)
    ensures |r| == if skip >= |s| then 0 else Min(take, |s| - skip)
    ensures forall i :: 0 <= i < |r| ==> r[i] == s[skip + i]
  {
    if skip >= |s| then [] else s[skip..Min(skip + take, |s|)]
  }

  /** `Math.ceil(total / limit)` for a positive limit. */
  function CeilDiv(total: nat, limit: nat): nat
    requires limit >= 1
  {
    (total + limit - 1) / limit
  }

  /** `CeilDiv(total, limit)` pages of `limit` rows hold `total` rows, and one page fewer would not. */
  lemma CeilDivBounds(total: nat, limit: nat)
    requires limit >= 1
    ensures CeilDiv(total, limit) * limit >= total
    ensures CeilDiv(total, limit) > 0 ==> (CeilDiv(total, limit) - 1) * limit < total
  {
    var r := CeilDiv(total, limit);
    var q := total + limit - 1;
    assert q == r * limit + q % limit;
  }

  /**
   * `Math.ceil(total / limit)` for any non-zero limit: the least integer at or
   * above the quotient, so a negative limit gives zero or fewer pages.
   */
  function JsCeilDiv(total: nat, limit: int): (r: int)
    requires limit != 0
    ensures limit > 0 ==> r * limit >= total && (r - 1) * limit < total
    ensures limit < 0 ==> r * limit <= total && (r - 1) * limit > total
  {
    if limit > 0 then
      CeilDivBounds(total, limit);
      CeilDiv(total, limit)
    else
      var q := total / -limit;
      assert total == q * -limit + total % -limit;
      -q
  }

  function Abs(x: int): nat { if x >= 0 then x else -x }

  /** `x || d` on an optional number: an absent or zero argument takes the default. */
  function OrDefault(x: Option<int>, d: int): (r: int)
    ensures x.Some? && x.value != 0 ==> r == x.value
    ensures (x.None? || x.value == 0) ==> r == d
  {
    if x.Some? && x.value != 0 then x.value else d
  }

  /** The result of a paginated query: one page of rows plus the totals the services report. */
  datatype Page<T> = Page(items: seq<T>, page: int, limit: int, total: nat, totalPages: int)

  /** The error the database client raises for a negative `skip`; the services pass it on. */
  const NegativeSkip := Error(Internal, "skip must not be negative")

  /**
   * A negative `take` without a cursor reads backwards: the `take` rows that
   * end `skip` rows before the end, still in the query's order.
   */
  function SliceFromEnd<T>(s: seq<T>, skip: nat, take: nat): (r: seq<T>)
    ensures var hi := if skip >= |s| then 0 else |s| - skip;
      |r| == Min(take, hi) && forall i :: 0 <= i < |r| ==> r[i] == s[hi - |r| + i]
  {
    var hi := if skip >= |s| then 0 else |s| - skip;
    var lo := hi - Min(take, hi);
    Slice(s, lo, hi - lo)
  }

  /**
   * Page `page` of `limit` rows out of the full ordered result `all`: a
   * `findMany` with `skip: (page - 1) * limit` and `take: limit`, reporting
   * `Math.ceil(total / limit)` pages. A negative skip is refused, and a
   * negative take reads backwards from the end.
   */
  function Paginate<T>(all: seq<T>, page: int, limit: int): (r: Result<Page<T>>)
    requires limit != 0
    ensures r.Err? <==> (page - 1) * limit < 0
    ensures r.Err? ==> r.error == NegativeSkip
    ensures r.Ok? ==> r.value.total == |all| && r.value.page == page && r.value.limit == limit
                      && r.value.totalPages == JsCeilDiv(|all|, limit)
                      && |r.value.items| <= Abs(limit)
    ensures r.Ok? && limit > 0 ==> r.value.items == Slice(all, (page - 1) * limit, limit)
    ensures r.Ok? && limit < 0 ==> r.value.items == SliceFromEnd(all, (page - 1) * limit, -limit)
  {
    var skip := (page - 1) * limit;
    if skip < 0 then Err(NegativeSkip)
    else
      var items := if limit > 0 then Slice(all, skip, limit) else SliceFromEnd(all, skip, -limit);
      Ok(Page(items, page, limit, |all|, JsCeilDiv(|all|, limit)))
  }

  /** The skip is negative exactly for a page below 1 with a positive limit, or a page above 1 with a negative one. */
  lemma NegativeSkipCases(page: int, limit: int)
    ensures (page - 1) * limit < 0 <==> (page < 1 && limit > 0) || (page > 1 && limit < 0)
  {
    if page < 1 && limit > 0 {
      assert (page - 1) * limit <= -limit;
    } else if page > 1 && limit < 0 {
      assert (page - 1) * limit <= limit;
    } else if page >= 1 && limit >= 0 {
      assert (page - 1) * limit >= 0;
    } else {
      assert (1 - page) * (-limit) >= 0;
    }
  }

  /** Every row of the full result appears on some page between 1 and totalPages. */
  lemma {:induction false} EveryRowOnSomePage<T>(all: seq<T>, limit: nat, i: nat)
    requires limit >= 1 && i < |all|
    ensures var p := i / limit + 1;
      Paginate(all, p, limit).Ok? && 1 <= p <= Paginate(all, p, limit).value.totalPages &&
      all[i] in Paginate(all, p, limit).value.items
  {
    var p := i / limit + 1;
    var q := i / limit;
    var skip := (p - 1) * limit;
    assert skip == q * limit;
    assert q * limit <= i < q * limit + limit by {
      assert i == q * limit + i % limit;
    }
    var r := Paginate(all, p, limit).value;
    assert skip <= i < |all|;
    assert |r.items| == Min(limit, |all| - skip);
    assert 0 <= i - skip < |r.items|;
    assert r.items[i - skip] == all[i];
    var t := r.totalPages;
    CeilDivBounds(|all|, limit);
    assert q * limit < t * limit;
    MulCancel(q, t, limit);
  }

  /**
   * A `findMany` with a `where` and an `orderBy`: the matching rows, stably
   * sorted on the key.
   */
  function Query<T(==)>(m: map<nat, T>, n: nat, p: T -> bool, key: T -> int, desc: bool): (r: seq<T>)
    ensures forall i :: 0 <= i < |r| ==> p(r[i]) && exists k :: k in m && k < n && m[k] == r[i]
    ensures forall k :: k in m && k < n && p(m[k]) ==> m[k] in r
    ensures SortedByKey(r, key, desc)
    ensures |r| == |KeysWhere(m, n, p)|
  {
    QueryRows(m, n, p, key, desc);
    SortByKey(SelectRows(m, n, p), key, desc)
  }

  lemma QueryRows<T>(m: map<nat, T>, n: nat, p: T -> bool, key: T -> int, desc: bool)
    ensures var r := SortByKey(SelectRows(m, n, p), key, desc);
      (forall i :: 0 <= i < |r| ==> p(r[i]) && exists k :: k in m && k < n && m[k] == r[i])
      && (forall k :: k in m && k < n && p(m[k]) ==> m[k] in r)
      && |r| == |KeysWhere(m, n, p)|
  {
    var rows := SelectRows(m, n, p);
    var r := SortByKey(rows, key, desc);
    SelectRowsSound(m, n, p);
    forall i | 0 <= i < |r|
      ensures p(r[i]) && exists k :: k in m && k < n && m[k] == r[i]
    {
      assert r[i] in multiset(rows);
      var j :| 0 <= j < |rows| && rows[j] == r[i];
    }
    forall k | k in m && k < n && p(m[k])
      ensures m[k] in r
    {
      assert m[k] in multiset(rows);
    }
    SelectRowsCount(m, n, p);
  }

  /** A slice of a sorted list is sorted. */
  lemma SliceSorted<T>(s: seq<T>, skip: nat, take: nat, key: T -> int, desc: bool)
    requires SortedByKey(s, key, desc)
    ensures SortedByKey(Slice(s, skip, take), key, desc)
  {
    var r := Slice(s, skip, take);
    forall i, j | 0 <= i < j < |r|
      ensures InOrder(key(r[i]), key(r[j]), desc)
    {
      assert r[i] == s[skip + i] && r[j] == s[skip + j];
    }
  }

  /** Every element of a slice is an element of the list. */
  lemma SliceWithin<T>(s: seq<T>, skip: nat, take: nat)
    ensures forall i :: 0 <= i < |Slice(s, skip, take)| ==> Slice(s, skip, take)[i] in s
  {
  }

  /**
   * The first `take` elements of a sorted list are sorted, and every element
   * of the list left out of them may follow each of them in the order.
   */
  lemma PrefixLeads<T>(all: seq<T>, take: nat, key: T -> int, desc: bool)
    requires SortedByKey(all, key, desc)
    ensures SortedByKey(Slice(all, 0, take), key, desc)
    ensures forall x :: x in all && x !in Slice(all, 0, take) ==>
      forall i :: 0 <= i < |Slice(all, 0, take)| ==> InOrder(key(Slice(all, 0, take)[i]), key(x), desc)
  {
    var shown := Slice(all, 0, take);
    SliceSorted(all, 0, take, key, desc);
    forall x | x in all && x !in shown
      ensures forall i :: 0 <= i < |shown| ==> InOrder(key(shown[i]), key(x), desc)
    {
      var j :| 0 <= j < |all| && all[j] == x;
      forall i | 0 <= i < |shown|
        ensures InOrder(key(shown[i]), key(x), desc)
      {
        assert shown[i] == all[i];
      }
    }
  }

  /**
   * The first `take` rows of a query: as many as match, up to `take`, each a
   * stored row, in order, and no matching row left out comes before any of them.
   */
  lemma FirstOfQuery<T>(m: map<nat, T>, n: nat, p: T -> bool, key: T -> int, desc: bool, take: nat)
    ensures var r := Slice(Query(m, n, p, key, desc), 0, take);
      |r| == Min(take, |KeysWhere(m, n, p)|)
      && SortedByKey(r, key, desc)
      && (forall i :: 0 <= i < |r| ==> r[i] in m.Values)
      && (forall k :: k in m && k < n && p(m[k]) && m[k] !in r ==>
            forall i :: 0 <= i < |r| ==> InOrder(key(r[i]), key(m[k]), desc))
  {
    var all := Query(m, n, p, key, desc);
    var r := Slice(all, 0, take);
    PrefixLeads(all, take, key, desc);
    forall i | 0 <= i < |r|
      ensures r[i] in m.Values
    {
      assert r[i] == all[i];
      var k :| k in m && k < n && m[k] == all[i];
    }
  }

  /** Every element of `r` satisfies `p` and is a row of `m` with a key below `n`. */
  ghost predicate MatchingRows<T>(m: map<nat, T>, n: nat, p: T -> bool, r: seq<T>)
  {
    forall i :: 0 <= i < |r| ==> p(r[i]) && exists k :: k in m && k < n && m[k] == r[i]
  }

  /** One page of a query holds only matching rows, in order, and reports the full count. */
  lemma PageOfQuery<T>(m: map<nat, T>, n: nat, p: T -> bool, key: T -> int, desc: bool, page: int, limit: int)
    requires limit != 0
    ensures var r := Paginate(Query(m, n, p, key, desc), page, limit);
      r.Ok? ==> MatchingRows(m, n, p, r.value.items)
                && SortedByKey(r.value.items, key, desc)
                && r.value.total == |KeysWhere(m, n, p)|
                && r.value.totalPages == JsCeilDiv(r.value.total, limit)
  {
    var all := Query(m, n, p, key, desc);
    var r := Paginate(all, page, limit);
    if r.Ok? {
      var skip := (page - 1) * limit;
      assert skip >= 0;
      if limit > 0 {
        assert r.value.items == Slice(all, skip, limit);
        SliceOfQuery(m, n, p, key, desc, skip, limit);
      } else {
        var hi := if skip >= |all| then 0 else |all| - skip;
        var lo := hi - Min(-limit, hi);
        assert r.value.items == SliceFromEnd(all, skip, -limit) == Slice(all, lo, hi - lo);
        SliceOfQuery(m, n, p, key, desc, lo, hi - lo);
      }
    }
  }

  /** Any window of a query's result holds matching rows of the table, in the query's order. */
  lemma SliceOfQuery<T>(m: map<nat, T>, n: nat, p: T -> bool, key: T -> int, desc: bool, skip: nat, take: nat)
    ensures MatchingRows(m, n, p, Slice(Query(m, n, p, key, desc), skip, take))
    ensures SortedByKey(Slice(Query(m, n, p, key, desc), skip, take), key, desc)
  {
    var all := Query(m, n, p, key, desc);
    SliceSorted(all, skip, take, key, desc);
    SliceMatching(m, n, p, all, skip, take);
  }

  /** A window of a list of matching rows holds matching rows. */
  lemma SliceMatching<T>(m: map<nat, T>, n: nat, p: T -> bool, all: seq<T>, skip: nat, take: nat)
    requires MatchingRows(m, n, p, all)
    ensures MatchingRows(m, n, p, Slice(all, skip, take))
  {
    var r := Slice(all, skip, take);
    forall i | 0 <= i < |r|
      ensures p(r[i]) && exists k :: k in m && k < n && m[k] == r[i]
    {
      var j := skip + i;
      assert r[i] == all[j];
      var k :| k in m && k < n && m[k] == all[j];
      assert m[k] == r[i];
    }
  }

  /** Every matching row appears on some page between 1 and `totalPages`. */
  lemma EveryMatchOnSomePage<T>(m: map<nat, T>, n: nat, p: T -> bool, key: T -> int, desc: bool, limit: nat, k: nat)
    requires limit >= 1 && k in m && k < n && p(m[k])
    ensures exists pg: nat ::
      Paginate(Query(m, n, p, key, desc), pg, limit).Ok?
      && 1 <= pg <= Paginate(Query(m, n, p, key, desc), pg, limit).value.totalPages
      && m[k] in Paginate(Query(m, n, p, key, desc), pg, limit).value.items
  {
    var all := Query(m, n, p, key, desc);
    var i :| 0 <= i < |all| && all[i] == m[k];
    EveryRowOnSomePage(all, limit, i);
    var pg: nat := i / limit + 1;
    assert Paginate(all, pg, limit).Ok? && 1 <= pg <= Paginate(all, pg, limit).value.totalPages
      && m[k] in Paginate(all, pg, limit).value.items;
  }

  lemma MulCancel(a: nat, b: nat, c: nat)
    requires a * c < b * c
    ensures a < b
  {
  }
}

=== FILE: text.dfy ===
/**
 * The JavaScript string operations the frontend and services rely on:
 * `trim`, `split` on one character, `join`, `includes`, ASCII lower-casing,
 * and the comma-separated-value parsing built from them.
 */
module Text {


  /** The characters `String.prototype.trim` removes: ECMAScript WhiteSpace and LineTerminator. */
  predicate IsSpace(c: char)
  {
    var n := c as int;
    (0x09 <= n <= 0x0D) || n == 0x20 || n == 0xA0 || n == 0x1680
    || (0x2000 <= n <= 0x200A) || n == 0x2028 || n == 0x2029
    || n == 0x202F || n == 0x205F || n == 0x3000 || n == 0xFEFF
  }

  /** Drops leading white space (`trimStart`). */
  function TrimStart(s: string): (r: string)
    ensures r == [] || !IsSpace(r[0])
    ensures |r| <= |s| && r == s[|s| - |r|..]
  {
    if s != [] && IsSpace(s[0]) then TrimStart(s[1..]) else s
  }

  /** Drops trailing white space (`trimEnd`). */
  function TrimEnd(s: string): (r: string)
    ensures r == [] || !IsSpace(r[|r| - 1])
    ensures |r| <= |s| && r == s[..|r|]
  {
    if s != [] && IsSpace(s[|s| - 1]) then TrimEnd(s[..|s| - 1]) else s
  }

  /** `String.prototype.trim`. */
  function Trim(s: string): (r: string)
    ensures IsTrimmed(r)
    ensures forall c :: c in r ==> c in s
  {
    var t := TrimEnd(TrimStart(s));
    assert t != [] ==> t[0] == TrimStart(s)[0];
    t
  }

  /** A string with no white space at either end is its own trim. */
  predicate IsTrimmed(s: string)
  {
    s == [] || (!IsSpace(s[0]) && !IsSpace(s[|s| - 1]))
  }

  lemma TrimOfTrimmed(s: string)
    requires IsTrimmed(s)
    ensures Trim(s) == s
  {
  }

  /** `s.split(sep)` for a one-character separator: the pieces between separators, empty ones included. */
  function Split(s: string, sep: char): (r: seq<string>)
    ensures |r| >= 1
    ensures forall i :: 0 <= i < |r| ==> sep !in r[i]
  {
    if s == [] then [""]
    else if s[0] == sep then [""] + Split(s[1..], sep)
    else
      var rest := Split(s[1..], sep);
      [[s[0]] + rest[0]] + rest[1..]
  }

  /** `xs.join(sep)`. */
  function Join(xs: seq<string>, sep: string): string
  {
    if xs == [] then ""
    else if |xs| == 1 then xs[0]
    else xs[0] + sep + Join(xs[1..], sep)
  }

  /** A join starts with its first part, and is longer by at least a separator when there are more parts. */
  lemma JoinStartsWithFirst(xs: seq<string>, sep: string)
    requires xs != []
    ensures |Join(xs, sep)| >= |xs[0]| && Join(xs, sep)[..|xs[0]|] == xs[0]
    ensures |xs| > 1 ==> |Join(xs, sep)| >= |xs[0]| + |sep|
  {
    if |xs| > 1 {
      assert Join(xs, sep) == xs[0] + sep + Join(xs[1..], sep);
    }
  }

  lemma {:induction false} SplitNoSeparator(s: string, sep: char)
    requires sep !in s
    ensures Split(s, sep) == [s]
  {
    if s != [] {
      SplitNoSeparator(s[1..], sep);
      assert [s[0]] + s[1..] == s;
    }
  }

  lemma {:induction false} SplitAtSeparator(x: string, sep: char, rest: string)
    requires sep !in x
    ensures Split(x + [sep] + rest, sep) == [x] + Split(rest, sep)
  {
    if x == [] {
      assert x + [sep] + rest == [sep] + rest;
      assert ([sep] + rest)[1..] == rest;
    } else {
      var s := x + [sep] + rest;
      assert s[0] == x[0] && s[1..] == x[1..] + [sep] + rest;
      SplitAtSeparator(x[1..], sep, rest);
      assert [x[0]] + x[1..] == x;
    }
  }

  /** Splitting a join gives the parts back when none contains the separator. */
  lemma {:induction false} SplitJoin(xs: seq<string>, sep: char)
    requires xs != []
    requires forall i :: 0 <= i < |xs| ==> sep !in xs[i]
    ensures Split(Join(xs, [sep]), sep) == xs
  {
    if |xs| == 1 {
      SplitNoSeparator(xs[0], sep);
    } else {
      SplitJoin(xs[1..], sep);
      SplitAtSeparator(xs[0], sep, Join(xs[1..], [sep]));
      assert [xs[0]] + xs[1..] == xs;
    }
  }

  /** `sub` occurs in `s` starting at position `i`. */
  predicate OccursAt(s: string, sub: string, i: int)
  {
    0 <= i && i + |sub| <= |s| && s[i..i + |sub|] == sub
  }

  /** `s.includes(sub)`: `sub` occurs in `s` at some position. */
  predicate Contains(s: string, sub: string)
  {
    exists i :: 0 <= i <= |s| && OccursAt(s, sub, i)
  }

  /** Whether `sub` occurs in `s` at or after `from`, computed by scanning start positions. */
  function ContainsFrom(s: string, sub: string, from: nat): (b: bool)
    ensures b <==> exists i :: from <= i <= |s| && OccursAt(s, sub, i)
    decreases |s| + 1 - from
  {
    if from + |sub| > |s| then false
    else if s[from..from + |sub|] == sub then assert OccursAt(s, sub, from); true
    else
      var b := ContainsFrom(s, sub, from + 1);
      assert !OccursAt(s, sub, from);
      b
  }

  /** `toLowerCase` restricted to ASCII letters. */
  function LowerChar(c: char): char
  {
    if 'A' <= c <= 'Z' then (c as int + 32) as char else c
  }

  function ToLower(s: string): (r: string)
    ensures |r| == |s|
    ensures forall i :: 0 <= i < |s| ==> r[i] == LowerChar(s[i])
  {
    if s == [] then [] else [LowerChar(s[0])] + ToLower(s[1..])
  }

  /** Case-insensitive `includes`, as `a.toLowerCase().includes(b.toLowerCase())`. */
  predicate ContainsInsensitive(s: string, sub: string)
  {
    Contains(ToLower(s), ToLower(sub))
  }

  /** Trims every piece and keeps the non-empty ones: `.map(v => v.trim()).filter(Boolean)`. */
  function CleanPieces(pieces: seq<string>): (r: seq<string>)
    ensures |r| <= |pieces|
    ensures forall i :: 0 <= i < |r| ==> r[i] != "" && IsTrimmed(r[i])
  {
    if pieces == [] then []
    else
      var t := Trim(pieces[0]);
      var rest := CleanPieces(pieces[1..]);
      if t == "" then rest
      else
        assert IsTrimmed(t);
        assert forall i :: 0 < i <= |rest| ==> ([t] + rest)[i] == rest[i - 1];
        [t] + rest
  }

  /** `value.split(",").map(v => v.trim()).filter(Boolean)`. */
  function ParseCsv(value: string): (r: seq<string>)
    ensures forall i :: 0 <= i < |r| ==> r[i] != "" && IsTrimmed(r[i]) && ',' !in r[i]
  {
    var pieces := Split(value, ',');
    var r := CleanPieces(pieces);
    assert forall i :: 0 <= i < |r| ==> ',' !in r[i] by {
      CleanPiecesFrom(pieces, ',');
    }
    r
  }

  /** Every cleaned piece is made of characters of some input piece. */
  lemma {:induction false} CleanPiecesFrom(pieces: seq<string>, c: char)
    requires forall i :: 0 <= i < |pieces| ==> c !in pieces[i]
    ensures forall i :: 0 <= i < |CleanPieces(pieces)| ==> c !in CleanPieces(pieces)[i]
  {
    if pieces != [] {
      var tail := pieces[1..];
      assert forall i :: 0 <= i < |tail| ==> tail[i] == pieces[i + 1];
      CleanPiecesFrom(tail, c);
      var t := Trim(pieces[0]);
      assert c !in t;
      var rest := CleanPieces(tail);
      if t != "" {
        assert CleanPieces(pieces) == [t] + rest;
        assert forall i :: 0 < i <= |rest| ==> ([t] + rest)[i] == rest[i - 1];
      }
    }
  }

  /** A list element that survives a CSV round trip: non-empty, trimmed, comma-free. */
  predicate CsvSafe(x: string)
  {
    x != "" && IsTrimmed(x) && ',' !in x
  }

  lemma {:induction false} CleanPiecesOfClean(xs: seq<string>)
    requires forall i :: 0 <= i < |xs| ==> xs[i] != "" && IsTrimmed(xs[i])
    ensures CleanPieces(xs) == xs
  {
    if xs != [] {
      var head, tail := xs[0], xs[1..];
      assert [head] + tail == xs;
      TrimOfTrimmed(head);
      assert CleanPieces(xs) == [head] + CleanPieces(tail);
      CleanPiecesOfClean(tail);
    }
  }

  /** `parseCsv(toCsv(xs)) == xs` for lists of CSV-safe elements. */
  lemma CsvRoundTrip(xs: seq<string>)
    requires forall i :: 0 <= i < |xs| ==> CsvSafe(xs[i])
    ensures ParseCsv(Join(xs, ",")) == xs
  {
    if xs == [] {
      assert Split("", ',') == [""];
      assert Trim("") == "";
    } else {
      SplitJoin(xs, ',');
      CleanPiecesOfClean(xs);
    }
  }

  /** Every element `ParseCsv` produces is CSV-safe, so its output survives `toCsv` and back. */
  lemma ParseCsvIsStable(value: string)
    ensures ParseCsv(Join(ParseCsv(value), ",")) == ParseCsv(value)
  {
    CsvRoundTrip(ParseCsv(value));
  }
}

=== FILE: urlparams.dfy ===
/**
 * `URLSearchParams`: an ordered list of name/value pairs, with `append`,
 * `set`, `delete`, `get` and `toString`. Serialisation joins `name=value`
 * with `&`; the percent-encoding of the characters is not modelled.
 */
module UrlParams {
  import opened Wrappers

  datatype Pair = Pair(name: string, value: string)

  /** The names the list holds. */
  function Names(ps: seq<Pair>): (r: set<string>)
    ensures forall i :: 0 <= i < |ps| ==> ps[i].name in r
    ensures forall k :: k in r ==> exists i :: 0 <= i < |ps| && ps[i].name == k
  {
    set i | 0 <= i < |ps| :: ps[i].name
  }

  lemma NamesCons(p: Pair, rest: seq<Pair>)
    ensures Names([p] + rest) == {p.name} + Names(rest)
  {
    var s := [p] + rest;
    forall k | k in Names(s)
      ensures k in {p.name} + Names(rest)
    {
      var i :| 0 <= i < |s| && s[i].name == k;
      if i > 0 {
        assert rest[i - 1] == s[i];
      }
    }
    forall k | k in {p.name} + Names(rest)
      ensures k in Names(s)
    {
      if k != p.name {
        var i :| 0 <= i < |rest| && rest[i].name == k;
        assert s[i + 1] == rest[i];
      } else {
        assert s[0] == p;
      }
    }
  }

  /** `get(name)`: the value of the first pair with that name, or null. */
  function Get(ps: seq<Pair>, name: string): (r: Option<string>)
    ensures r.None? <==> name !in Names(ps)
  {
    if ps == [] then None
    else if ps[0].name == name then Some(ps[0].value)
    else
      NamesCons(ps[0], ps[1..]);
      assert [ps[0]] + ps[1..] == ps;
      Get(ps[1..], name)
  }

  /** The list after `delete(name)`: every pair with that name is gone. */
  function Deleted(ps: seq<Pair>, name: string): (r: seq<Pair>)
    ensures Names(r) == Names(ps) - {name}
    ensures |r| <= |ps|
  {
    if ps == [] then []
    else
      NamesCons(ps[0], ps[1..]);
      assert [ps[0]] + ps[1..] == ps;
      var rest := Deleted(ps[1..], name);
      if ps[0].name == name then rest
      else
        NamesCons(ps[0], rest);
        [ps[0]] + rest
  }

  /** The first pair named `name` takes `value` and the later ones are dropped. */
  function SetFirst(ps: seq<Pair>, name: string, value: string): (r: seq<Pair>)
    ensures Names(r) == Names(ps)
  {
    if ps == [] then []
    else
      NamesCons(ps[0], ps[1..]);
      assert [ps[0]] + ps[1..] == ps;
      if ps[0].name == name then
        var rest := Deleted(ps[1..], name);
        NamesCons(Pair(name, value), rest);
        [Pair(name, value)] + rest
      else
        var rest := SetFirst(ps[1..], name, value);
        NamesCons(ps[0], rest);
        [ps[0]] + rest
  }

  /** The list after `set(name, value)`: the first such pair is updated and the others removed, or the pair is appended. */
  function SetIn(ps: seq<Pair>, name: string, value: string): seq<Pair>
  {
    if name in Names(ps) then SetFirst(ps, name, value) else ps + [Pair(name, value)]
  }

  /** After `delete(name)` the name reads null and every other name reads as before. */
  lemma {:induction false} GetDeleted(ps: seq<Pair>, name: string, other: string)
    ensures Get(Deleted(ps, name), name) == None
    ensures other != name ==> Get(Deleted(ps, name), other) == Get(ps, other)
  {
    if ps != [] {
      GetDeleted(ps[1..], name, other);
    }
  }

  /** After `set(name, value)` the name reads `value`, held by exactly one pair, and every other name reads as before. */
  lemma {:induction false} GetSetIn(ps: seq<Pair>, name: string, value: string, other: string)
    ensures Get(SetIn(ps, name, value), name) == Some(value)
    ensures other != name ==> Get(SetIn(ps, name, value), other) == Get(ps, other)
    ensures Count(SetIn(ps, name, value), name) == 1
  {
    if name in Names(ps) {
      SetFirstGet(ps, name, value, other);
    } else {
      AppendGet(ps, Pair(name, value), other);
      AppendGet(ps, Pair(name, value), name);
      CountAbsent(ps, name);
      CountAppend(ps, Pair(name, value), name);
    }
  }

  /** How many pairs carry the name. */
  function Count(ps: seq<Pair>, name: string): nat
  {
    if ps == [] then 0 else (if ps[0].name == name then 1 else 0) + Count(ps[1..], name)
  }

  lemma {:induction false} CountAbsent(ps: seq<Pair>, name: string)
    requires name !in Names(ps)
    ensures Count(ps, name) == 0
  {
    if ps != [] {
      NamesCons(ps[0], ps[1..]);
      assert [ps[0]] + ps[1..] == ps;
      CountAbsent(ps[1..], name);
    }
  }

  lemma {:induction false} CountAppend(ps: seq<Pair>, p: Pair, name: string)
    ensures Count(ps + [p], name) == Count(ps, name) + (if p.name == name then 1 else 0)
  {
    if ps != [] {
      assert (ps + [p])[1..] == ps[1..] + [p];
      CountAppend(ps[1..], p, name);
    }
  }

  lemma {:induction false} AppendGet(ps: seq<Pair>, p: Pair, other: string)
    ensures other in Names(ps) ==> Get(ps + [p], other) == Get(ps, other)
    ensures other !in Names(ps) ==> Get(ps + [p], other) == (if p.name == other then Some(p.value) else None)
  {
    if ps != [] {
      NamesCons(ps[0], ps[1..]);
      assert [ps[0]] + ps[1..] == ps;
      assert (ps + [p])[1..] == ps[1..] + [p];
      AppendGet(ps[1..], p, other);
    }
  }

  lemma {:induction false} SetFirstGet(ps: seq<Pair>, name: string, value: string, other: string)
    requires name in Names(ps)
    ensures Get(SetFirst(ps, name, value), name) == Some(value)
    ensures other != name ==> Get(SetFirst(ps, name, value), other) == Get(ps, other)
    ensures Count(SetFirst(ps, name, value), name) == 1
  {
    NamesCons(ps[0], ps[1..]);
    assert [ps[0]] + ps[1..] == ps;
    if ps[0].name == name {
      GetDeleted(ps[1..], name, other);
      CountAbsent(Deleted(ps[1..], name), name);
    } else {
      SetFirstGet(ps[1..], name, value, other);
    }
  }

  /** `toString()`: `name=value` pairs joined with `&`. */
  function Serialize(ps: seq<Pair>): (s: string)
    ensures s == "" <==> ps == []
  {
    if ps == [] then ""
    else
      var first := ps[0].name + "=" + ps[0].value;
      assert first[|ps[0].name|] == '=';
      if |ps| == 1 then first else first + "&" + Serialize(ps[1..])
  }

  /** A `URLSearchParams` object. */
  class Params {
    var pairs: seq<Pair>

    constructor (init: seq<Pair>)
      ensures pairs == init
    {
      pairs := init;
    }

    method Append(name: string, value: string)
      modifies this
      ensures pairs == old(pairs) + [Pair(name, value)]
    {
      pairs := pairs + [Pair(name, value)];
    }

    method Set(name: string, value: string)
      modifies this
      ensures pairs == SetIn(old(pairs), name, value)
    {
      pairs := SetIn(pairs, name, value);
    }

    method Delete(name: string)
      modifies this
      ensures pairs == Deleted(old(pairs), name)
    {
      pairs := Deleted(pairs, name);
    }

    function GetValue(name: string): Option<string>
      reads this
    {
      Get(pairs, name)
    }

    function ToString(): string
      reads this
    {
      Serialize(pairs)
    }
  }
}

=== FILE: wrappers.dfy ===
/** Optional values and the error results the backend services throw. */
module Wrappers {

  datatype Option<+T> = None | Some(value: T)

  /** The HTTP exception classes the services raise, plus a datastore-level failure. */
  datatype ErrorKind =
    | NotFound       // NotFoundException
    | Forbidden      // ForbiddenException
    | BadRequest     // BadRequestException
    | Conflict       // ConflictException
    | Unauthorized   // UnauthorizedException
    | Internal       // an error raised below the service (constraint violation, null relation)

  /** An exception: its class and the message the service passes to it. */
  datatype Error = Error(kind: ErrorKind, message: string)

  datatype Result<+T> = Ok(value: T) | Err(error: Error)

  /** A JavaScript truthiness test on an optional string: absent and "" are both falsy. */
  predicate Truthy(s: Option<string>)
  {
    s.Some? && s.value != ""
  }
}
